=== FILE: README.md ===
# Vulkan renderer core, modelled in Dafny

This project models the native core of an Android Vulkan renderer:

- the swapchain and device selectors of `vulkan_wrapper.cpp`;
- the lifetime of its `VulkanContext`: the create steps of `nativeInit`, `cleanupSwapchain`, `recreateSwapchain`, `cleanup`, `nativeRender`, `nativeResize` and `nativeDestroy`;
- the move-only ownership wrapper `VulkanHandle` of `vulkan_raii.h`, with its null-guarded deleters;
- `spv_to_c_array` of `generate_shaders_h.py`, which renders SPIR-V bytes as a C array declaration.

Every Vulkan or platform call is replaced by the answer it gives: a handle, `NULL` for a failure, or a result code. The context carries a log of the create, destroy, wait and submit calls made on it. The main claims are:

- the books balance after every step: created = destroyed + held;
- `cleanup` releases exactly what is held, each object once, children before parents;
- a failed `nativeInit` leaks nothing;
- no `VulkanHandle` program destroys a handle twice;
- a moved-from wrapper is inert;
- the generated header parses back to the input bytes.

The frame loop keeps the fence defect of `nativeRender` as written. The in-flight fence is reset before the command buffer is recorded and submitted. If either step fails, the call returns without advancing the frame slot. Every later frame then waits forever on a fence nothing will signal. `FrameLoop.FailedFrameStallsForever` exhibits this. `FrameLoop.HealthyNeverStalls` is the partner: it shows that sessions without such failures do not stall before their first invalid call.

A submit that answers `VK_ERROR_DEVICE_LOST` is the exception. The Lost Device section of the Vulkan specification requires every later fence wait to return in finite time, so the model marks the fences of a lost device as `Lost`, and `FrameLoop.SubmitDeviceLostNeverStalls` shows that nothing stalls afterwards. The next frame on that slot makes an invalid acquire instead, because the failed submission never waited on the semaphore.

The model also tracks each slot's image-available semaphore. An acquire that hands out an image signals it, and only a submission waits on it. The Vulkan specification forbids an acquire with a semaphore that is still signalled (valid usage rule VUID-vkAcquireNextImageKHR-semaphore-01286), so the model reports such an acquire as an invalid call.

`FrameLoop.RenderFrameResetLate` is the corrected frame: the fence is reset after recording, just before the submit. `FrameLoop.ResetLateNeverStalls` shows that with it a failed recording no longer stalls the session. Moving the reset is not a full repair. The failed frame's acquire has already signalled the slot's semaphore and handed out an image, and nothing waits on the one or presents the other. The cursor stays on that slot, so the next acquire reuses the signalled semaphore. `FrameLoop.ResetLateFailedRecordWedges` shows that every later render of the session then makes that invalid call.

`recreateSwapchain` reports a failure, but `nativeRender` and `nativeResize` ignore it. The context stays initialised with a null swapchain or missing framebuffers, and the next `nativeRender` never delivers a frame. If the swapchain is null, its acquire is an invalid call. If the swapchain was kept and the slot's semaphore is not still signalled, an acquire answering `VK_ERROR_OUT_OF_DATE_KHR` rebuilds again and another acquire error returns; an acquire that hands out an image resets the fence and then records into a missing framebuffer, which is an invalid call. The model reports invalid calls as the `InvalidUse` outcome. `FrameLoop.FailedResizeBreaksNextFrame` exhibits this.

Files:

- `vk_types.dfy`: handles, `uint32_t` arithmetic and result codes.
- `surface_select.dfy`: the surface-format, present-mode, extent, image-count and composite-alpha selectors, plus queue sharing.
- `device_select.dfy`: `findQueueFamilies`, `pickPhysicalDevice` and `findMemoryType`.
- `resources.dfy`: object kinds, the call log and teardown ranks.
- `lifecycle.dfy`: the context, the create steps, cleanup, `nativeInit`, `nativeDestroy` and `recreateSwapchain`.
- `frame_loop.dfy`: `nativeRender`, `nativeResize` and sessions of calls.
- `vulkan_handle.dfy`: `VulkanHandle` and the deleters.
- `shader_header.dfy`: `spv_to_c_array` and its parser.

`pickPhysicalDevice` accepts a device that has a graphics family, a present family and the swapchain extension. `DeviceSelect.Suitable` states the family part directly: some family among all of them can do graphics, and some can present. `DeviceSelect.FindQueueFamilies` proves that this holds exactly when `findQueueFamilies` succeeds.

## Model

| member | source | states |
|---|---|---|
| VkTypes.ToU32 | app/src/main/cpp/vulkan_wrapper.cpp:488 | the `jint` to `uint32_t` conversion is the identity on non-negative values and adds 2^32 to negative ones |
| VkTypes.AddU32 | app/src/main/cpp/vulkan_wrapper.cpp:491 | the `uint32_t` sum equals the true sum unless it passes `UINT32_MAX`, where it wraps by 2^32 |
| SurfaceSelect.ScanFormats | app/src/main/cpp/vulkan_wrapper.cpp:441-446 | the loop finds an entry exactly when BGRA8/sRGB occurs in the rest of the list, and then returns that format |
| SurfaceSelect.ChooseSwapSurfaceFormat | app/src/main/cpp/vulkan_wrapper.cpp:440-449 | the choice is always a listed format: BGRA8/sRGB when listed, else the first entry |
| SurfaceSelect.ScanPresentModes | app/src/main/cpp/vulkan_wrapper.cpp:453-460 | the loop gives MAILBOX exactly when MAILBOX occurs in the rest of the list, FIFO otherwise |
| SurfaceSelect.ChooseSwapPresentMode | app/src/main/cpp/vulkan_wrapper.cpp:452-461 | MAILBOX exactly when listed; otherwise FIFO |
| SurfaceSelect.ChosenPresentModeIsSupported | app/src/main/cpp/vulkan_wrapper.cpp:452-461 | on a surface listing FIFO, as the WSI chapter requires, the chosen mode is one the surface listed |
| SurfaceSelect.FifoChosenWhenUnlisted | app/src/main/cpp/vulkan_wrapper.cpp:459-460 | FIFO is returned without checking the list: a surface offering only IMMEDIATE still gets FIFO |
| SurfaceSelect.Clamp | app/src/main/cpp/vulkan_wrapper.cpp:469-472 | `max(lo, min(hi, x))` lies in `[lo, hi]`, keeps values inside it, and lets the lower bound win when the bounds cross |
| SurfaceSelect.ChooseSwapExtent | app/src/main/cpp/vulkan_wrapper.cpp:464-475 | the surface's current extent is used unless its width is `0xFFFFFFFF`; in that case each dimension is clamped to the min/max image extent |
| SurfaceSelect.RequestedExtentKept | app/src/main/cpp/vulkan_wrapper.cpp:464-475 | when the swapchain decides and the requested size is within bounds, exactly the requested size is used |
| SurfaceSelect.ChooseImageCount | app/src/main/cpp/vulkan_wrapper.cpp:491-494 | the request is min+1 and never exceeds a non-zero maximum; it is the maximum when min+1 would pass it, and 0 when the `uint32_t` sum wraps |
| SurfaceSelect.ImageCountAtLeastMinimum | app/src/main/cpp/vulkan_wrapper.cpp:491-494 | on capabilities obeying the WSI chapter the request is never below the minimum |
| SurfaceSelect.ImageCountWrapsAtMaximum | app/src/main/cpp/vulkan_wrapper.cpp:491 | a minimum of `UINT32_MAX` with no maximum requests zero images |
| SurfaceSelect.FirstSupportedFrom | app/src/main/cpp/vulkan_wrapper.cpp:517-528 | the position found is supported, and no earlier mode in the preference order is |
| SurfaceSelect.ChooseCompositeAlpha | app/src/main/cpp/vulkan_wrapper.cpp:517-528 | the first supported mode in the order INHERIT, OPAQUE, POST, PRE; OPAQUE when none is supported |
| SurfaceSelect.CompositeAlphaSupportedWhenAny | app/src/main/cpp/vulkan_wrapper.cpp:517-528 | the chosen mode is one of the four, and it is supported whenever any of the four is |
| SurfaceSelect.ImageSharing | app/src/main/cpp/vulkan_wrapper.cpp:506-513 | concurrent sharing over both families exactly when the graphics and present families differ |
| SurfaceSelect.UniqueQueueFamilies | app/src/main/cpp/vulkan_wrapper.cpp:364-370 | graphics first, then present; exactly the two families, with no duplicate |
| SurfaceSelect.SharingMatchesQueueCreation | app/src/main/cpp/vulkan_wrapper.cpp:364-370 | images are shared concurrently exactly when the device was created with two queue families |
| SurfaceSelect.MakeSwapchainCreateInfo | app/src/main/cpp/vulkan_wrapper.cpp:478-531 | every decision is the one its selector makes: the chosen format, which is a listed one; the chosen mode, MAILBOX or FIFO; the extent chosen for the window size; the image count, which respects a non-zero maximum; sharing by family; the chosen composite alpha, one of the four known modes. The transform is the current one and clipping is on |
| DeviceSelect.ScanQueueFamilies | app/src/main/cpp/vulkan_wrapper.cpp:281-304 | the scan fails exactly when graphics or present is missing; otherwise it stops at the first index by which both were seen, holding the last family of each kind up to there |
| DeviceSelect.FindQueueFamilies | app/src/main/cpp/vulkan_wrapper.cpp:274-305 | `None` exactly when the device lacks a graphics or a present family; otherwise indices meeting `FamiliesFound`, graphics-capable and present-capable |
| DeviceSelect.FamiliesFoundUnique | app/src/main/cpp/vulkan_wrapper.cpp:274-305 | at most one pair of indices meets the reference description, so it determines the answer |
| DeviceSelect.FirstFamilyServesBoth | app/src/main/cpp/vulkan_wrapper.cpp:284-302 | a first family with graphics and present is used for both |
| DeviceSelect.CombinedFamilyNotPreferred | app/src/main/cpp/vulkan_wrapper.cpp:284-302 | a later combined family is not preferred: graphics-only then present-only yields families 0 and 1 |
| DeviceSelect.ScanDevices | app/src/main/cpp/vulkan_wrapper.cpp:336-356 | none exactly when no remaining device is suitable; otherwise the first suitable one, with the families `findQueueFamilies` gave for it |
| DeviceSelect.PickPhysicalDevice | app/src/main/cpp/vulkan_wrapper.cpp:325-360 | fails exactly when no device is suitable, including the empty list; otherwise the first suitable device and its families |
| DeviceSelect.ScanMemoryTypes | app/src/main/cpp/vulkan_wrapper.cpp:903-912 | `UINT32_MAX` exactly when no remaining type fits; otherwise the lowest fitting index |
| DeviceSelect.FindMemoryType | app/src/main/cpp/vulkan_wrapper.cpp:900-915 | the lowest index allowed by the filter bit with every requested property; `UINT32_MAX` exactly when there is none |
| Resources.TeardownRankRespectsCreatedFrom | app/src/main/cpp/vulkan_wrapper.cpp:1093-1197 | the rank order `cleanup` destroys in puts every object before the object it was created from |
| Lifecycle.ShaderModulesNeverHeld | app/src/main/cpp/vulkan_wrapper.cpp:740-899 | the context never holds a shader module, so balanced books mean every shader module created was destroyed |
| Lifecycle.CleanupSwapchain | app/src/main/cpp/vulkan_wrapper.cpp:984-1003 | afterwards no framebuffer, image view or swapchain is held, and the log only grows |
| Lifecycle.SwapchainTeardownReleases | app/src/main/cpp/vulkan_wrapper.cpp:984-1003 | the destroys release exactly the swapchain group, each once, framebuffers before views before the swapchain |
| Lifecycle.CleanupSwapchainAccounted | app/src/main/cpp/vulkan_wrapper.cpp:984-1003 | the books stay balanced; the destroyed side grows by exactly the swapchain group and nothing is created |
| Lifecycle.Cleanup | app/src/main/cpp/vulkan_wrapper.cpp:1093-1197 | afterwards device, surface, instance and window are null, the context is not initialised, and the log only grows |
| Lifecycle.CleanupReleasesOwned | app/src/main/cpp/vulkan_wrapper.cpp:1093-1197 | on balanced books: it destroys exactly what is held, each object once, in teardown order, after a device-idle wait when there is a device; afterwards nothing is held and everything created has been destroyed |
| Lifecycle.CleanupChildrenFirst | app/src/main/cpp/vulkan_wrapper.cpp:1093-1197 | no object is destroyed after the object it was created from |
| Lifecycle.CleanupIdempotent | app/src/main/cpp/vulkan_wrapper.cpp:1093-1197 | a second `cleanup` makes no call and changes nothing |
| Lifecycle.CreateInstance | app/src/main/cpp/vulkan_wrapper.cpp:173-257 | succeeds exactly when the instance is created; the debug messenger is stored only with validation on, and its failure does not fail the step |
| Lifecycle.CreateInstanceAccounted | app/src/main/cpp/vulkan_wrapper.cpp:173-257 | the instance and messenger it creates are the ones held: the books stay balanced |
| Lifecycle.CreateSurface | app/src/main/cpp/vulkan_wrapper.cpp:258-273 | succeeds exactly when the surface is created, and stores it |
| Lifecycle.ChoosePhysicalDevice | app/src/main/cpp/vulkan_wrapper.cpp:325-360 | succeeds exactly when some device is suitable, storing a suitable device and its families; it creates nothing and on failure changes nothing |
| Lifecycle.CreateLogicalDevice | app/src/main/cpp/vulkan_wrapper.cpp:363-407 | succeeds exactly when the device is created, and stores it |
| Lifecycle.CreateSwapchain | app/src/main/cpp/vulkan_wrapper.cpp:478-551 | fails before any call when formats or modes are empty; succeeds exactly when they are not and the swapchain is created, storing the chosen format, extent and images |
| Lifecycle.CreateSwapchainAccounted | app/src/main/cpp/vulkan_wrapper.cpp:478-551 | the books stay balanced, and the only call logged is the swapchain create |
| Lifecycle.FillHandles | app/src/main/cpp/vulkan_wrapper.cpp:555-578 | the vector keeps its size; entry `j` holds answer `j` up to the first failure and null after it; the loop succeeds exactly when every call does |
| Lifecycle.CreateImageViews | app/src/main/cpp/vulkan_wrapper.cpp:554-584 | one view per image; succeeds exactly when every view create does, and then view `j` is answer `j` |
| Lifecycle.CreateImageViewsAccounted | app/src/main/cpp/vulkan_wrapper.cpp:554-584 | the views created are exactly the non-null views held, so the books stay balanced |
| Lifecycle.CreateRenderPass | app/src/main/cpp/vulkan_wrapper.cpp:585-632 | succeeds exactly when the render pass is created, and stores it |
| Lifecycle.CreateGraphicsPipeline | app/src/main/cpp/vulkan_wrapper.cpp:740-899 | succeeds exactly when both modules, the layout and the pipeline are created; once both modules exist they are the last two objects destroyed; a failed pipeline leaves the layout held |
| Lifecycle.PipelineEventsCounts | app/src/main/cpp/vulkan_wrapper.cpp:740-899 | whatever the answers, every shader module created is destroyed, and the only other objects created are the layout and pipeline kept |
| Lifecycle.CreateGraphicsPipelineAccounted | app/src/main/cpp/vulkan_wrapper.cpp:740-899 | the books stay balanced on every failure path |
| Lifecycle.CreateVertexBuffer | app/src/main/cpp/vulkan_wrapper.cpp:924-983 | succeeds exactly when the buffer, a host-visible coherent memory type, the allocation, bind and map all succeed; memory is stored only once a type was found |
| Lifecycle.CreateVertexBufferAccounted | app/src/main/cpp/vulkan_wrapper.cpp:924-983 | a failure leaves what was made held by the context: the books stay balanced |
| Lifecycle.CreateFramebuffers | app/src/main/cpp/vulkan_wrapper.cpp:633-659 | one framebuffer per view; succeeds exactly when every create does, and then framebuffer `j` is answer `j` |
| Lifecycle.CreateFramebuffersAccounted | app/src/main/cpp/vulkan_wrapper.cpp:633-659 | the framebuffers created are exactly the non-null ones held |
| Lifecycle.CreateCommandPool | app/src/main/cpp/vulkan_wrapper.cpp:660-676 | succeeds exactly when the pool is created, and stores it |
| Lifecycle.CreateCommandBuffers | app/src/main/cpp/vulkan_wrapper.cpp:677-696 | succeeds exactly when the allocation does; no object is owned separately from the pool |
| Lifecycle.FillSlots | app/src/main/cpp/vulkan_wrapper.cpp:708-716 | one slot per remaining frame, each holding what its three short-circuited calls reached; succeeds exactly when all calls do |
| Lifecycle.FailedSlot | app/src/main/cpp/vulkan_wrapper.cpp:708-716 | after a failing call, the remaining calls of the slot are skipped and every later slot stays empty |
| Lifecycle.CreateSyncObjects | app/src/main/cpp/vulkan_wrapper.cpp:697-722 | succeeds exactly when all six creates succeed; one slot per frame in flight, each holding what its calls answered |
| Lifecycle.CreateSyncObjectsAccounted | app/src/main/cpp/vulkan_wrapper.cpp:697-722 | the semaphores and fences created are exactly those held |
| Lifecycle.SyncObjectsReady | app/src/main/cpp/vulkan_wrapper.cpp:697-722 | after success every slot holds a fence, created signalled |
| Lifecycle.Abort | app/src/main/cpp/vulkan_wrapper.cpp:1222-1310 | the failure path of `nativeInit`: afterwards nothing is held and every object created has been destroyed |
| Lifecycle.InitDevice | app/src/main/cpp/vulkan_wrapper.cpp:1221-1247 | succeeds exactly when instance, surface, device pick and logical device all succeed, with balanced books either way |
| Lifecycle.InitSwapchain | app/src/main/cpp/vulkan_wrapper.cpp:1249-1268 | succeeds exactly when swapchain, views and render pass succeed; then there is one view per image |
| Lifecycle.InitPipeline | app/src/main/cpp/vulkan_wrapper.cpp:1270-1289 | succeeds exactly when pipeline, vertex buffer and one framebuffer per view succeed |
| Lifecycle.InitGraphics | app/src/main/cpp/vulkan_wrapper.cpp:1270-1282 | succeeds exactly when the pipeline and the vertex buffer succeed, leaving the views as they were |
| Lifecycle.InitFrames | app/src/main/cpp/vulkan_wrapper.cpp:1291-1310 | succeeds exactly when pool, command buffers and sync objects succeed; then every slot's fence exists and is signalled |
| Lifecycle.NativeInit | app/src/main/cpp/vulkan_wrapper.cpp:1201-1316 | succeeds exactly when every create call does; then the context is live at frame 0 with signalled fences; otherwise nothing is held and nothing created leaks |
| Lifecycle.NativeDestroy | app/src/main/cpp/vulkan_wrapper.cpp:1424-1437 | a null context is ignored; on balanced books everything ever created has been destroyed and nothing is held |
| Lifecycle.DrainFences | app/src/main/cpp/vulkan_wrapper.cpp:1009 | waiting for idle signals every fence with a pending submission and keeps every other fence as it was |
| Lifecycle.Idle | app/src/main/cpp/vulkan_wrapper.cpp:1009 | the idle wait drains the fences and logs only the wait |
| Lifecycle.IdleAccounted | app/src/main/cpp/vulkan_wrapper.cpp:1009 | the device-idle wait changes no ownership |
| Lifecycle.RecreateSwapchain | app/src/main/cpp/vulkan_wrapper.cpp:1006-1019 | device, initialisation flag, frame cursor and size are kept; the fences are drained |
| Lifecycle.RecreateOutcome | app/src/main/cpp/vulkan_wrapper.cpp:1006-1019 | the rebuild succeeds exactly when every create succeeds; then one view and one framebuffer per new image. It stops at the first failure: a failed swapchain leaves a null swapchain, no views and no framebuffers; a failed view leaves no framebuffers; views and framebuffers hold the answers up to the first failure and null after it |
| Lifecycle.RecreateAccounted | app/src/main/cpp/vulkan_wrapper.cpp:1006-1019 | the rebuild keeps the books balanced and the session live |
| Lifecycle.RecreateLog | app/src/main/cpp/vulkan_wrapper.cpp:1006-1019 | the log is the idle wait, the destroys of `cleanupSwapchain`, then the create of the swapchain, then those of the views it holds, then those of the framebuffers it holds; a failed swapchain create adds nothing |
| FrameLoop.WithAvailable | app/src/main/cpp/vulkan_wrapper.cpp:1332-1334 | an acquire signals one slot's image-available semaphore, and a submission waiting on it clears the signal; that slot's fence and every other slot are unchanged |
| FrameLoop.WithFence | app/src/main/cpp/vulkan_wrapper.cpp:1328 | a fence call sets the state of one slot's fence, unless its device is lost, and leaves its semaphore and every other slot unchanged |
| FrameLoop.LostSlots | app/src/main/cpp/vulkan_wrapper.cpp:1368-1372 | every slot keeps its handles and its fence becomes a fence of a lost device |
| FrameLoop.LoseDevice | app/src/main/cpp/vulkan_wrapper.cpp:1368-1372 | a lost device changes nothing but the fences, all of which become lost; every semaphore keeps its state |
| FrameLoop.SubmitAndPresent | app/src/main/cpp/vulkan_wrapper.cpp:1356-1385 | the submit waits on the slot's image-available semaphore, which is then no longer signalled; the other slots' semaphores are unchanged; the submit and the present are logged |
| FrameLoop.Deliver | app/src/main/cpp/vulkan_wrapper.cpp:1368-1393 | after submit and present, the cursor advances modulo the frames in flight. A present answering OUT_OF_DATE or SUBOPTIMAL rebuilds the swapchain; any other answer leaves the swapchain, images and framebuffers as they were and logs only the submit and the present. A present answering device loss makes every fence lost; otherwise only the submitted fence is no longer left unsignalled |
| FrameLoop.DeliverSemaphores | app/src/main/cpp/vulkan_wrapper.cpp:1356-1393 | after a delivered frame, a semaphore is signalled exactly when it is not the submitted slot's and was signalled before, whatever the present answers |
| FrameLoop.RecordAndSubmit | app/src/main/cpp/vulkan_wrapper.cpp:1346-1393 | a failed recording, a failed submit and a lost device each stop the frame, with the fence left as reset; a lost device makes every fence lost; only a recorded and submitted frame is delivered, and only it advances the cursor |
| FrameLoop.AcquireAndDraw | app/src/main/cpp/vulkan_wrapper.cpp:1330-1393 | an acquire is invalid on a null swapchain or with the slot's semaphore still signalled by an earlier acquire. Otherwise acquire OUT_OF_DATE rebuilds the swapchain and any other acquire failure returns, both before the fence is reset; acquire device loss makes every fence lost. An acquired image signals the semaphore and resets the fence; recording is then invalid unless there is a framebuffer per image, and otherwise the frame is recorded and submitted |
| FrameLoop.RenderFrame | app/src/main/cpp/vulkan_wrapper.cpp:1318-1399 | uninitialised: ignored. Otherwise it stalls exactly when the current fence is unsignalled with nothing pending. Past the wait, it makes an invalid call exactly when it cannot acquire (the swapchain is null or the slot's semaphore is still signalled), or an image is acquired without a framebuffer per image. Acquire OUT_OF_DATE, when it can acquire, rebuilds the swapchain after the wait. It delivers exactly when it can acquire, the context is drawable, and acquire, record and submit succeed. The cursor advances only on delivery |
| FrameLoop.RenderFences | app/src/main/cpp/vulkan_wrapper.cpp:1328-1372 | a call that returns before the reset, including an invalid acquire, leaves the current fence signalled or pending. A failed record or submit, or an invalid recording, leaves it unsignalled, unless the device was already lost. A device lost by acquire or submit makes every fence lost |
| FrameLoop.RenderSemaphores | app/src/main/cpp/vulkan_wrapper.cpp:1328-1393 | the current slot's semaphore ends signalled exactly when the frame is not delivered and the semaphore either was signalled already or was signalled by an acquire the wait let through that handed out an image; no other slot's semaphore changes |
| FrameLoop.RenderKeepsLive | app/src/main/cpp/vulkan_wrapper.cpp:1318-1399 | every frame keeps the books balanced and the session live |
| FrameLoop.ResizeSurface | app/src/main/cpp/vulkan_wrapper.cpp:1401-1422 | ignored before initialisation and for an empty size; otherwise stores the new size; an unchanged size changes nothing; a changed size rebuilds the swapchain at that size |
| FrameLoop.ResizeIdempotent | app/src/main/cpp/vulkan_wrapper.cpp:1401-1422 | resizing to the size just applied changes nothing |
| FrameLoop.ResizeKeepsLive | app/src/main/cpp/vulkan_wrapper.cpp:1401-1422 | a resize keeps the books balanced and the session live |
| FrameLoop.Dispatch | app/src/main/cpp/vulkan_wrapper.cpp:1318-1422 | one entry-point call keeps the frame vectors indexable; a resize reports no frame |
| FrameLoop.Trace | app/src/main/cpp/vulkan_wrapper.cpp:1318-1422 | the context before each call of a session is the one the call before it left, starting from the given context |
| FrameLoop.Session | app/src/main/cpp/vulkan_wrapper.cpp:1318-1422 | one outcome per call, each the outcome of that call on the context the earlier calls left |
| FrameLoop.StuckStaysStuck | app/src/main/cpp/vulkan_wrapper.cpp:1328 | once stuck, any call stays stuck, and a render stalls |
| FrameLoop.StuckForever | app/src/main/cpp/vulkan_wrapper.cpp:1328 | from a stuck state every later render stalls |
| FrameLoop.FailedFrameStallsForever | app/src/main/cpp/vulkan_wrapper.cpp:1344-1372 | on a device not yet lost, after a record failure or a submit failure other than device loss, every later render call waits forever |
| FrameLoop.RenderKeepsHealthy | app/src/main/cpp/vulkan_wrapper.cpp:1318-1399 | a frame that neither fails to record nor fails to submit leaves no fence unsignalled without a submission pending, unless it records into a missing framebuffer |
| FrameLoop.DispatchKeepsHealthy | app/src/main/cpp/vulkan_wrapper.cpp:1318-1422 | without a record failure, or a submit failure other than device loss, a call does not stall, and unless it makes an invalid call it keeps every fence signalled, pending or lost |
| FrameLoop.HealthyNeverStalls | app/src/main/cpp/vulkan_wrapper.cpp:1318-1422 | from a healthy state, a session without record failures, or submit failures other than device loss, does not stall before its first invalid call |
| FrameLoop.DispatchKeepsLost | app/src/main/cpp/vulkan_wrapper.cpp:1318-1422 | once the device is lost, every call keeps it lost and none stalls |
| FrameLoop.LostNeverStalls | app/src/main/cpp/vulkan_wrapper.cpp:1318-1422 | from a lost device, no call of any session stalls |
| FrameLoop.SubmitDeviceLostNeverStalls | app/src/main/cpp/vulkan_wrapper.cpp:1368-1372 | after a submit answering device loss, no later call stalls, although the fence was reset with nothing submitted |
| FrameLoop.RenderFrameResetLate | app/src/main/cpp/vulkan_wrapper.cpp:1344-1350 | with the reset moved after recording, the frame ends as the written one does. It differs only after an acquired image, when recording fails or is invalid: the current fence is then left signalled or pending, the cursor stays in place, and the slot's semaphore stays signalled with nothing waiting on it |
| FrameLoop.DispatchResetLate | app/src/main/cpp/vulkan_wrapper.cpp:1318-1422 | one entry-point call of the corrected loop keeps the frame vectors indexable; a resize is as before |
| FrameLoop.TraceResetLate | app/src/main/cpp/vulkan_wrapper.cpp:1318-1422 | the context before each call of a corrected session is the one the call before it left |
| FrameLoop.SessionResetLate | app/src/main/cpp/vulkan_wrapper.cpp:1318-1422 | one outcome per call of the corrected loop, each the outcome of that call on the context the earlier calls left |
| FrameLoop.ResetLateKeepsHealthy | app/src/main/cpp/vulkan_wrapper.cpp:1344-1350 | in the corrected loop, a call keeps a healthy session healthy and does not stall, even when recording fails or is invalid |
| FrameLoop.ResetLateNeverStalls | app/src/main/cpp/vulkan_wrapper.cpp:1344-1350 | in the corrected loop, from a healthy state, a session without submit failures other than device loss never stalls, whatever recording answers. It does not claim the frames deliver; see ResetLateFailedRecordWedges |
| FrameLoop.WedgedStaysWedged | app/src/main/cpp/vulkan_wrapper.cpp:1328-1334 | once the current fence wait returns but the current slot's semaphore is left signalled, any call keeps it so, each render makes an invalid acquire, and the two loops agree |
| FrameLoop.WedgedForever | app/src/main/cpp/vulkan_wrapper.cpp:1328-1334 | from that state every later render of the corrected loop makes an invalid acquire |
| FrameLoop.ResetLateFailedRecordWedges | app/src/main/cpp/vulkan_wrapper.cpp:1332-1350 | in the corrected loop, a failed recording leaves the slot's semaphore signalled and the cursor in place, so every later render makes an invalid acquire |
| FrameLoop.RecreateDrawable | app/src/main/cpp/vulkan_wrapper.cpp:1006-1019 | a rebuild leaves a swapchain and a framebuffer for each of its images exactly when it reports success |
| FrameLoop.FailedRebuildBreaksNextFrame | app/src/main/cpp/vulkan_wrapper.cpp:1330-1338 | after a failed rebuild the context is still initialised but not drawable, and the next render never delivers. Past its wait it makes an invalid call exactly when it cannot acquire or an image is acquired; otherwise the acquire answer ends it as on any frame |
| FrameLoop.FailedResizeBreaksNextFrame | app/src/main/cpp/vulkan_wrapper.cpp:1416-1421 | after a resize whose rebuild fails, the next render never delivers; past its wait it makes an invalid call exactly when it cannot acquire or an image is acquired |
| FrameLoop.InitStartsHealthy | app/src/main/cpp/vulkan_wrapper.cpp:1201-1316 | the state `nativeInit` leaves is healthy and indexable |
| UniqueHandle.Delete | app/src/main/cpp/vulkan_raii.h:88-218 | a deleter destroys the handle, of its own type, exactly when the handle and any parent it needs are non-null; the device deleter waits for idle first |
| UniqueHandle.DeviceWaitsBeforeDestroy | app/src/main/cpp/vulkan_raii.h:102-110 | a device is waited idle and then destroyed |
| UniqueHandle.Empty | app/src/main/cpp/vulkan_raii.h:22 | the default wrapper holds null, with the default deleter |
| UniqueHandle.Wrap | app/src/main/cpp/vulkan_raii.h:24 | the handle is held, with the default deleter |
| UniqueHandle.WrapWith | app/src/main/cpp/vulkan_raii.h:26-27 | the handle and the deleter are both held |
| UniqueHandle.IsSet | app/src/main/cpp/vulkan_raii.h:61 | true exactly when `get()` is non-null |
| UniqueHandle.Drop | app/src/main/cpp/vulkan_raii.h:29-33 | the destructor calls nothing for a null handle; it destroys the held handle exactly when it is set and the deleter can act |
| UniqueHandle.DefaultDeleterNeverDestroys | app/src/main/cpp/vulkan_raii.h:24 | a wrapper built from a handle alone, for a type needing a parent, never destroys it |
| UniqueHandle.MoveFrom | app/src/main/cpp/vulkan_raii.h:39-42 | the new wrapper takes the handle and deleter; the source holds null |
| UniqueHandle.MoveAssign | app/src/main/cpp/vulkan_raii.h:44-54 | self-assignment does nothing; otherwise the old handle is released through its deleter, then the handle and deleter move and the source holds null |
| UniqueHandle.Reset | app/src/main/cpp/vulkan_raii.h:64-69 | the old handle goes through the deleter, the new one is held, and the deleter is kept |
| UniqueHandle.Release | app/src/main/cpp/vulkan_raii.h:72-76 | the held handle is returned, the wrapper holds null, and nothing is destroyed |
| UniqueHandle.MovedFromIsInert | app/src/main/cpp/vulkan_raii.h:39-76 | destroying a moved-from or released wrapper calls nothing; the destroy owed moves with the handle |
| UniqueHandle.ResetToSelfDestroysTwice | app/src/main/cpp/vulkan_raii.h:64-69 | resetting to the handle already held destroys it now and again at destruction |
| UniqueHandle.ConstructSound | app/src/main/cpp/vulkan_raii.h:22-27 | constructing with a fresh handle keeps every handle destroyed at most once, held at most once, and never held after destruction |
| UniqueHandle.MoveConstructSound | app/src/main/cpp/vulkan_raii.h:39-42 | a move construction keeps that soundness |
| UniqueHandle.MoveAssignSound | app/src/main/cpp/vulkan_raii.h:44-54 | a move assignment keeps that soundness |
| UniqueHandle.ResetSound | app/src/main/cpp/vulkan_raii.h:64-69 | a reset to a fresh or null handle keeps that soundness |
| UniqueHandle.ReleaseSound | app/src/main/cpp/vulkan_raii.h:72-76 | a release keeps that soundness |
| UniqueHandle.DestructSound | app/src/main/cpp/vulkan_raii.h:29-33 | a destruction keeps that soundness |
| UniqueHandle.ApplySound | app/src/main/cpp/vulkan_raii.h:22-76 | any single operation keeps that soundness, given fresh handles where one is handed over |
| UniqueHandle.RunSound | app/src/main/cpp/vulkan_raii.h:22-76 | any sequence of operations keeps that soundness |
| UniqueHandle.DestroyedAtMostOnce | app/src/main/cpp/vulkan_raii.h:22-76 | over any program of constructs, moves, resets to fresh handles, releases and destructions, no handle is destroyed twice |
| ShaderHeader.HexByte | app/src/main/cpp/generate_shaders_h.py:18 | `0x` followed by exactly two lower-case hex digits |
| ShaderHeader.HexByteRoundTrip | app/src/main/cpp/generate_shaders_h.py:18 | a rendered byte parses back to itself |
| ShaderHeader.JoinHex | app/src/main/cpp/generate_shaders_h.py:18 | the joined chunk is six characters per byte minus the final separator |
| ShaderHeader.ByteLines | app/src/main/cpp/generate_shaders_h.py:16-21 | no lines for no bytes; otherwise enough lines of twelve for the bytes, and no more |
| ShaderHeader.ByteLinesShape | app/src/main/cpp/generate_shaders_h.py:16-21 | line `j` holds bytes `12j` up to `12j+12` and ends in a comma exactly when a later line exists |
| ShaderHeader.TokensRoundTrip | app/src/main/cpp/generate_shaders_h.py:18-20 | the tokens of a line parse back to its chunk, with or without the trailing comma |
| ShaderHeader.ByteLinesRoundTrip | app/src/main/cpp/generate_shaders_h.py:16-21 | the byte lines parse back to exactly the input bytes, in order |
| ShaderHeader.Decimal | app/src/main/cpp/generate_shaders_h.py:24 | `str(n)` is a non-empty string of decimal digits |
| ShaderHeader.DecimalRoundTrip | app/src/main/cpp/generate_shaders_h.py:24 | the length rendered in decimal parses back to itself |
| ShaderHeader.SplitJoin | app/src/main/cpp/generate_shaders_h.py:26 | joining newline-free lines with `\n` and splitting again gives the lines back |
| ShaderHeader.DeclarationLines | app/src/main/cpp/generate_shaders_h.py:13-24 | the header line, the byte lines, `};` and the `_len` line, in that order |
| ShaderHeader.ByteLinesNoNewline | app/src/main/cpp/generate_shaders_h.py:16-21 | no byte line contains a newline |
| ShaderHeader.DeclarationLinesNoNewline | app/src/main/cpp/generate_shaders_h.py:13-24 | for a newline-free array name, no line of the declaration contains a newline |
| ShaderHeader.SpvToCArrayRoundTrip | app/src/main/cpp/generate_shaders_h.py:7-26 | reading the declaration back gives the array name, exactly the input bytes in order, and a `_len` equal to their count |

## Left out

- Real Vulkan, Android and JNI calls. Each is replaced by the answer it returns; a failure is a `NULL` handle or a result code.
- GPU asynchrony. A submission is completed by the wait that observes it, or by the idle wait of `recreateSwapchain` and `cleanup`.
- The timeout of `vkWaitForFences`. `UINT64_MAX` is treated as waiting forever, except on a lost device, where the wait returns.
- Device loss reported by a create call, by `vkDeviceWaitIdle` or by a fence wait. Only acquire, submit and present answers mark the device lost; a create call that fails answers `NULL` either way.
- Queue handles, command buffer handles, the frame counter and logging. They own nothing and do not steer the control flow.
- `recordCommandBuffer` internals, the rotation angle and push constants. Recording is modelled only by whether it succeeds.
- The fields of the create-info structs: application info, render pass attachments and subpasses, pipeline state, and buffer sizes. Only the decisions the control flow depends on are modelled.
- The debug callback, the validation-layer query and the `NDEBUG` build switch. `CreateInstance` takes "validation enabled and available" as an input.
- `vkResultToString`, `math_utils.h`, and `VulkanHandle::ptr()`, which only exposes storage.
- The file reading and header writing of `generate_shaders_h.py`. The model starts from the bytes and produces the text.
- A null context handle passed to `nativeRender` or `nativeResize`: the model starts from an existing context. `nativeDestroy` does model the null case.
- The families `pickPhysicalDevice` writes while rejecting devices. They are overwritten by the chosen device or never read.
- UniqueHandle.Apply: an operation naming an object that was already destroyed is a use after destruction in C++; the model leaves the world unchanged for it.
- UniqueHandle.ResetSound: stated for a reset to a fresh or null handle only, because `ResetToSelfDestroysTwice` shows the other case destroys twice.
- RenderFrame: which image `vkAcquireNextImageKHR` hands out is not modelled. An acquired image on a swapchain without a framebuffer for every image is reported as `InvalidUse` whichever image it is, although a framebuffer might exist for that one image.
- HealthyNeverStalls: promises nothing after the first `InvalidUse` frame. C++ leaves what follows an invalid call undefined, so the model ends such a call at that point, with the fence already reset when the invalid call is the recording.
- RenderFrameResetLate: a submit failure other than device loss still leaves the fence reset with nothing pending, so the corrected loop still stalls after one; the source shows no intended recovery for that case.
- RenderFrameResetLate: after a failed recording the acquired image is never presented and its semaphore stays signalled, so every later acquire from that slot is invalid (`ResetLateFailedRecordWedges`). A repair needs a call the source never makes, such as recreating the semaphore or submitting a batch that waits on it, so the corrected frame does not invent one.
- RecordAndSubmit: a submit answering device loss keeps the slot's semaphore marked signalled. After device loss the Vulkan specification does not say what state a failed submission leaves its semaphores in, and the model takes the reading in which nothing waited on it.
- The render-finished semaphores and the count of images held unpresented are not tracked. The present of the same call always waits on the render-finished semaphore its submit signals, and an unpresented image only arises where the image-available semaphore already makes the next acquire invalid.
- FailedResizeBreaksNextFrame: only the failure is exhibited. There is no corrected caller, because the source gives no sign of what a caller should do with a failed rebuild.

## Findings

| source | as written | input that shows it | evidently intended | confidence | as-written member | corrected member |
|---|---|---|---|---|---|---|
| app/src/main/cpp/vulkan_wrapper.cpp:1344-1350 | `vkResetFences` runs before `recordCommandBuffer`; a failed recording returns with the fence reset, nothing submitted and the frame slot unchanged | a healthy context, then one `nativeRender` whose recording fails (`vkBeginCommandBuffer` or `vkEndCommandBuffer` answers an error), then any `nativeRender` | the next frame's wait returns; the fence is reset only once work that will signal it is about to be submitted. This moved reset does not release the acquired image or its semaphore, which `FrameLoop.ResetLateFailedRecordWedges` shows | medium, not executed | FrameLoop.FailedFrameStallsForever | FrameLoop.ResetLateNeverStalls |

=== FILE: device_select.dfy ===
/** Physical-device negotiation of the renderer: queue-family discovery,
    the swapchain-extension check, the device pick and the memory-type
    search. Each Vulkan query is replaced by the data it returns. */
module DeviceSelect {
  import opened VkTypes

  const QUEUE_GRAPHICS_BIT: bv32 := 0x1
  const SWAPCHAIN_EXTENSION_NAME: string := "VK_KHR_swapchain"

  /** `VK_MAX_MEMORY_TYPES`: the size of `VkPhysicalDeviceMemoryProperties::memoryTypes`. */
  const MAX_MEMORY_TYPES: nat := 32
  const MEMORY_PROPERTY_HOST_VISIBLE: bv32 := 0x2
  const MEMORY_PROPERTY_HOST_COHERENT: bv32 := 0x4

  /** One `VkQueueFamilyProperties` entry together with the answer of
      `vkGetPhysicalDeviceSurfaceSupportKHR` for that family. */
  datatype QueueFamily = QueueFamily(queueFlags: bv32, presentSupport: bool)

  predicate HasGraphics(f: QueueFamily) {
    f.queueFlags & QUEUE_GRAPHICS_BIT != 0
  }

  /** The graphics and present family indices stored in the context. */
  datatype QueueFamilies = QueueFamilies(graphics: nat, present: nat)

  // ---------------------------------------------------------------------------
  // Queue families
  // ---------------------------------------------------------------------------

  predicate GraphicsAmong(fams: seq<QueueFamily>, k: nat)
    requires k <= |fams|
  {
    exists i :: 0 <= i < k && HasGraphics(fams[i])
  }

  predicate PresentAmong(fams: seq<QueueFamily>, k: nat)
    requires k <= |fams|
  {
    exists i :: 0 <= i < k && fams[i].presentSupport
  }

  /** The first `k` families offer both a graphics and a present family. */
  predicate Settled(fams: seq<QueueFamily>, k: nat)
    requires k <= |fams|
  {
    GraphicsAmong(fams, k) && PresentAmong(fams, k)
  }

  /** `g` is the last graphics-capable family at or before index `k`. */
  predicate LastGraphicsUpTo(fams: seq<QueueFamily>, g: nat, k: nat)
    requires k < |fams|
  {
    g <= k && HasGraphics(fams[g]) && forall j :: g < j <= k ==> !HasGraphics(fams[j])
  }

  /** `p` is the last present-capable family at or before index `k`. */
  predicate LastPresentUpTo(fams: seq<QueueFamily>, p: nat, k: nat)
    requires k < |fams|
  {
    p <= k && fams[p].presentSupport && forall j :: p < j <= k ==> !fams[j].presentSupport
  }

  function MaxIndex(a: nat, b: nat): nat { if a < b then b else a }

  /** What `findQueueFamilies` answers when it succeeds: the scan stops at the
      first index `k` by which both kinds have been seen, and each stored index
      is the last family of its kind up to `k` (the loop overwrites on every
      capable family and only then tests for the break). */
  predicate FamiliesFound(fams: seq<QueueFamily>, r: QueueFamilies) {
    var k := MaxIndex(r.graphics, r.present);
    && k < |fams|
    && Settled(fams, k + 1)
    && !Settled(fams, k)
    && LastGraphicsUpTo(fams, r.graphics, k)
    && LastPresentUpTo(fams, r.present, k)
  }

  /** The loop of `findQueueFamilies` from index `i`, with the indices found so
      far (`None` plays the `UINT32_MAX` sentinel: a `uint32_t` family count
      keeps every real index below it). */
  function ScanQueueFamilies(fams: seq<QueueFamily>, i: nat, g: Option<nat>, p: Option<nat>): (r: Option<QueueFamilies>)
    requires i <= |fams|
    requires !(g.Some? && p.Some?)
    requires g.None? <==> !GraphicsAmong(fams, i)
    requires g.Some? ==> g.value < i && LastGraphicsUpTo(fams, g.value, i - 1)
    requires p.None? <==> !PresentAmong(fams, i)
    requires p.Some? ==> p.value < i && LastPresentUpTo(fams, p.value, i - 1)
    decreases |fams| - i
    ensures r.None? <==> !Settled(fams, |fams|)
    ensures r.Some? ==> FamiliesFound(fams, r.value)
  {
    if i == |fams| then None
    else
      var g' := if HasGraphics(fams[i]) then Some(i) else g;
      var p' := if fams[i].presentSupport then Some(i) else p;
      if g'.Some? && p'.Some? then
        assert Settled(fams, i + 1);
        Some(QueueFamilies(g'.value, p'.value))
      else
        ScanQueueFamilies(fams, i + 1, g', p')
  }

  /** `findQueueFamilies`: `None` when the device lacks a graphics or a present
      family. */
  function FindQueueFamilies(fams: seq<QueueFamily>): (r: Option<QueueFamilies>)
    ensures r.None? <==> !Settled(fams, |fams|)
    ensures r.Some? ==> FamiliesFound(fams, r.value)
    ensures r.Some? ==> HasGraphics(fams[r.value.graphics]) && fams[r.value.present].presentSupport
  {
    ScanQueueFamilies(fams, 0, None, None)
  }

  lemma SettledMonotone(fams: seq<QueueFamily>, a: nat, b: nat)
    requires a <= b <= |fams|
    requires Settled(fams, a)
    ensures Settled(fams, b)
  {
    var i :| 0 <= i < a && HasGraphics(fams[i]);
    var j :| 0 <= j < a && fams[j].presentSupport;
    assert 0 <= i < b && HasGraphics(fams[i]);
    assert 0 <= j < b && fams[j].presentSupport;
  }

  /** `FamiliesFound` pins the answer down: at most one pair of indices meets
      it, so it is a complete reference description of `findQueueFamilies`. */
  lemma FamiliesFoundUnique(fams: seq<QueueFamily>, a: QueueFamilies, b: QueueFamilies)
    requires FamiliesFound(fams, a) && FamiliesFound(fams, b)
    ensures a == b
  {
    var ka := MaxIndex(a.graphics, a.present);
    var kb := MaxIndex(b.graphics, b.present);
    if ka < kb {
      SettledMonotone(fams, ka + 1, kb);
      assert false;
    } else if kb < ka {
      SettledMonotone(fams, kb + 1, ka);
      assert false;
    }
    assert ka == kb;
  }

  /** A first family offering both graphics and present is used for both. */
  lemma FirstFamilyServesBoth(fams: seq<QueueFamily>)
    requires |fams| > 0 && HasGraphics(fams[0]) && fams[0].presentSupport
    ensures FindQueueFamilies(fams) == Some(QueueFamilies(0, 0))
  {
  }

  /** Despite its "prefer queue family that supports both" comment, the scan
      does not look for a combined family: a graphics-only family followed by
      a present-only one yields two distinct families although a later family
      supports both. */
  lemma CombinedFamilyNotPreferred()
    ensures FindQueueFamilies([QueueFamily(0x1, false), QueueFamily(0x0, true), QueueFamily(0x1, true)])
      == Some(QueueFamilies(0, 1))
  {
    var fams := [QueueFamily(0x1, false), QueueFamily(0x0, true), QueueFamily(0x1, true)];
    assert HasGraphics(fams[0]) && !fams[0].presentSupport;
    assert !HasGraphics(fams[1]) && fams[1].presentSupport;
    assert GraphicsAmong(fams, 1);
    assert !PresentAmong(fams, 1);
  }

  // ---------------------------------------------------------------------------
  // Device pick
  // ---------------------------------------------------------------------------

  /** A physical device as the pick sees it: its queue families and the names
      of its device extensions. */
  datatype PhysicalDevice = PhysicalDevice(queueFamilies: seq<QueueFamily>, extensions: seq<string>)

  /** `checkDeviceExtensions`. */
  predicate HasSwapchainExtension(d: PhysicalDevice) {
    SWAPCHAIN_EXTENSION_NAME in d.extensions
  }

  /** A device `pickPhysicalDevice` accepts: some family can do graphics,
      some family can present, and the swapchain extension is there. */
  predicate Suitable(d: PhysicalDevice) {
    Settled(d.queueFamilies, |d.queueFamilies|) && HasSwapchainExtension(d)
  }

  /** The device chosen and the families `findQueueFamilies` stored for it. */
  datatype Pick = Pick(device: nat, families: QueueFamilies)

  /** The loop of `pickPhysicalDevice` from position `i`. */
  function ScanDevices(devices: seq<PhysicalDevice>, i: nat): (r: Option<Pick>)
    requires i <= |devices|
    decreases |devices| - i
    ensures r.None? <==> forall j :: i <= j < |devices| ==> !Suitable(devices[j])
    ensures r.Some? ==>
      && i <= r.value.device < |devices|
      && Suitable(devices[r.value.device])
      && (forall j :: i <= j < r.value.device ==> !Suitable(devices[j]))
      && Some(r.value.families) == FindQueueFamilies(devices[r.value.device].queueFamilies)
  {
    if i == |devices| then None
    else
      var found := FindQueueFamilies(devices[i].queueFamilies);
      if found.Some? && HasSwapchainExtension(devices[i]) then
        assert Suitable(devices[i]);
        Some(Pick(i, found.value))
      else
        assert !Suitable(devices[i]);
        ScanDevices(devices, i + 1)
  }

  /** `pickPhysicalDevice`: the first device with both queue kinds and the
      swapchain extension; `None` when there is none (including no device). */
  function PickPhysicalDevice(devices: seq<PhysicalDevice>): (r: Option<Pick>)
    ensures r.None? <==> forall j :: 0 <= j < |devices| ==> !Suitable(devices[j])
    ensures r.Some? ==>
      && r.value.device < |devices|
      && Suitable(devices[r.value.device])
      && (forall j :: 0 <= j < r.value.device ==> !Suitable(devices[j]))
      && FamiliesFound(devices[r.value.device].queueFamilies, r.value.families)
  {
    ScanDevices(devices, 0)
  }

  // ---------------------------------------------------------------------------
  // Memory type
  // ---------------------------------------------------------------------------

  /** Memory type `i` is allowed by the filter bit `1 << i` and has every
      requested property flag. */
  predicate MemoryTypeFits(typeFilter: bv32, properties: bv32, memoryTypes: seq<bv32>, i: nat)
    requires i < |memoryTypes| <= MAX_MEMORY_TYPES
  {
    typeFilter & ((1 as bv32) << i) != 0 && memoryTypes[i] & properties == properties
  }

  /** The loop of `findMemoryType` from index `i`. */
  function ScanMemoryTypes(typeFilter: bv32, properties: bv32, memoryTypes: seq<bv32>, i: nat): (r: u32)
    requires i <= |memoryTypes| <= MAX_MEMORY_TYPES
    decreases |memoryTypes| - i
    ensures r == UINT32_MAX <==> forall j :: i <= j < |memoryTypes| ==> !MemoryTypeFits(typeFilter, properties, memoryTypes, j)
    ensures r != UINT32_MAX ==>
      && i <= r < |memoryTypes|
      && MemoryTypeFits(typeFilter, properties, memoryTypes, r)
      && forall j :: i <= j < r ==> !MemoryTypeFits(typeFilter, properties, memoryTypes, j)
  {
    if i == |memoryTypes| then UINT32_MAX
    else if MemoryTypeFits(typeFilter, properties, memoryTypes, i) then i
    else ScanMemoryTypes(typeFilter, properties, memoryTypes, i + 1)
  }

  /** `findMemoryType` over the device's `memoryTypeCount` property flags: the
      lowest fitting index, or `UINT32_MAX` when none fits. */
  function FindMemoryType(typeFilter: bv32, properties: bv32, memoryTypes: seq<bv32>): (r: u32)
    requires |memoryTypes| <= MAX_MEMORY_TYPES
    ensures r == UINT32_MAX <==> forall j :: 0 <= j < |memoryTypes| ==> !MemoryTypeFits(typeFilter, properties, memoryTypes, j)
    ensures r != UINT32_MAX ==>
      && r < |memoryTypes|
      && MemoryTypeFits(typeFilter, properties, memoryTypes, r)
      && forall j :: 0 <= j < r ==> !MemoryTypeFits(typeFilter, properties, memoryTypes, j)
  {
    ScanMemoryTypes(typeFilter, properties, memoryTypes, 0)
  }
}

=== FILE: frame_loop.dfy ===
/** The per-frame entry points: `nativeRender` (wait, acquire, reset, record,
    submit, present, advance the frame slot) and `nativeResize`. Fences are
    modelled by the state the CPU can observe; the GPU finishing a submission
    is folded into the wait that observes it. */
module FrameLoop {
  import opened VkTypes
  import opened Resources
  import opened Lifecycle

  /** What the driver answers during one `nativeRender` call. `recordOk` is
      the result of `recordCommandBuffer`; `rebuild` answers a swapchain
      rebuild, if one is triggered. */
  datatype FrameInputs = FrameInputs(
    acquire: VkResult,
    recordOk: bool,
    submit: VkResult,
    present: VkResult,
    rebuild: Rebuild)

  /** Where a `nativeRender` call ended. `Stalled` means the fence wait never
      returns: the fence is unsignalled and no submission will signal it.
      `InvalidUse` means the call went on to an invalid Vulkan call: an
      acquire on a null swapchain or with a semaphore that is still
      signalled, or recording into a framebuffer that is missing. The model does not follow a call past an invalid call: its
      context is the one in which that call is made. `SubmitDeviceLost` is a submit answering
      `VK_ERROR_DEVICE_LOST`; every other submit error is `SubmitFailed`. */
  datatype FrameOutcome =
    | Ignored
    | Stalled
    | InvalidUse
    | AcquireOutOfDate
    | AcquireFailed
    | RecordFailed
    | SubmitFailed
    | SubmitDeviceLost
    | Delivered

  datatype Frame = Frame(ctx: Context, outcome: FrameOutcome)

  /** What indexing the per-frame vectors at `currentFrame` needs: an
      initialised context holds one slot per frame in flight and a cursor
      below that count. */
  predicate FrameIndexed(ctx: Context) {
    ctx.initialized ==> ctx.currentFrame < MAX_FRAMES_IN_FLIGHT && |ctx.slots| == MAX_FRAMES_IN_FLIGHT
  }

  /** What acquiring and recording need, whichever image the driver hands
      out: a swapchain, and a framebuffer for each of its images. */
  predicate Drawable(ctx: Context) {
    && ctx.swapchain != NULL
    && |ctx.framebuffers| == |ctx.swapchainImages|
    && forall k :: 0 <= k < |ctx.framebuffers| ==> ctx.framebuffers[k] != NULL
  }

  /** The acquire handed out an image: `VK_SUCCESS` or `VK_SUBOPTIMAL_KHR`. */
  predicate ImageAcquired(inp: FrameInputs) {
    inp.acquire == Success || inp.acquire == Suboptimal
  }

  /** An acquire may be made with slot `f`'s image-available semaphore: there
      is a swapchain to acquire from, and no earlier acquire has signalled the
      semaphore without a submission waiting on it since. The Vulkan
      specification's valid usage rule VUID-vkAcquireNextImageKHR-semaphore-01286
      requires that semaphore to be unsignalled with no signal pending. */
  predicate CanAcquire(ctx: Context, f: nat) {
    && ctx.swapchain != NULL
    && f < |ctx.slots|
    && !ctx.slots[f].availableSignalled
  }

  /** Slot `f`'s image-available semaphore, signalled by an acquire that
      hands out an image (`true`) or waited on by a submission (`false`). */
  function WithAvailable(ctx: Context, f: nat, signalled: bool): (r: Context)
    requires f < |ctx.slots|
    ensures |r.slots| == |ctx.slots| && r == ctx.(slots := r.slots)
    ensures r.slots[f].availableSignalled == signalled && r.slots[f].fence == ctx.slots[f].fence
    ensures forall k :: 0 <= k < |ctx.slots| && k != f ==> r.slots[k] == ctx.slots[k]
  {
    ctx.(slots := ctx.slots[f := ctx.slots[f].(availableSignalled := signalled)])
  }

  /** A fence call on slot `f` that leaves its fence in `state`, logged as
      `e`. The fence of a lost device stays lost. */
  function WithFence(ctx: Context, f: nat, state: FenceState, e: Event): (r: Context)
    requires f < |ctx.slots|
    ensures |r.slots| == |ctx.slots|
    ensures r.slots[f].fence == if ctx.slots[f].fence == Lost then Lost else state
    ensures r.slots[f].availableSignalled == ctx.slots[f].availableSignalled
    ensures r == ctx.(slots := r.slots, log := r.log)
    ensures forall k :: 0 <= k < |ctx.slots| && k != f ==> r.slots[k] == ctx.slots[k]
  {
    var s := if ctx.slots[f].fence == Lost then Lost else state;
    ctx.(slots := ctx.slots[f := ctx.slots[f].(fence := s)], log := ctx.log + [e])
  }

  /** Every fence of the slots, marked as belonging to a lost device. */
  function LostSlots(ss: seq<FrameSlot>): (r: seq<FrameSlot>)
    ensures |r| == |ss|
    ensures forall k :: 0 <= k < |ss| ==> r[k] == ss[k].(fence := Lost)
  {
    if |ss| == 0 then [] else [ss[0].(fence := Lost)] + LostSlots(ss[1..])
  }

  /** A call answered `VK_ERROR_DEVICE_LOST`: from now on every fence wait
      returns. */
  function LoseDevice(ctx: Context): (r: Context)
    ensures r == ctx.(slots := r.slots)
    ensures |r.slots| == |ctx.slots| && forall k :: 0 <= k < |r.slots| ==> r.slots[k].fence == Lost
    ensures forall k :: 0 <= k < |r.slots| ==> r.slots[k].availableSignalled == ctx.slots[k].availableSignalled
  {
    ctx.(slots := LostSlots(ctx.slots))
  }

  /** The context once slot `f` has been submitted, waiting on its
      image-available semaphore, and its image presented. */
  function SubmitAndPresent(reset: Context, f: nat): (r: Context)
    requires f < |reset.slots|
    ensures r.log == reset.log + [Submitted(f), Presented(f)]
    ensures |r.slots| == |reset.slots| && !r.slots[f].availableSignalled
    ensures forall k :: 0 <= k < |r.slots| && k != f ==> r.slots[k].availableSignalled == reset.slots[k].availableSignalled
  {
    var submitted := WithFence(WithAvailable(reset, f, false), f, InFlight, Submitted(f));
    submitted.(log := submitted.log + [Presented(f)])
  }

  /** The end of a frame whose command buffer was recorded and submitted:
      the fence goes in flight, the image is presented, an out-of-date or
      suboptimal present rebuilds the swapchain, and the cursor advances. A
      lost device is recorded; any other present error is only logged. */
  function Deliver(reset: Context, f: nat, inp: FrameInputs): (r: Context)
    requires f < |reset.slots|
    ensures r.initialized == reset.initialized && r.device == reset.device
    ensures |r.slots| == |reset.slots| && r.currentFrame == (f + 1) % MAX_FRAMES_IN_FLIGHT
    ensures inp.present == OutOfDate || inp.present == Suboptimal ==>
      r == RecreateSwapchain(SubmitAndPresent(reset, f), inp.rebuild).ctx.(currentFrame := r.currentFrame)
    ensures inp.present != OutOfDate && inp.present != Suboptimal ==>
      && r.swapchain == reset.swapchain && r.swapchainImages == reset.swapchainImages
      && r.framebuffers == reset.framebuffers && r.log == reset.log + [Submitted(f), Presented(f)]
    ensures inp.present == DeviceLost ==> forall k :: 0 <= k < |r.slots| ==> r.slots[k].fence == Lost
    ensures inp.present != DeviceLost ==> forall k :: 0 <= k < |r.slots| ==>
      (r.slots[k].fence == Unsignalled <==> k != f && reset.slots[k].fence == Unsignalled)
  {
    var presented := SubmitAndPresent(reset, f);
    var after :=
      if inp.present == OutOfDate || inp.present == Suboptimal
      then RecreateSwapchain(presented, inp.rebuild).ctx
      else if inp.present == DeviceLost then LoseDevice(presented)
      else presented;
    after.(currentFrame := (f + 1) % MAX_FRAMES_IN_FLIGHT)
  }

  /** A delivered frame's submission waits on its slot's semaphore and on no
      other; a rebuild or a lost device after the present leaves every
      semaphore as it was. */
  lemma DeliverSemaphores(reset: Context, f: nat, inp: FrameInputs)
    requires f < |reset.slots|
    ensures var r := Deliver(reset, f, inp);
      forall k :: 0 <= k < |r.slots| ==> (r.slots[k].availableSignalled <==> k != f && reset.slots[k].availableSignalled)
  {
    var presented := SubmitAndPresent(reset, f);
    if inp.present == OutOfDate || inp.present == Suboptimal {
      DrainKeepsSemaphores(presented.slots);
    }
  }

  /** The end of `nativeRender` once the fence is reset: record, submit,
      then deliver. */
  function RecordAndSubmit(reset: Context, f: nat, inp: FrameInputs): (r: Frame)
    requires f < |reset.slots|
    ensures r.outcome == RecordFailed <==> !inp.recordOk
    ensures r.outcome == SubmitDeviceLost <==> inp.recordOk && inp.submit == DeviceLost
    ensures r.outcome == Delivered <==> inp.recordOk && inp.submit == Success
    ensures r.outcome == RecordFailed || r.outcome == SubmitFailed || r.outcome == SubmitDeviceLost || r.outcome == Delivered
    ensures r.outcome == RecordFailed || r.outcome == SubmitFailed ==> r.ctx == reset
    ensures r.outcome == SubmitDeviceLost ==> r.ctx == LoseDevice(reset)
    ensures r.outcome == Delivered ==> r.ctx == Deliver(reset, f, inp)
    ensures r.ctx.currentFrame == if r.outcome == Delivered then (f + 1) % MAX_FRAMES_IN_FLIGHT else reset.currentFrame
    ensures r.ctx.initialized == reset.initialized && r.ctx.device == reset.device && |r.ctx.slots| == |reset.slots|
    ensures r.outcome == SubmitDeviceLost ==> forall k :: 0 <= k < |r.ctx.slots| ==> r.ctx.slots[k].fence == Lost
  {
    if !inp.recordOk then Frame(reset, RecordFailed)
    else if inp.submit == DeviceLost then Frame(LoseDevice(reset), SubmitDeviceLost)
    else if inp.submit != Success then Frame(reset, SubmitFailed)
    else Frame(Deliver(reset, f, inp), Delivered)
  }

  /** `nativeRender` once the fence wait has returned: acquire an image,
      reset the fence, then record and submit. An acquire on a null
      swapchain, or with a semaphore an earlier acquire left signalled, is
      invalid; an acquire that answers `VK_ERROR_OUT_OF_DATE_KHR` rebuilds
      the swapchain and one that answers another error returns, both before
      the fence is reset. An acquire that hands out an image signals the
      slot's semaphore. Recording needs a framebuffer for the image acquired,
      so it is invalid once the fence is reset on a context that lacks one. */
  function AcquireAndDraw(waited: Context, f: nat, inp: FrameInputs): (r: Frame)
    requires f < |waited.slots| && waited.slots[f].fence != Unsignalled
    ensures r.outcome == InvalidUse <==> !CanAcquire(waited, f) || (ImageAcquired(inp) && !Drawable(waited))
    ensures r.outcome == AcquireOutOfDate <==> CanAcquire(waited, f) && inp.acquire == OutOfDate
    ensures r.outcome == AcquireFailed <==>
      CanAcquire(waited, f) && (inp.acquire == DeviceLost || inp.acquire == OtherResult)
    ensures (r.outcome == InvalidUse && !CanAcquire(waited, f)) || (r.outcome == AcquireFailed && inp.acquire == OtherResult) ==>
      r.ctx == waited
    ensures r.outcome == InvalidUse && CanAcquire(waited, f) ==>
      r.ctx == WithFence(WithAvailable(waited, f, true), f, Unsignalled, FenceReset(f))
    ensures r.outcome == AcquireFailed && inp.acquire == DeviceLost ==> r.ctx == LoseDevice(waited)
    ensures r.outcome == AcquireOutOfDate ==> r.ctx == RecreateSwapchain(waited, inp.rebuild).ctx
    ensures r.outcome != InvalidUse && r.outcome != AcquireOutOfDate && r.outcome != AcquireFailed ==>
      r == RecordAndSubmit(WithFence(WithAvailable(waited, f, true), f, Unsignalled, FenceReset(f)), f, inp)
    ensures r.ctx.currentFrame == if r.outcome == Delivered then (f + 1) % MAX_FRAMES_IN_FLIGHT else waited.currentFrame
    ensures r.ctx.initialized == waited.initialized && r.ctx.device == waited.device && |r.ctx.slots| == |waited.slots|
    ensures (r.outcome == InvalidUse && !CanAcquire(waited, f)) || r.outcome == AcquireOutOfDate || r.outcome == AcquireFailed ==>
      r.ctx.slots[f].fence != Unsignalled
    ensures r.outcome == RecordFailed || r.outcome == SubmitFailed || (r.outcome == InvalidUse && CanAcquire(waited, f)) ==>
      r.ctx.slots[f].fence == if waited.slots[f].fence == Lost then Lost else Unsignalled
    ensures r.outcome == SubmitDeviceLost || (r.outcome == AcquireFailed && inp.acquire == DeviceLost) ==>
      forall k :: 0 <= k < |r.ctx.slots| ==> r.ctx.slots[k].fence == Lost
  {
    if !CanAcquire(waited, f) then Frame(waited, InvalidUse)
    else if inp.acquire == OutOfDate then Frame(RecreateSwapchain(waited, inp.rebuild).ctx, AcquireOutOfDate)
    else if inp.acquire == DeviceLost then Frame(LoseDevice(waited), AcquireFailed)
    else if inp.acquire == OtherResult then Frame(waited, AcquireFailed)
    else
      var reset := WithFence(WithAvailable(waited, f, true), f, Unsignalled, FenceReset(f));
      if !Drawable(waited) then Frame(reset, InvalidUse)
      else RecordAndSubmit(reset, f, inp)
  }

  /** `nativeRender` on an existing context. */
  function RenderFrame(ctx: Context, inp: FrameInputs): (r: Frame)
    requires FrameIndexed(ctx)
    ensures !ctx.initialized ==> r == Frame(ctx, Ignored)
    ensures ctx.initialized ==> (r.outcome == Stalled <==> ctx.slots[ctx.currentFrame].fence == Unsignalled)
    ensures r.outcome == InvalidUse <==>
      && ctx.initialized && ctx.slots[ctx.currentFrame].fence != Unsignalled
      && (!CanAcquire(ctx, ctx.currentFrame) || (ImageAcquired(inp) && !Drawable(ctx)))
    ensures r.outcome == AcquireOutOfDate <==>
      && ctx.initialized && ctx.slots[ctx.currentFrame].fence != Unsignalled
      && CanAcquire(ctx, ctx.currentFrame) && inp.acquire == OutOfDate
    ensures r.outcome == Delivered <==>
      && ctx.initialized
      && ctx.slots[ctx.currentFrame].fence != Unsignalled
      && CanAcquire(ctx, ctx.currentFrame)
      && Drawable(ctx)
      && ImageAcquired(inp)
      && inp.recordOk
      && inp.submit == Success
    ensures r.ctx.currentFrame ==
      if r.outcome == Delivered then (ctx.currentFrame + 1) % MAX_FRAMES_IN_FLIGHT else ctx.currentFrame
    ensures r.ctx.initialized == ctx.initialized && r.ctx.device == ctx.device
    ensures |r.ctx.slots| == |ctx.slots| && FrameIndexed(r.ctx)
    ensures r.outcome == AcquireOutOfDate ==>
      r.ctx == RecreateSwapchain(WithFence(ctx, ctx.currentFrame, Signalled, FenceWait(ctx.currentFrame)), inp.rebuild).ctx
  {
    if !ctx.initialized then Frame(ctx, Ignored)
    else
      var f := ctx.currentFrame;
      if ctx.slots[f].fence == Unsignalled then Frame(ctx.(log := ctx.log + [FenceWait(f)]), Stalled)
      else AcquireAndDraw(WithFence(ctx, f, Signalled, FenceWait(f)), f, inp)
  }

  /** The fence rules of `nativeRender`. A call that returns before the reset
      leaves the current fence signalled or pending. A failed record or
      submit, or an invalid recording, leaves it reset with nothing pending,
      unless the device was already lost. A lost device makes every fence
      lost. */
  lemma RenderFences(ctx: Context, inp: FrameInputs)
    requires FrameIndexed(ctx)
    ensures var r := RenderFrame(ctx, inp);
      && ((r.outcome == InvalidUse && !CanAcquire(ctx, ctx.currentFrame)) || r.outcome == AcquireOutOfDate || r.outcome == AcquireFailed ==>
            r.ctx.slots[ctx.currentFrame].fence != Unsignalled)
      && (r.outcome == RecordFailed || r.outcome == SubmitFailed || (r.outcome == InvalidUse && CanAcquire(ctx, ctx.currentFrame)) ==>
            r.ctx.slots[r.ctx.currentFrame].fence == if ctx.slots[ctx.currentFrame].fence == Lost then Lost else Unsignalled)
      && (r.outcome == SubmitDeviceLost || (r.outcome == AcquireFailed && inp.acquire == DeviceLost) ==>
            forall k :: 0 <= k < |r.ctx.slots| ==> r.ctx.slots[k].fence == Lost)
  {
    if ctx.initialized && ctx.slots[ctx.currentFrame].fence != Unsignalled {
      var f := ctx.currentFrame;
      var waited := WithFence(ctx, f, Signalled, FenceWait(f));
      assert RenderFrame(ctx, inp) == AcquireAndDraw(waited, f, inp);
    }
  }

  /** Past a reset, only a delivered frame waits on the semaphore the
      acquire signalled. */
  lemma RecordSemaphores(reset: Context, f: nat, inp: FrameInputs)
    requires f < |reset.slots| && reset.slots[f].availableSignalled
    ensures var r := RecordAndSubmit(reset, f, inp);
      && (r.ctx.slots[f].availableSignalled <==> r.outcome != Delivered)
      && forall k :: 0 <= k < |reset.slots| && k != f ==> r.ctx.slots[k].availableSignalled == reset.slots[k].availableSignalled
  {
    if inp.recordOk && inp.submit == Success {
      DeliverSemaphores(reset, f, inp);
    }
  }

  /** The semaphore rules of `nativeRender` past its fence wait. */
  lemma DrawSemaphores(waited: Context, f: nat, inp: FrameInputs)
    requires f < |waited.slots| && waited.slots[f].fence != Unsignalled
    ensures var r := AcquireAndDraw(waited, f, inp);
      && (r.ctx.slots[f].availableSignalled <==>
            r.outcome != Delivered && (waited.slots[f].availableSignalled || (CanAcquire(waited, f) && ImageAcquired(inp))))
      && forall k :: 0 <= k < |waited.slots| && k != f ==> r.ctx.slots[k].availableSignalled == waited.slots[k].availableSignalled
  {
    if CanAcquire(waited, f) && ImageAcquired(inp) {
      AcquiredSemaphores(waited, f, inp);
    } else {
      UnacquiredSemaphores(waited, f, inp);
    }
  }

  /** A frame that hands out no image signals no semaphore and waits on
      none. */
  lemma UnacquiredSemaphores(waited: Context, f: nat, inp: FrameInputs)
    requires f < |waited.slots| && waited.slots[f].fence != Unsignalled
    requires !(CanAcquire(waited, f) && ImageAcquired(inp))
    ensures var r := AcquireAndDraw(waited, f, inp);
      && r.outcome != Delivered
      && forall k :: 0 <= k < |waited.slots| ==> r.ctx.slots[k].availableSignalled == waited.slots[k].availableSignalled
  {
    if CanAcquire(waited, f) && inp.acquire == OutOfDate {
      DrainKeepsSemaphores(waited.slots);
    }
  }

  lemma DrainKeepsSemaphores(ss: seq<FrameSlot>)
    ensures forall k :: 0 <= k < |ss| ==> DrainFences(ss)[k].availableSignalled == ss[k].availableSignalled
  {
  }

  /** An acquire that hands out an image signals the slot's semaphore, and
      only a delivered frame waits on it. */
  lemma AcquiredSemaphores(waited: Context, f: nat, inp: FrameInputs)
    requires f < |waited.slots| && waited.slots[f].fence != Unsignalled
    requires CanAcquire(waited, f) && ImageAcquired(inp)
    ensures var r := AcquireAndDraw(waited, f, inp);
      && (r.ctx.slots[f].availableSignalled <==> r.outcome != Delivered)
      && forall k :: 0 <= k < |waited.slots| && k != f ==> r.ctx.slots[k].availableSignalled == waited.slots[k].availableSignalled
  {
    var reset := WithFence(WithAvailable(waited, f, true), f, Unsignalled, FenceReset(f));
    if Drawable(waited) {
      RecordSemaphores(reset, f, inp);
    }
  }

  /** The semaphore rules of `nativeRender`. An acquire that hands out an
      image leaves the current slot's image-available semaphore signalled,
      and only a submission that waits on it, that is a delivered frame,
      takes the signal away; a frame that makes no such acquire leaves it as
      it was. No other slot's semaphore changes. */
  lemma RenderSemaphores(ctx: Context, inp: FrameInputs)
    requires FrameIndexed(ctx) && ctx.initialized
    ensures var r := RenderFrame(ctx, inp); var f := ctx.currentFrame;
      && (r.ctx.slots[f].availableSignalled <==>
            && r.outcome != Delivered
            && (ctx.slots[f].availableSignalled || (r.outcome != Stalled && CanAcquire(ctx, f) && ImageAcquired(inp))))
      && forall k :: 0 <= k < |ctx.slots| && k != f ==> r.ctx.slots[k].availableSignalled == ctx.slots[k].availableSignalled
  {
    var f := ctx.currentFrame;
    if ctx.slots[f].fence != Unsignalled {
      DrawSemaphores(WithFence(ctx, f, Signalled, FenceWait(f)), f, inp);
    }
  }

  /** `nativeResize` on an existing context: ignored before initialisation
      and for an empty window; otherwise a changed size is stored and the
      swapchain rebuilt. */
  function ResizeSurface(ctx: Context, width: int, height: int, rb: Rebuild): (r: Context)
    ensures !ctx.initialized || width <= 0 || height <= 0 ==> r == ctx
    ensures ctx.initialized && width > 0 && height > 0 ==> r.width == width && r.height == height
    ensures ctx.initialized && ctx.width == width && ctx.height == height ==> r == ctx
    ensures ctx.initialized && width > 0 && height > 0 && (ctx.width != width || ctx.height != height) ==>
      r == RecreateSwapchain(ctx.(width := width, height := height), rb).ctx
    ensures r.initialized == ctx.initialized && r.device == ctx.device && r.currentFrame == ctx.currentFrame
    ensures r.slots == ctx.slots || r.slots == DrainFences(ctx.slots)
  {
    if !ctx.initialized then ctx
    else if width <= 0 || height <= 0 then ctx
    else if ctx.width != width || ctx.height != height then
      RecreateSwapchain(ctx.(width := width, height := height), rb).ctx
    else ctx
  }

  /** Resizing to the size just applied changes nothing, whatever the driver
      would answer to a second rebuild. */
  lemma ResizeIdempotent(ctx: Context, width: int, height: int, rb: Rebuild, rb': Rebuild)
    ensures ResizeSurface(ResizeSurface(ctx, width, height, rb), width, height, rb') == ResizeSurface(ctx, width, height, rb)
  {
  }

  // ---------------------------------------------------------------------------
  // Bookkeeping across frames
  // ---------------------------------------------------------------------------

  /** The state of a slot's fence and semaphore does not change what the
      slots own: only their handles do. */
  lemma {:induction false} SlotStateOwnsNothing(ss: seq<FrameSlot>, f: nat, s: FrameSlot)
    requires f < |ss|
    requires s.imageAvailable == ss[f].imageAvailable && s.renderFinished == ss[f].renderFinished && s.inFlight == ss[f].inFlight
    ensures SlotsOwned(ss[f := s]) == SlotsOwned(ss)
    decreases |ss|
  {
    var ss' := ss[f := s];
    if f > 0 {
      assert ss'[1..] == ss[1..][f - 1 := s];
      SlotStateOwnsNothing(ss[1..], f - 1, s);
    } else {
      assert ss'[1..] == ss[1..];
    }
  }

  lemma OwnedAfterSlots(ctx: Context, r: Context)
    requires r == ctx.(slots := r.slots, log := r.log)
    requires SlotsOwned(r.slots) == SlotsOwned(ctx.slots)
    ensures Owned(r) == Owned(ctx) && DeviceOwned(r) == DeviceOwned(ctx)
  {
  }

  lemma OwnedAfterCursor(ctx: Context, r: Context)
    requires r == ctx.(currentFrame := r.currentFrame, log := r.log)
    ensures Owned(r) == Owned(ctx) && DeviceOwned(r) == DeviceOwned(ctx)
  {
  }

  lemma OwnedAfterSize(ctx: Context, r: Context)
    requires r == ctx.(width := r.width, height := r.height)
    ensures Owned(r) == Owned(ctx) && DeviceOwned(r) == DeviceOwned(ctx)
  {
  }

  /** A fence call changes no ownership. */
  lemma WithFenceAccounted(ctx: Context, f: nat, state: FenceState, e: Event)
    requires Accounted(ctx) && f < |ctx.slots| && !e.Created? && !e.Destroyed?
    ensures Accounted(WithFence(ctx, f, state, e))
  {
    var r := WithFence(ctx, f, state, e);
    SlotStateOwnsNothing(ctx.slots, f, ctx.slots[f].(fence := if ctx.slots[f].fence == Lost then Lost else state));
    OwnedAfterSlots(ctx, r);
    LogNeutral(ctx.log, e);
  }

  /** Signalling or waiting on a semaphore changes no ownership. */
  lemma WithAvailableAccounted(ctx: Context, f: nat, signalled: bool)
    requires Accounted(ctx) && f < |ctx.slots|
    ensures Accounted(WithAvailable(ctx, f, signalled))
  {
    SlotStateOwnsNothing(ctx.slots, f, ctx.slots[f].(availableSignalled := signalled));
    OwnedAfterSlots(ctx, WithAvailable(ctx, f, signalled));
  }

  lemma LoggedAccounted(ctx: Context, e: Event)
    requires Accounted(ctx) && !e.Created? && !e.Destroyed?
    ensures Accounted(ctx.(log := ctx.log + [e]))
  {
    OwnedAfterCursor(ctx, ctx.(log := ctx.log + [e]));
    LogNeutral(ctx.log, e);
  }

  lemma {:induction false} LostKeepsHandles(ss: seq<FrameSlot>)
    ensures SlotsOwned(LostSlots(ss)) == SlotsOwned(ss)
    decreases |ss|
  {
    if |ss| > 0 {
      LostKeepsHandles(ss[1..]);
      assert LostSlots(ss)[1..] == LostSlots(ss[1..]);
    }
  }

  /** Losing the device changes no ownership. */
  lemma LoseDeviceAccounted(ctx: Context)
    requires Accounted(ctx)
    ensures Accounted(LoseDevice(ctx))
  {
    LostKeepsHandles(ctx.slots);
    OwnedAfterSlots(ctx, LoseDevice(ctx));
  }

  lemma AdvanceAccounted(ctx: Context, n: nat)
    requires Accounted(ctx)
    ensures Accounted(ctx.(currentFrame := n))
  {
    OwnedAfterCursor(ctx, ctx.(currentFrame := n));
  }

  /** The tail of a delivered frame keeps the books balanced. */
  lemma DeliverAccounted(reset: Context, f: nat, inp: FrameInputs)
    requires Accounted(reset) && reset.device != NULL && f < |reset.slots|
    ensures Accounted(Deliver(reset, f, inp))
  {
    var waitedOn := WithAvailable(reset, f, false);
    WithAvailableAccounted(reset, f, false);
    var submitted := WithFence(waitedOn, f, InFlight, Submitted(f));
    WithFenceAccounted(waitedOn, f, InFlight, Submitted(f));
    var presented := SubmitAndPresent(reset, f);
    LoggedAccounted(submitted, Presented(f));
    var n := (f + 1) % MAX_FRAMES_IN_FLIGHT;
    if inp.present == OutOfDate || inp.present == Suboptimal {
      RecreateAccounted(presented, inp.rebuild);
      AdvanceAccounted(RecreateSwapchain(presented, inp.rebuild).ctx, n);
    } else if inp.present == DeviceLost {
      LoseDeviceAccounted(presented);
      AdvanceAccounted(LoseDevice(presented), n);
    } else {
      AdvanceAccounted(presented, n);
    }
  }

  /** Every frame keeps the books balanced and the session live. */
  lemma RenderKeepsLive(ctx: Context, inp: FrameInputs)
    requires Live(ctx)
    ensures Live(RenderFrame(ctx, inp).ctx)
  {
    if ctx.initialized {
      var f := ctx.currentFrame;
      if ctx.slots[f].fence == Unsignalled {
        LoggedAccounted(ctx, FenceWait(f));
      } else {
        var waited := WithFence(ctx, f, Signalled, FenceWait(f));
        WithFenceAccounted(ctx, f, Signalled, FenceWait(f));
        if !CanAcquire(waited, f) {
        } else if inp.acquire == OutOfDate {
          RecreateAccounted(waited, inp.rebuild);
        } else if inp.acquire == DeviceLost {
          LoseDeviceAccounted(waited);
        } else if inp.acquire != OtherResult {
          var acquired := WithAvailable(waited, f, true);
          WithAvailableAccounted(waited, f, true);
          var reset := WithFence(acquired, f, Unsignalled, FenceReset(f));
          WithFenceAccounted(acquired, f, Unsignalled, FenceReset(f));
          if !Drawable(waited) {
          } else if inp.recordOk && inp.submit == DeviceLost {
            LoseDeviceAccounted(reset);
          } else if inp.recordOk && inp.submit == Success {
            DeliverAccounted(reset, f, inp);
          }
        }
      }
    }
  }

  /** A resize keeps the books balanced and the session live. */
  lemma ResizeKeepsLive(ctx: Context, width: int, height: int, rb: Rebuild)
    requires Live(ctx)
    ensures Live(ResizeSurface(ctx, width, height, rb))
  {
    var r := ResizeSurface(ctx, width, height, rb);
    if ctx.initialized && width > 0 && height > 0 && (ctx.width != width || ctx.height != height) {
      var sized := ctx.(width := width, height := height);
      SizeKeepsLive(ctx, sized);
      RecreateAccounted(sized, rb);
      assert r == RecreateSwapchain(sized, rb).ctx;
    } else {
      assert r == ctx;
    }
  }

  lemma SizeKeepsLive(ctx: Context, sized: Context)
    requires Live(ctx) && sized == ctx.(width := sized.width, height := sized.height)
    ensures Live(sized)
  {
    OwnedAfterSize(ctx, sized);
  }

  // ---------------------------------------------------------------------------
  // Sessions: sequences of render and resize calls
  // ---------------------------------------------------------------------------

  datatype Call =
    | Render(inp: FrameInputs)
    | Resize(width: int, height: int, rebuild: Rebuild)

  /** One entry-point call. A resize renders nothing and reports `Ignored`. */
  function Dispatch(ctx: Context, call: Call): (r: Frame)
    requires FrameIndexed(ctx)
    ensures FrameIndexed(r.ctx)
    ensures call.Resize? ==> r.outcome == Ignored
  {
    match call
    case Render(inp) => RenderFrame(ctx, inp)
    case Resize(w, h, rb) => Frame(ResizeSurface(ctx, w, h, rb), Ignored)
  }

  /** The context before each call of a session: each call starts from the
      context the one before it left. */
  function Trace(ctx: Context, calls: seq<Call>): (r: seq<Context>)
    requires FrameIndexed(ctx)
    ensures |r| == |calls| && (|calls| > 0 ==> r[0] == ctx)
    ensures forall i :: 0 <= i < |r| ==> FrameIndexed(r[i])
    ensures forall i :: 0 <= i < |r| - 1 ==> r[i + 1] == Dispatch(r[i], calls[i]).ctx
    decreases |calls|
  {
    if |calls| == 0 then []
    else [ctx] + Trace(Dispatch(ctx, calls[0]).ctx, calls[1..])
  }

  /** The outcome of each call of a session, in order: call `i` dispatched
      on the context the calls before it left. */
  function Session(ctx: Context, calls: seq<Call>): (r: seq<FrameOutcome>)
    requires FrameIndexed(ctx)
    ensures |r| == |calls|
    ensures forall i :: 0 <= i < |calls| ==> r[i] == Dispatch(Trace(ctx, calls)[i], calls[i]).outcome
    decreases |calls|
  {
    if |calls| == 0 then []
    else
      var d := Dispatch(ctx, calls[0]);
      [d.outcome] + Session(d.ctx, calls[1..])
  }

  /** The fence of the current slot was reset and nothing was submitted to
      signal it. */
  predicate Stuck(ctx: Context) {
    && ctx.initialized
    && ctx.currentFrame < |ctx.slots|
    && ctx.slots[ctx.currentFrame].fence == Unsignalled
  }

  /** No fence is waiting without a submission to signal it. */
  predicate Healthy(ctx: Context) {
    forall k :: 0 <= k < |ctx.slots| ==> ctx.slots[k].fence != Unsignalled
  }

  lemma DrainKeepsUnsignalled(ss: seq<FrameSlot>, k: nat)
    requires k < |ss|
    ensures DrainFences(ss)[k].fence == Unsignalled <==> ss[k].fence == Unsignalled
  {
  }

  /** A stuck session stays stuck, whatever is called next. */
  lemma StuckStaysStuck(ctx: Context, call: Call)
    requires FrameIndexed(ctx) && Stuck(ctx)
    ensures Stuck(Dispatch(ctx, call).ctx)
    ensures call.Render? ==> Dispatch(ctx, call).outcome == Stalled
  {
    if call.Resize? {
      DrainKeepsUnsignalled(ctx.slots, ctx.currentFrame);
    }
  }

  /** Once stuck, every later frame stalls: the fence wait of `nativeRender`
      has no timeout, and neither a resize nor a rebuild signals a fence that
      has no submission pending. */
  lemma {:induction false} StuckForever(ctx: Context, calls: seq<Call>)
    requires FrameIndexed(ctx) && Stuck(ctx)
    ensures forall i :: 0 <= i < |calls| && calls[i].Render? ==> Session(ctx, calls)[i] == Stalled
    decreases |calls|
  {
    if |calls| > 0 {
      StuckStaysStuck(ctx, calls[0]);
      var d := Dispatch(ctx, calls[0]);
      StuckForever(d.ctx, calls[1..]);
      forall i | 0 < i < |calls|
        ensures Session(ctx, calls)[i] == Session(d.ctx, calls[1..])[i - 1]
      {
      }
    }
  }

  /** The current fence belongs to a lost device. */
  predicate FenceLost(ctx: Context) {
    ctx.currentFrame < |ctx.slots| && ctx.slots[ctx.currentFrame].fence == Lost
  }

  /** The fence-reset defect of `nativeRender`: the fence is reset before the
      command buffer is recorded and submitted, and a failure of either
      returns without advancing the frame slot, so the next call waits on
      that fence forever, and so does every call after it. A submit that
      loses the device is the exception (see `SubmitDeviceLostNeverStalls`),
      as is any failure once the device is lost. */
  lemma FailedFrameStallsForever(ctx: Context, inp: FrameInputs, calls: seq<Call>)
    requires FrameIndexed(ctx) && !FenceLost(ctx)
    requires RenderFrame(ctx, inp).outcome == RecordFailed || RenderFrame(ctx, inp).outcome == SubmitFailed
    ensures forall i :: 0 <= i < |calls| && calls[i].Render? ==> Session(RenderFrame(ctx, inp).ctx, calls)[i] == Stalled
  {
    RenderFences(ctx, inp);
    StuckForever(RenderFrame(ctx, inp).ctx, calls);
  }

  lemma WaitKeepsHealthy(ctx: Context, f: nat, e: Event)
    requires f < |ctx.slots| && Healthy(ctx)
    ensures Healthy(WithFence(ctx, f, Signalled, e))
  {
  }

  lemma DrainKeepsHealthy(ctx: Context)
    requires Healthy(ctx)
    ensures forall k :: 0 <= k < |ctx.slots| ==> DrainFences(ctx.slots)[k].fence != Unsignalled
  {
    forall k | 0 <= k < |ctx.slots|
      ensures DrainFences(ctx.slots)[k].fence != Unsignalled
    {
      DrainKeepsUnsignalled(ctx.slots, k);
    }
  }

  /** Past a returned wait, a frame that neither fails to record nor fails
      to submit keeps a healthy context healthy, unless its recording is
      invalid. */
  lemma DrawKeepsHealthy(waited: Context, f: nat, inp: FrameInputs)
    requires f < |waited.slots| && Healthy(waited)
    requires AcquireAndDraw(waited, f, inp).outcome != RecordFailed && AcquireAndDraw(waited, f, inp).outcome != SubmitFailed
    ensures (AcquireAndDraw(waited, f, inp).outcome == InvalidUse && CanAcquire(waited, f)) || Healthy(AcquireAndDraw(waited, f, inp).ctx)
  {
    if !CanAcquire(waited, f) || inp.acquire == OtherResult {
    } else if inp.acquire == OutOfDate {
      DrainKeepsHealthy(waited);
    } else if inp.acquire != DeviceLost && Drawable(waited) {
      RecordKeepsHealthy(waited, f, inp);
    }
  }

  lemma RecordKeepsHealthy(waited: Context, f: nat, inp: FrameInputs)
    requires f < |waited.slots| && Healthy(waited)
    requires inp.recordOk && (inp.submit == Success || inp.submit == DeviceLost)
    ensures Healthy(RecordAndSubmit(WithFence(WithAvailable(waited, f, true), f, Unsignalled, FenceReset(f)), f, inp).ctx)
  {
    var reset := WithFence(WithAvailable(waited, f, true), f, Unsignalled, FenceReset(f));
    if inp.submit == Success {
      DeliverKeepsHealthy(reset, f, inp);
    }
  }

  lemma DeliverKeepsHealthy(reset: Context, f: nat, inp: FrameInputs)
    requires f < |reset.slots|
    requires forall k :: 0 <= k < |reset.slots| && k != f ==> reset.slots[k].fence != Unsignalled
    ensures Healthy(Deliver(reset, f, inp))
  {
  }

  /** A frame that neither fails to record nor fails to submit leaves no
      fence unsignalled without a submission pending, unless it records
      into a missing framebuffer. */
  lemma RenderKeepsHealthy(ctx: Context, inp: FrameInputs)
    requires FrameIndexed(ctx) && Healthy(ctx)
    requires RenderFrame(ctx, inp).outcome != RecordFailed && RenderFrame(ctx, inp).outcome != SubmitFailed
    ensures (RenderFrame(ctx, inp).outcome == InvalidUse && CanAcquire(ctx, ctx.currentFrame)) || Healthy(RenderFrame(ctx, inp).ctx)
  {
    if ctx.initialized {
      var f := ctx.currentFrame;
      WaitKeepsHealthy(ctx, f, FenceWait(f));
      DrawKeepsHealthy(WithFence(ctx, f, Signalled, FenceWait(f)), f, inp);
    }
  }

  /** A healthy session stays healthy unless a frame fails to record, fails
      to submit for a reason other than a lost device, or makes an invalid
      call. */
  lemma DispatchKeepsHealthy(ctx: Context, call: Call)
    requires FrameIndexed(ctx) && Healthy(ctx)
    requires call.Render? ==> call.inp.recordOk && (call.inp.submit == Success || call.inp.submit == DeviceLost)
    ensures Dispatch(ctx, call).outcome != InvalidUse ==> Healthy(Dispatch(ctx, call).ctx)
    ensures Dispatch(ctx, call).outcome != Stalled
  {
    if call.Render? {
      RenderKeepsHealthy(ctx, call.inp);
    } else {
      var r := Dispatch(ctx, call);
      forall k | 0 <= k < |r.ctx.slots|
        ensures r.ctx.slots[k].fence != Unsignalled
      {
        DrainKeepsUnsignalled(ctx.slots, k);
      }
    }
  }

  /** The partner of `StuckForever`: from a healthy state, a session in which
      no frame fails to record, or fails to submit for a reason other than a
      lost device, does not stall up to its first invalid call. */
  lemma {:induction false} HealthyNeverStalls(ctx: Context, calls: seq<Call>)
    requires FrameIndexed(ctx) && Healthy(ctx)
    requires forall i :: 0 <= i < |calls| && calls[i].Render? ==>
      calls[i].inp.recordOk && (calls[i].inp.submit == Success || calls[i].inp.submit == DeviceLost)
    ensures forall i :: 0 <= i < |calls| && (forall j :: 0 <= j < i ==> Session(ctx, calls)[j] != InvalidUse) ==>
      Session(ctx, calls)[i] != Stalled
    decreases |calls|
  {
    if |calls| > 0 {
      DispatchKeepsHealthy(ctx, calls[0]);
      var d := Dispatch(ctx, calls[0]);
      if d.outcome != InvalidUse {
        HealthyNeverStalls(d.ctx, calls[1..]);
      }
      SessionStep(ctx, calls);
      NoStallBeforeInvalid(Session(ctx, calls), Session(d.ctx, calls[1..]));
    }
  }

  /** A session is its first call followed by the session of the rest. */
  lemma SessionStep(ctx: Context, calls: seq<Call>)
    requires FrameIndexed(ctx) && |calls| > 0
    ensures Session(ctx, calls) == [Dispatch(ctx, calls[0]).outcome] + Session(Dispatch(ctx, calls[0]).ctx, calls[1..])
  {
  }

  /** No stall before the first invalid call carries over from the rest of
      a session to the whole of it when its first call does not stall. */
  lemma NoStallBeforeInvalid(s: seq<FrameOutcome>, rest: seq<FrameOutcome>)
    requires |s| > 0 && s == [s[0]] + rest && s[0] != Stalled
    requires s[0] != InvalidUse ==>
      forall i :: 0 <= i < |rest| && (forall j :: 0 <= j < i ==> rest[j] != InvalidUse) ==> rest[i] != Stalled
    ensures forall i :: 0 <= i < |s| && (forall j :: 0 <= j < i ==> s[j] != InvalidUse) ==> s[i] != Stalled
  {
    forall i | 0 < i < |s| && (forall j :: 0 <= j < i ==> s[j] != InvalidUse)
      ensures s[i] != Stalled
    {
      assert s[0] != InvalidUse;
      forall j | 0 <= j < i - 1
        ensures rest[j] != InvalidUse
      {
        assert s[j + 1] == rest[j];
      }
      assert s[i] == rest[i - 1];
    }
  }

  /** Every fence belongs to a lost device. */
  predicate AllLost(ctx: Context) {
    forall k :: 0 <= k < |ctx.slots| ==> ctx.slots[k].fence == Lost
  }

  lemma DrainKeepsLost(ss: seq<FrameSlot>)
    requires forall k :: 0 <= k < |ss| ==> ss[k].fence == Lost
    ensures forall k :: 0 <= k < |ss| ==> DrainFences(ss)[k].fence == Lost
  {
  }

  lemma RebuildKeepsLost(ctx: Context, rb: Rebuild)
    requires AllLost(ctx)
    ensures AllLost(RecreateSwapchain(ctx, rb).ctx)
  {
    DrainKeepsLost(ctx.slots);
  }

  /** Past a returned wait, a frame on a lost device keeps it lost. */
  lemma DrawKeepsLost(waited: Context, f: nat, inp: FrameInputs)
    requires f < |waited.slots| && AllLost(waited)
    ensures AllLost(AcquireAndDraw(waited, f, inp).ctx)
  {
    if !CanAcquire(waited, f) || inp.acquire == OtherResult || inp.acquire == DeviceLost {
    } else if inp.acquire == OutOfDate {
      RebuildKeepsLost(waited, inp.rebuild);
    } else {
      var reset := WithFence(WithAvailable(waited, f, true), f, Unsignalled, FenceReset(f));
      assert AllLost(reset);
      if Drawable(waited) && inp.recordOk && inp.submit == Success {
        DeliverKeepsLost(reset, f, inp);
      }
    }
  }

  lemma DeliverKeepsLost(reset: Context, f: nat, inp: FrameInputs)
    requires f < |reset.slots| && AllLost(reset)
    ensures AllLost(Deliver(reset, f, inp))
  {
    var presented := SubmitAndPresent(reset, f);
    assert AllLost(presented);
    if inp.present == OutOfDate || inp.present == Suboptimal {
      RebuildKeepsLost(presented, inp.rebuild);
    }
  }

  /** Once the device is lost, it stays lost and no call stalls. */
  lemma DispatchKeepsLost(ctx: Context, call: Call)
    requires FrameIndexed(ctx) && AllLost(ctx)
    ensures AllLost(Dispatch(ctx, call).ctx)
    ensures Dispatch(ctx, call).outcome != Stalled
  {
    if call.Resize? {
      var w, h, rb := call.width, call.height, call.rebuild;
      if ctx.initialized && w > 0 && h > 0 && (ctx.width != w || ctx.height != h) {
        RebuildKeepsLost(ctx.(width := w, height := h), rb);
      }
    } else if ctx.initialized {
      var f := ctx.currentFrame;
      var waited := WithFence(ctx, f, Signalled, FenceWait(f));
      assert AllLost(waited);
      DrawKeepsLost(waited, f, call.inp);
    }
  }

  /** The exception to `FailedFrameStallsForever`: a wait on a lost device
      returns, so from a lost device no later call stalls. */
  lemma {:induction false} LostNeverStalls(ctx: Context, calls: seq<Call>)
    requires FrameIndexed(ctx) && AllLost(ctx)
    ensures forall i :: 0 <= i < |calls| ==> Session(ctx, calls)[i] != Stalled
    decreases |calls|
  {
    if |calls| > 0 {
      DispatchKeepsLost(ctx, calls[0]);
      var d := Dispatch(ctx, calls[0]);
      LostNeverStalls(d.ctx, calls[1..]);
      forall i | 0 < i < |calls|
        ensures Session(ctx, calls)[i] == Session(d.ctx, calls[1..])[i - 1]
      {
      }
    }
  }

  /** A submit answering `VK_ERROR_DEVICE_LOST` leaves the fence reset with
      nothing pending, yet no later call stalls on it. */
  lemma SubmitDeviceLostNeverStalls(ctx: Context, inp: FrameInputs, calls: seq<Call>)
    requires FrameIndexed(ctx) && RenderFrame(ctx, inp).outcome == SubmitDeviceLost
    ensures forall i :: 0 <= i < |calls| ==> Session(RenderFrame(ctx, inp).ctx, calls)[i] != Stalled
  {
    RenderFences(ctx, inp);
    LostNeverStalls(RenderFrame(ctx, inp).ctx, calls);
  }

  // ---------------------------------------------------------------------------
  // The fence reset moved after recording
  // ---------------------------------------------------------------------------

  /** `nativeRender` with `vkResetFences` moved after `recordCommandBuffer`,
      just before the submit. Recording makes no call the model logs, so the
      two orders differ only when an image was acquired and recording then
      fails or is invalid. The fence is then left as the wait left it, but
      the acquire has still signalled the slot's semaphore, which nothing
      waits on, and the cursor stays on that slot. */
  function RenderFrameResetLate(ctx: Context, inp: FrameInputs): (r: Frame)
    requires FrameIndexed(ctx)
    ensures r.outcome == RenderFrame(ctx, inp).outcome
    ensures r.outcome != RecordFailed && !(r.outcome == InvalidUse && CanAcquire(ctx, ctx.currentFrame)) ==>
      r == RenderFrame(ctx, inp)
    ensures r.outcome == RecordFailed || (r.outcome == InvalidUse && CanAcquire(ctx, ctx.currentFrame)) ==>
      && ctx.initialized && |r.ctx.slots| == |ctx.slots| && r.ctx.currentFrame == ctx.currentFrame
      && r.ctx.slots[ctx.currentFrame].fence != Unsignalled
      && r.ctx.slots[ctx.currentFrame].availableSignalled
  {
    var written := RenderFrame(ctx, inp);
    var f := ctx.currentFrame;
    if written.outcome == RecordFailed || (written.outcome == InvalidUse && CanAcquire(ctx, f)) then
      Frame(WithAvailable(WithFence(ctx, f, Signalled, FenceWait(f)), f, true), written.outcome)
    else written
  }

  /** One entry-point call with the fence reset moved after recording. */
  function DispatchResetLate(ctx: Context, call: Call): (r: Frame)
    requires FrameIndexed(ctx)
    ensures FrameIndexed(r.ctx)
    ensures call.Resize? ==> r == Dispatch(ctx, call)
  {
    match call
    case Render(inp) => RenderFrameResetLate(ctx, inp)
    case Resize(_, _, _) => Dispatch(ctx, call)
  }

  /** The context before each call of a session with the fence reset moved
      after recording. */
  function TraceResetLate(ctx: Context, calls: seq<Call>): (r: seq<Context>)
    requires FrameIndexed(ctx)
    ensures |r| == |calls| && (|calls| > 0 ==> r[0] == ctx)
    ensures forall i :: 0 <= i < |r| ==> FrameIndexed(r[i])
    ensures forall i :: 0 <= i < |r| - 1 ==> r[i + 1] == DispatchResetLate(r[i], calls[i]).ctx
    decreases |calls|
  {
    if |calls| == 0 then []
    else [ctx] + TraceResetLate(DispatchResetLate(ctx, calls[0]).ctx, calls[1..])
  }

  /** The outcome of each call of a session with the fence reset moved after
      recording: call `i` dispatched on the context the calls before it
      left. */
  function SessionResetLate(ctx: Context, calls: seq<Call>): (r: seq<FrameOutcome>)
    requires FrameIndexed(ctx)
    ensures |r| == |calls|
    ensures forall i :: 0 <= i < |calls| ==> r[i] == DispatchResetLate(TraceResetLate(ctx, calls)[i], calls[i]).outcome
    decreases |calls|
  {
    if |calls| == 0 then []
    else
      var d := DispatchResetLate(ctx, calls[0]);
      [d.outcome] + SessionResetLate(d.ctx, calls[1..])
  }

  /** With the late reset, a failed or invalid recording keeps a healthy
      session healthy. */
  lemma ResetLateKeepsHealthy(ctx: Context, call: Call)
    requires FrameIndexed(ctx) && Healthy(ctx)
    requires call.Render? ==> call.inp.submit == Success || call.inp.submit == DeviceLost
    ensures Healthy(DispatchResetLate(ctx, call).ctx)
    ensures DispatchResetLate(ctx, call).outcome != Stalled
  {
    if call.Resize? {
      DispatchKeepsHealthy(ctx, call);
    } else if RenderFrame(ctx, call.inp).outcome == RecordFailed {
      WaitKeepsHealthy(ctx, ctx.currentFrame, FenceWait(ctx.currentFrame));
    } else {
      if ctx.initialized {
        WaitKeepsHealthy(ctx, ctx.currentFrame, FenceWait(ctx.currentFrame));
      }
      RenderKeepsHealthy(ctx, call.inp);
    }
  }

  /** The corrected frame loop: from a healthy state, a session in which no
      submit fails for a reason other than a lost device never stalls, even
      when recording fails. That it does not deliver after a failed
      recording is `ResetLateFailedRecordWedges`. */
  lemma {:induction false} ResetLateNeverStalls(ctx: Context, calls: seq<Call>)
    requires FrameIndexed(ctx) && Healthy(ctx)
    requires forall i :: 0 <= i < |calls| && calls[i].Render? ==>
      calls[i].inp.submit == Success || calls[i].inp.submit == DeviceLost
    ensures forall i :: 0 <= i < |calls| ==> SessionResetLate(ctx, calls)[i] != Stalled
    decreases |calls|
  {
    if |calls| > 0 {
      ResetLateKeepsHealthy(ctx, calls[0]);
      var d := DispatchResetLate(ctx, calls[0]);
      ResetLateNeverStalls(d.ctx, calls[1..]);
      forall i | 0 < i < |calls|
        ensures SessionResetLate(ctx, calls)[i] == SessionResetLate(d.ctx, calls[1..])[i - 1]
      {
      }
    }
  }

  /** The current fence wait returns, but an acquire left the current
      slot's semaphore signalled with nothing waiting on it, so every acquire
      from this slot is invalid. */
  predicate Wedged(ctx: Context) {
    && ctx.initialized
    && ctx.currentFrame < |ctx.slots|
    && ctx.slots[ctx.currentFrame].fence != Unsignalled
    && ctx.slots[ctx.currentFrame].availableSignalled
  }

  /** A wedged session stays wedged, whatever is called next, and each render
      makes an invalid acquire; both loops agree on it. */
  lemma WedgedStaysWedged(ctx: Context, call: Call)
    requires FrameIndexed(ctx) && Wedged(ctx)
    ensures DispatchResetLate(ctx, call) == Dispatch(ctx, call)
    ensures Wedged(Dispatch(ctx, call).ctx)
    ensures call.Render? ==> Dispatch(ctx, call).outcome == InvalidUse
  {
    if call.Resize? {
      DrainKeepsUnsignalled(ctx.slots, ctx.currentFrame);
    }
  }

  /** Once wedged, every later render of the corrected loop makes an invalid
      acquire: no call waits on the semaphore, and none moves the cursor. */
  lemma {:induction false} WedgedForever(ctx: Context, calls: seq<Call>)
    requires FrameIndexed(ctx) && Wedged(ctx)
    ensures forall i :: 0 <= i < |calls| && calls[i].Render? ==> SessionResetLate(ctx, calls)[i] == InvalidUse
    decreases |calls|
  {
    if |calls| > 0 {
      WedgedStaysWedged(ctx, calls[0]);
      var d := DispatchResetLate(ctx, calls[0]);
      WedgedForever(d.ctx, calls[1..]);
      forall i | 0 < i < |calls|
        ensures SessionResetLate(ctx, calls)[i] == SessionResetLate(d.ctx, calls[1..])[i - 1]
      {
      }
    }
  }

  /** What moving the reset does not repair: after a failed recording the
      acquired image is never presented and the next acquire reuses the
      semaphore that acquire signalled, so every later render of the session
      makes an invalid call instead of stalling. */
  lemma ResetLateFailedRecordWedges(ctx: Context, inp: FrameInputs, calls: seq<Call>)
    requires FrameIndexed(ctx) && RenderFrameResetLate(ctx, inp).outcome == RecordFailed
    ensures Wedged(RenderFrameResetLate(ctx, inp).ctx)
    ensures forall i :: 0 <= i < |calls| && calls[i].Render? ==>
      SessionResetLate(RenderFrameResetLate(ctx, inp).ctx, calls)[i] == InvalidUse
  {
    WedgedForever(RenderFrameResetLate(ctx, inp).ctx, calls);
  }

  // ---------------------------------------------------------------------------
  // Rendering after a rebuild
  // ---------------------------------------------------------------------------

  /** A rebuild leaves the context drawable exactly when it succeeds. */
  lemma RecreateDrawable(ctx: Context, rb: Rebuild)
    ensures RecreateSwapchain(ctx, rb).ok <==> Drawable(RecreateSwapchain(ctx, rb).ctx)
  {
    var c := CleanupSwapchain(Idle(ctx));
    var s := CreateSwapchain(c, rb.support, rb.swapchain, rb.images);
    if s.ok {
      var v := CreateImageViews(s.ctx, rb.imageViews);
      assert s.ctx.framebuffers == [] && v.ctx.framebuffers == [];
      assert v.ctx.swapchainImages == rb.images;
      if !v.ok {
        var j :| 0 <= j < |rb.images| && Answer(rb.imageViews, j) == NULL;
      } else {
        var fl := FillHandles(rb.framebuffers, |v.ctx.swapchainImageViews|, 0);
        var fb := CreateFramebuffers(v.ctx, rb.framebuffers);
        assert fb.ctx.framebuffers == fl.handles && fb.ctx.swapchain == rb.swapchain;
        assert fb.ctx.swapchainImages == rb.images;
        if !fb.ok {
          var j :| 0 <= j < |v.ctx.swapchainImageViews| && Answer(rb.framebuffers, j) == NULL;
          assert fl.handles[j] == Reached(rb.framebuffers, j) == NULL;
        }
      }
    }
  }

  /** `recreateSwapchain` reports a failure that its callers ignore: the
      context stays initialised, and the next frame never delivers. Past its
      fence wait it makes an invalid call when it cannot acquire or an image
      is acquired; an out-of-date or failed acquire on a swapchain that was
      kept returns as on any other frame. */
  lemma FailedRebuildBreaksNextFrame(ctx: Context, rb: Rebuild, inp: FrameInputs)
    requires FrameIndexed(ctx) && ctx.initialized && !RecreateSwapchain(ctx, rb).ok
    ensures var r := RecreateSwapchain(ctx, rb).ctx;
      && r.initialized && FrameIndexed(r) && !Drawable(r)
      && (RenderFrame(r, inp).outcome == InvalidUse <==>
            r.slots[r.currentFrame].fence != Unsignalled && (!CanAcquire(r, r.currentFrame) || ImageAcquired(inp)))
      && RenderFrame(r, inp).outcome in {Stalled, InvalidUse, AcquireOutOfDate, AcquireFailed}
  {
    RecreateDrawable(ctx, rb);
  }

  /** A resize whose rebuild fails leaves an initialised context on which the
      next render never delivers: past its fence wait, it makes an invalid
      call unless it can acquire and the acquire does not hand out an
      image. */
  lemma FailedResizeBreaksNextFrame(ctx: Context, width: int, height: int, rb: Rebuild, inp: FrameInputs)
    requires FrameIndexed(ctx) && ctx.initialized && width > 0 && height > 0
    requires ctx.width != width || ctx.height != height
    requires !RecreateSwapchain(ctx.(width := width, height := height), rb).ok
    ensures var r := ResizeSurface(ctx, width, height, rb);
      && r.initialized && FrameIndexed(r) && !Drawable(r)
      && (RenderFrame(r, inp).outcome == InvalidUse <==>
            r.slots[r.currentFrame].fence != Unsignalled && (!CanAcquire(r, r.currentFrame) || ImageAcquired(inp)))
      && RenderFrame(r, inp).outcome in {Stalled, InvalidUse, AcquireOutOfDate, AcquireFailed}
  {
    FailedRebuildBreaksNextFrame(ctx.(width := width, height := height), rb, inp);
  }

  /** A session that `nativeInit` has just set up is healthy and live. */
  lemma InitStartsHealthy(ctx: Context)
    requires Live(ctx) && ctx.initialized
    requires forall k :: 0 <= k < |ctx.slots| ==> ctx.slots[k].inFlight != NULL && ctx.slots[k].fence == Signalled
    ensures FrameIndexed(ctx) && Healthy(ctx)
  {
  }
}

=== FILE: lifecycle.dfy ===
/** The lifetime of the renderer's `VulkanContext`: the create steps that
    `nativeInit` runs in order, `cleanupSwapchain`, `recreateSwapchain`,
    `cleanup` and `nativeDestroy`. Every Vulkan or platform create call is
    replaced by the handle it answers (`NULL` for a failure), and the context
    carries a log of the create, destroy and synchronisation calls made on
    it, so that leaks, double destroys and teardown order can be stated. */
module Lifecycle {
  import opened VkTypes
  import opened SurfaceSelect
  import opened DeviceSelect
  import opened Resources

  /** Frames the CPU may record ahead of the GPU. */
  const MAX_FRAMES_IN_FLIGHT: nat := 2

  /** The host's view of an in-flight fence. `InFlight` is unsignalled with a
      submission pending that will signal it; `Unsignalled` has nothing
      pending, so a wait on it with an infinite timeout never returns.
      `Lost` is a fence of a lost device: the Lost Device section of the
      Vulkan specification requires a wait on it to return in finite time,
      and no later call changes that. */
  datatype FenceState = Signalled | Unsignalled | InFlight | Lost

  /** Entry `i` of the three synchronisation vectors, with the state of its
      fence. `availableSignalled` says that an acquire has signalled the
      `imageAvailable` semaphore and no submission has waited on it yet. */
  datatype FrameSlot = FrameSlot(imageAvailable: Handle, renderFinished: Handle, inFlight: Handle, fence: FenceState,
                                 availableSignalled: bool)

  /** The members of `VulkanContext` that the control flow reads or writes,
      plus the call log. Queues, the command buffer handles and the frame
      counter are left out (see the README). */
  datatype Context = Context(
    nativeWindow: Handle,
    width: int,
    height: int,
    instance: Handle,
    debugMessenger: Handle,
    surface: Handle,
    physicalDevice: Option<nat>,
    graphicsQueueFamily: nat,
    presentQueueFamily: nat,
    device: Handle,
    swapchain: Handle,
    swapchainFormat: Format,
    swapchainExtent: Extent,
    swapchainImages: seq<Handle>,
    swapchainImageViews: seq<Handle>,
    renderPass: Handle,
    framebuffers: seq<Handle>,
    commandPool: Handle,
    commandBuffersAllocated: bool,
    slots: seq<FrameSlot>,
    currentFrame: nat,
    pipelineLayout: Handle,
    graphicsPipeline: Handle,
    vertexBuffer: Handle,
    vertexBufferMemory: Handle,
    initialized: bool,
    log: seq<Event>)

  /** `new VulkanContext()`: every member at its in-class default. */
  const FRESH_CONTEXT: Context :=
    Context(NULL, 0, 0, NULL, NULL, NULL, None, UINT32_MAX, UINT32_MAX, NULL, NULL, FORMAT_UNDEFINED,
            Extent(0, 0), [], [], NULL, [], NULL, false, [], 0, NULL, NULL, NULL, NULL, false, [])

  // ---------------------------------------------------------------------------
  // Ownership
  // ---------------------------------------------------------------------------

  function One(kind: Kind, h: Handle): multiset<Res> {
    if h == NULL then multiset{} else multiset{Res(kind, h)}
  }

  function Each(kind: Kind, hs: seq<Handle>): multiset<Res> {
    if |hs| == 0 then multiset{} else One(kind, hs[0]) + Each(kind, hs[1..])
  }

  function SlotOwned(s: FrameSlot): multiset<Res> {
    One(Semaphore, s.imageAvailable) + One(Semaphore, s.renderFinished) + One(Fence, s.inFlight)
  }

  function SlotsOwned(ss: seq<FrameSlot>): multiset<Res> {
    if |ss| == 0 then multiset{} else SlotOwned(ss[0]) + SlotsOwned(ss[1..])
  }

  /** What `cleanupSwapchain` releases. */
  function SwapchainOwned(ctx: Context): multiset<Res> {
    Each(Framebuffer, ctx.framebuffers) + Each(ImageView, ctx.swapchainImageViews) + One(Swapchain, ctx.swapchain)
  }

  /** The objects created from the logical device, summed in the order
      `cleanup` destroys them. */
  function DeviceOwned(ctx: Context): multiset<Res> {
    SlotsOwned(ctx.slots) + One(CommandPool, ctx.commandPool) + One(Pipeline, ctx.graphicsPipeline)
      + One(PipelineLayout, ctx.pipelineLayout) + One(Buffer, ctx.vertexBuffer)
      + One(DeviceMemory, ctx.vertexBufferMemory) + Each(Framebuffer, ctx.framebuffers)
      + One(RenderPass, ctx.renderPass) + Each(ImageView, ctx.swapchainImageViews) + One(Swapchain, ctx.swapchain)
  }

  /** The objects `cleanup` releases after the device. */
  function InstanceOwned(ctx: Context): multiset<Res> {
    One(Surface, ctx.surface) + One(DebugMessenger, ctx.debugMessenger) + One(Instance, ctx.instance)
      + One(NativeWindow, ctx.nativeWindow)
  }

  /** Every non-null handle the context holds. */
  function Owned(ctx: Context): multiset<Res> {
    DeviceOwned(ctx) + One(Device, ctx.device) + InstanceOwned(ctx)
  }

  /** The books balance: every object the log created has been destroyed by
      the log or is still held by the context, and nothing else was destroyed. */
  predicate Balanced(ctx: Context) {
    CreatedIn(ctx.log) == DestroyedIn(ctx.log) + Owned(ctx)
  }

  /** Balanced, and device-level objects are only held while the device is
      (otherwise `cleanup`, which releases them under the device guard, would
      leak them). */
  predicate Accounted(ctx: Context) {
    Balanced(ctx) && (ctx.device == NULL ==> DeviceOwned(ctx) == multiset{})
  }

  /** The invariant of an initialised session that the frame loop relies on. */
  predicate Live(ctx: Context) {
    && Accounted(ctx)
    && ctx.currentFrame < MAX_FRAMES_IN_FLIGHT
    && (ctx.initialized ==> ctx.device != NULL && |ctx.slots| == MAX_FRAMES_IN_FLIGHT)
  }

  lemma OneOtherKind(kind: Kind, h: Handle, x: Res)
    requires x.kind != kind
    ensures One(kind, h)[x] == 0
  {
  }

  lemma {:induction false} EachOtherKind(kind: Kind, hs: seq<Handle>, x: Res)
    requires x.kind != kind
    ensures Each(kind, hs)[x] == 0
    decreases |hs|
  {
    if |hs| > 0 {
      OneOtherKind(kind, hs[0], x);
      EachOtherKind(kind, hs[1..], x);
    }
  }

  lemma {:induction false} SlotsHoldOnlySync(ss: seq<FrameSlot>, x: Res)
    requires x.kind != Semaphore && x.kind != Fence
    ensures SlotsOwned(ss)[x] == 0
    decreases |ss|
  {
    if |ss| > 0 {
      OneOtherKind(Semaphore, ss[0].imageAvailable, x);
      OneOtherKind(Semaphore, ss[0].renderFinished, x);
      OneOtherKind(Fence, ss[0].inFlight, x);
      SlotsHoldOnlySync(ss[1..], x);
    }
  }

  lemma DeviceOwnedHoldsNoShader(ctx: Context, x: Res)
    requires x.kind == ShaderModule
    ensures DeviceOwned(ctx)[x] == 0
  {
    var head := SlotsOwned(ctx.slots) + One(CommandPool, ctx.commandPool) + One(Pipeline, ctx.graphicsPipeline)
      + One(PipelineLayout, ctx.pipelineLayout) + One(Buffer, ctx.vertexBuffer);
    PipelineObjectsHoldNoShader(ctx.slots, ctx.commandPool, ctx.graphicsPipeline, ctx.pipelineLayout, ctx.vertexBuffer, x);
    OneOtherKind(DeviceMemory, ctx.vertexBufferMemory, x);
    EachOtherKind(Framebuffer, ctx.framebuffers, x);
    OneOtherKind(RenderPass, ctx.renderPass, x);
    EachOtherKind(ImageView, ctx.swapchainImageViews, x);
    OneOtherKind(Swapchain, ctx.swapchain, x);
    AbsentFromSum(head, One(DeviceMemory, ctx.vertexBufferMemory), Each(Framebuffer, ctx.framebuffers),
      One(RenderPass, ctx.renderPass), Each(ImageView, ctx.swapchainImageViews), One(Swapchain, ctx.swapchain), x);
  }

  lemma PipelineObjectsHoldNoShader(slots: seq<FrameSlot>, pool: Handle, pipeline: Handle, layout: Handle, buffer: Handle, x: Res)
    requires x.kind == ShaderModule
    ensures (SlotsOwned(slots) + One(CommandPool, pool) + One(Pipeline, pipeline)
      + One(PipelineLayout, layout) + One(Buffer, buffer))[x] == 0
  {
    SlotsHoldOnlySync(slots, x);
    OneOtherKind(CommandPool, pool, x);
    OneOtherKind(Pipeline, pipeline, x);
    OneOtherKind(PipelineLayout, layout, x);
    OneOtherKind(Buffer, buffer, x);
  }

  lemma AbsentFromSum<T>(a: multiset<T>, b: multiset<T>, c: multiset<T>, d: multiset<T>, e: multiset<T>, f: multiset<T>, x: T)
    requires a[x] == 0 && b[x] == 0 && c[x] == 0 && d[x] == 0 && e[x] == 0 && f[x] == 0
    ensures (a + b + c + d + e + f)[x] == 0
  {
  }

  /** The context never keeps a shader module, so on balanced books every
      shader module ever created has been destroyed exactly as often. */
  lemma ShaderModulesNeverHeld(ctx: Context, x: Res)
    requires Balanced(ctx) && x.kind == ShaderModule
    ensures CreatedIn(ctx.log)[x] == DestroyedIn(ctx.log)[x]
  {
    OwnedHoldsNoShader(ctx, x);
    var held := Owned(ctx);
    assert CreatedIn(ctx.log) == DestroyedIn(ctx.log) + held;
    assert (DestroyedIn(ctx.log) + held)[x] == DestroyedIn(ctx.log)[x] + held[x];
  }

  lemma OwnedHoldsNoShader(ctx: Context, x: Res)
    requires x.kind == ShaderModule
    ensures Owned(ctx)[x] == 0
  {
    DeviceOwnedHoldsNoShader(ctx, x);
    InstanceOwnedHoldsNoShader(ctx, x);
    OneOtherKind(Device, ctx.device, x);
    var d, v, i := DeviceOwned(ctx), One(Device, ctx.device), InstanceOwned(ctx);
    assert Owned(ctx) == d + v + i;
    assert (d + v + i)[x] == d[x] + v[x] + i[x];
  }

  lemma InstanceOwnedHoldsNoShader(ctx: Context, x: Res)
    requires x.kind == ShaderModule
    ensures InstanceOwned(ctx)[x] == 0
  {
    OneOtherKind(Surface, ctx.surface, x);
    OneOtherKind(DebugMessenger, ctx.debugMessenger, x);
    OneOtherKind(Instance, ctx.instance, x);
    OneOtherKind(NativeWindow, ctx.nativeWindow, x);
  }

  // ---------------------------------------------------------------------------
  // Destroy runs
  // ---------------------------------------------------------------------------

  function DestroyOne(kind: Kind, h: Handle): seq<Event> {
    if h == NULL then [] else [Destroyed(Res(kind, h))]
  }

  /** The null-guarded destroy loop over a handle vector. */
  function DestroyEach(kind: Kind, hs: seq<Handle>): seq<Event> {
    if |hs| == 0 then [] else DestroyOne(kind, hs[0]) + DestroyEach(kind, hs[1..])
  }

  /** One iteration of the synchronisation loop at the head of `cleanup`. */
  function DestroySlot(s: FrameSlot): seq<Event> {
    DestroyOne(Semaphore, s.imageAvailable) + DestroyOne(Semaphore, s.renderFinished) + DestroyOne(Fence, s.inFlight)
  }

  /** The synchronisation loop at the head of `cleanup`. */
  function DestroySlots(ss: seq<FrameSlot>): seq<Event> {
    if |ss| == 0 then [] else DestroySlot(ss[0]) + DestroySlots(ss[1..])
  }

  /** `events` creates nothing, destroys exactly `owned`, and does so in
      teardown order with ranks in `[lo, hi]`. */
  predicate Releases(events: seq<Event>, owned: multiset<Res>, lo: nat, hi: nat) {
    && CreatedIn(events) == multiset{}
    && DestroyedIn(events) == owned
    && SortedFrom(events, lo)
    && RanksAtMost(events, hi)
  }

  /** Two runs in sequence: the second may start at any rank from the first's
      top upwards. */
  lemma ReleasesConcat(a: seq<Event>, b: seq<Event>, oa: multiset<Res>, ob: multiset<Res>, lo: nat, top: nat, mid: nat, hi: nat)
    requires lo <= mid && top <= mid && top <= hi
    requires Releases(a, oa, lo, top) && Releases(b, ob, mid, hi)
    ensures Releases(a + b, oa + ob, lo, hi)
  {
    LogAppend(a, b);
    RanksAtMostWeaken(a, top, mid);
    SortedConcat(a, b, lo, mid);
    RanksAtMostWeaken(a, top, hi);
    RanksAtMostConcat(a, b, hi);
  }

  lemma DestroyOneReleases(kind: Kind, h: Handle)
    ensures Releases(DestroyOne(kind, h), One(kind, h), TeardownRank(kind), TeardownRank(kind))
  {
    var r := TeardownRank(kind);
    assert SortedFrom([], r) && RanksAtMost([], r);
    if h != NULL {
      var e := DestroyOne(kind, h);
      SingleEvent(Destroyed(Res(kind, h)));
      assert e[1..] == [];
    }
  }

  lemma {:induction false} DestroyEachReleases(kind: Kind, hs: seq<Handle>)
    ensures Releases(DestroyEach(kind, hs), Each(kind, hs), TeardownRank(kind), TeardownRank(kind))
    decreases |hs|
  {
    var r := TeardownRank(kind);
    if |hs| > 0 {
      DestroyOneReleases(kind, hs[0]);
      DestroyEachReleases(kind, hs[1..]);
      ReleasesConcat(DestroyOne(kind, hs[0]), DestroyEach(kind, hs[1..]), One(kind, hs[0]), Each(kind, hs[1..]), r, r, r, r);
    }
  }

  lemma DestroySlotReleases(s: FrameSlot)
    ensures Releases(DestroySlot(s), SlotOwned(s), 0, 0)
  {
    var a := DestroyOne(Semaphore, s.imageAvailable);
    var b := DestroyOne(Semaphore, s.renderFinished);
    var c := DestroyOne(Fence, s.inFlight);
    DestroyOneReleases(Semaphore, s.imageAvailable);
    DestroyOneReleases(Semaphore, s.renderFinished);
    DestroyOneReleases(Fence, s.inFlight);
    ReleasesConcat(a, b, One(Semaphore, s.imageAvailable), One(Semaphore, s.renderFinished), 0, 0, 0, 0);
    ReleasesConcat(a + b, c, One(Semaphore, s.imageAvailable) + One(Semaphore, s.renderFinished),
                   One(Fence, s.inFlight), 0, 0, 0, 0);
  }

  lemma {:induction false} DestroySlotsReleases(ss: seq<FrameSlot>)
    ensures Releases(DestroySlots(ss), SlotsOwned(ss), 0, 0)
    decreases |ss|
  {
    if |ss| == 0 {
      assert CreatedIn([]) == multiset{} && DestroyedIn([]) == multiset{};
      assert SortedFrom([], 0) && RanksAtMost([], 0);
    } else {
      DestroySlotReleases(ss[0]);
      DestroySlotsReleases(ss[1..]);
      ReleasesConcat(DestroySlot(ss[0]), DestroySlots(ss[1..]), SlotOwned(ss[0]), SlotsOwned(ss[1..]), 0, 0, 0, 0);
    }
  }

  /** Logging the creation of one object adds exactly that object to the created side. */
  lemma LogCreated(log: seq<Event>, x: Res)
    ensures CreatedIn(log + [Created(x)]) == CreatedIn(log) + multiset{x}
    ensures DestroyedIn(log + [Created(x)]) == DestroyedIn(log)
  {
    LogAppend(log, [Created(x)]);
    SingleEvent(Created(x));
  }

  /** Logging a call that neither creates nor destroys changes no count. */
  lemma LogNeutral(log: seq<Event>, e: Event)
    requires !e.Created? && !e.Destroyed?
    ensures CreatedIn(log + [e]) == CreatedIn(log)
    ensures DestroyedIn(log + [e]) == DestroyedIn(log)
  {
    LogAppend(log, [e]);
    SingleEvent(e);
  }

  // ---------------------------------------------------------------------------
  // cleanupSwapchain and cleanup
  // ---------------------------------------------------------------------------

  function SwapchainTeardown(ctx: Context): seq<Event> {
    DestroyEach(Framebuffer, ctx.framebuffers) + DestroyEach(ImageView, ctx.swapchainImageViews)
      + DestroyOne(Swapchain, ctx.swapchain)
  }

  /** `cleanupSwapchain`: framebuffers, then image views, then the swapchain. */
  function CleanupSwapchain(ctx: Context): (r: Context)
    ensures r.framebuffers == [] && r.swapchainImageViews == [] && r.swapchain == NULL
    ensures ctx.log <= r.log
  {
    ctx.(framebuffers := [], swapchainImageViews := [], swapchain := NULL,
         log := ctx.log + SwapchainTeardown(ctx))
  }

  /** The destroys of `cleanupSwapchain` release exactly the swapchain group,
      children first. */
  lemma SwapchainTeardownReleases(ctx: Context)
    ensures Releases(SwapchainTeardown(ctx), SwapchainOwned(ctx), TeardownRank(Framebuffer), TeardownRank(Swapchain))
  {
    var fb := DestroyEach(Framebuffer, ctx.framebuffers);
    var iv := DestroyEach(ImageView, ctx.swapchainImageViews);
    var sc := DestroyOne(Swapchain, ctx.swapchain);
    DestroyEachReleases(Framebuffer, ctx.framebuffers);
    DestroyEachReleases(ImageView, ctx.swapchainImageViews);
    DestroyOneReleases(Swapchain, ctx.swapchain);
    ReleasesConcat(fb, iv, Each(Framebuffer, ctx.framebuffers), Each(ImageView, ctx.swapchainImageViews),
                   TeardownRank(Framebuffer), TeardownRank(Framebuffer), TeardownRank(ImageView), TeardownRank(ImageView));
    ReleasesConcat(fb + iv, sc, Each(Framebuffer, ctx.framebuffers) + Each(ImageView, ctx.swapchainImageViews),
                   One(Swapchain, ctx.swapchain), TeardownRank(Framebuffer), TeardownRank(ImageView),
                   TeardownRank(Swapchain), TeardownRank(Swapchain));
  }

  /** Moving three summands to the end of a sum of five. */
  lemma Regroup(p: multiset<Res>, f: multiset<Res>, rp: multiset<Res>, iv: multiset<Res>, sc: multiset<Res>,
                rest: multiset<Res>)
    ensures p + f + rp + iv + sc + rest == p + rp + rest + (f + iv + sc)
  {
  }

  /** What `cleanupSwapchain` takes out of the device-level objects is
      exactly the swapchain group. */
  lemma CleanupSwapchainDeviceOwned(ctx: Context)
    ensures DeviceOwned(CleanupSwapchain(ctx)) + SwapchainOwned(ctx) == DeviceOwned(ctx)
  {
    var r := CleanupSwapchain(ctx);
    var p := SlotsOwned(ctx.slots) + One(CommandPool, ctx.commandPool) + One(Pipeline, ctx.graphicsPipeline)
      + One(PipelineLayout, ctx.pipelineLayout) + One(Buffer, ctx.vertexBuffer) + One(DeviceMemory, ctx.vertexBufferMemory);
    assert Each(Framebuffer, []) == multiset{} && Each(ImageView, []) == multiset{} && One(Swapchain, NULL) == multiset{};
    Regroup(p, Each(Framebuffer, ctx.framebuffers), One(RenderPass, ctx.renderPass),
            Each(ImageView, ctx.swapchainImageViews), One(Swapchain, ctx.swapchain), multiset{});
  }

  lemma CleanupSwapchainOwned(ctx: Context)
    ensures Owned(CleanupSwapchain(ctx)) + SwapchainOwned(ctx) == Owned(ctx)
  {
    var r := CleanupSwapchain(ctx);
    CleanupSwapchainDeviceOwned(ctx);
    Regroup(DeviceOwned(r), SwapchainOwned(ctx), One(Device, ctx.device), InstanceOwned(ctx), multiset{}, multiset{});
  }

  /** `cleanupSwapchain` keeps the books balanced: what it destroys is
      exactly what the context stops holding. */
  lemma CleanupSwapchainAccounted(ctx: Context)
    requires Accounted(ctx)
    ensures Accounted(CleanupSwapchain(ctx))
    ensures DestroyedIn(CleanupSwapchain(ctx).log) == DestroyedIn(ctx.log) + SwapchainOwned(ctx)
    ensures CreatedIn(CleanupSwapchain(ctx).log) == CreatedIn(ctx.log)
  {
    var r := CleanupSwapchain(ctx);
    var t := SwapchainTeardown(ctx);
    SwapchainTeardownReleases(ctx);
    LogAppend(ctx.log, t);
    assert r.log == ctx.log + t;
    CleanupSwapchainOwned(ctx);
    MovedToDestroyed(CreatedIn(ctx.log), DestroyedIn(ctx.log), SwapchainOwned(ctx), Owned(r), Owned(ctx));
    if ctx.device == NULL {
      CleanupSwapchainDeviceOwned(ctx);
      EmptyPart(DeviceOwned(r), SwapchainOwned(ctx));
    }
  }

  /** Books that balanced before still balance once part `s` of what was held
      moves to the destroyed side. */
  lemma MovedToDestroyed(c: multiset<Res>, d: multiset<Res>, s: multiset<Res>, o: multiset<Res>, held: multiset<Res>)
    requires c == d + held && o + s == held
    ensures c == d + s + o
  {
  }

  lemma EmptyPart(a: multiset<Res>, b: multiset<Res>)
    requires a + b == multiset{}
    ensures a == multiset{}
  {
    assert forall x :: a[x] <= (a + b)[x];
  }

  /** The destroys inside `cleanup`'s device guard, children first. */
  function DeviceObjectsTeardown(ctx: Context): seq<Event> {
    DestroySlots(ctx.slots) + DestroyOne(CommandPool, ctx.commandPool)
      + DestroyOne(Pipeline, ctx.graphicsPipeline) + DestroyOne(PipelineLayout, ctx.pipelineLayout)
      + DestroyOne(Buffer, ctx.vertexBuffer) + DestroyOne(DeviceMemory, ctx.vertexBufferMemory)
      + DestroyEach(Framebuffer, ctx.framebuffers) + DestroyOne(RenderPass, ctx.renderPass)
      + DestroyEach(ImageView, ctx.swapchainImageViews) + DestroyOne(Swapchain, ctx.swapchain)
  }

  /** The calls inside `cleanup`'s device guard: wait for the device to go
      idle, destroy every device-level object, then the device. */
  function DeviceTeardown(ctx: Context): seq<Event> {
    [DeviceWaitIdle] + DeviceObjectsTeardown(ctx) + [Destroyed(Res(Device, ctx.device))]
  }

  /** The calls after the device guard: surface, debug messenger, instance,
      and the reference on the native window. */
  function InstanceTeardown(ctx: Context): seq<Event> {
    DestroyOne(Surface, ctx.surface) + DestroyOne(DebugMessenger, ctx.debugMessenger)
      + DestroyOne(Instance, ctx.instance) + DestroyOne(NativeWindow, ctx.nativeWindow)
  }

  /** `cleanup`. */
  function Cleanup(ctx: Context): (r: Context)
    ensures r.device == NULL && r.surface == NULL && r.instance == NULL && r.nativeWindow == NULL
    ensures !r.initialized
    ensures ctx.log <= r.log
  {
    var c :=
      if ctx.device == NULL then ctx
      else
        ctx.(slots := [], commandPool := NULL, commandBuffersAllocated := false, graphicsPipeline := NULL,
             pipelineLayout := NULL, vertexBuffer := NULL, vertexBufferMemory := NULL, framebuffers := [],
             renderPass := NULL, swapchainImageViews := [], swapchain := NULL, device := NULL,
             log := ctx.log + DeviceTeardown(ctx));
    c.(surface := NULL, debugMessenger := NULL, instance := NULL, nativeWindow := NULL, initialized := false,
       log := c.log + InstanceTeardown(c))
  }

  lemma DeviceObjectsTeardownReleases(ctx: Context)
    ensures Releases(DeviceObjectsTeardown(ctx), DeviceOwned(ctx), 0, TeardownRank(Swapchain))
  {
    TeardownRanks();
    ViewTeardownReleases(ctx);
    DestroyOneReleases(Swapchain, ctx.swapchain);
    var e := DestroySlots(ctx.slots) + DestroyOne(CommandPool, ctx.commandPool) + DestroyOne(Pipeline, ctx.graphicsPipeline)
      + DestroyOne(PipelineLayout, ctx.pipelineLayout) + DestroyOne(Buffer, ctx.vertexBuffer) + DestroyOne(DeviceMemory, ctx.vertexBufferMemory)
      + DestroyEach(Framebuffer, ctx.framebuffers) + DestroyOne(RenderPass, ctx.renderPass) + DestroyEach(ImageView, ctx.swapchainImageViews);
    var o := SlotsOwned(ctx.slots) + One(CommandPool, ctx.commandPool) + One(Pipeline, ctx.graphicsPipeline)
      + One(PipelineLayout, ctx.pipelineLayout) + One(Buffer, ctx.vertexBuffer) + One(DeviceMemory, ctx.vertexBufferMemory)
      + Each(Framebuffer, ctx.framebuffers) + One(RenderPass, ctx.renderPass) + Each(ImageView, ctx.swapchainImageViews);
    assert DeviceObjectsTeardown(ctx) == e + DestroyOne(Swapchain, ctx.swapchain);
    assert DeviceOwned(ctx) == o + One(Swapchain, ctx.swapchain);
    ReleasesConcat(e, DestroyOne(Swapchain, ctx.swapchain), o, One(Swapchain, ctx.swapchain),
      0, TeardownRank(ImageView), TeardownRank(Swapchain), TeardownRank(Swapchain));
  }

  /** A release run followed by two single-rank runs at non-decreasing ranks. */
  lemma ReleasesThenTwo(a: seq<Event>, b: seq<Event>, c: seq<Event>, oa: multiset<Res>, ob: multiset<Res>, oc: multiset<Res>,
                        top: nat, rb: nat, rc: nat)
    requires top <= rb <= rc
    requires Releases(a, oa, 0, top) && Releases(b, ob, rb, rb) && Releases(c, oc, rc, rc)
    ensures Releases(a + b + c, oa + ob + oc, 0, rc)
  {
    ReleasesConcat(a, b, oa, ob, 0, top, rb, rb);
    ReleasesConcat(a + b, c, oa + ob, oc, 0, rb, rc, rc);
  }

  /** The device-level teardown down to the image views. */
  lemma ViewTeardownReleases(ctx: Context)
    ensures Releases(DestroySlots(ctx.slots) + DestroyOne(CommandPool, ctx.commandPool) + DestroyOne(Pipeline, ctx.graphicsPipeline)
      + DestroyOne(PipelineLayout, ctx.pipelineLayout) + DestroyOne(Buffer, ctx.vertexBuffer) + DestroyOne(DeviceMemory, ctx.vertexBufferMemory)
      + DestroyEach(Framebuffer, ctx.framebuffers) + DestroyOne(RenderPass, ctx.renderPass) + DestroyEach(ImageView, ctx.swapchainImageViews),
      SlotsOwned(ctx.slots) + One(CommandPool, ctx.commandPool) + One(Pipeline, ctx.graphicsPipeline)
      + One(PipelineLayout, ctx.pipelineLayout) + One(Buffer, ctx.vertexBuffer) + One(DeviceMemory, ctx.vertexBufferMemory)
      + Each(Framebuffer, ctx.framebuffers) + One(RenderPass, ctx.renderPass) + Each(ImageView, ctx.swapchainImageViews),
      0, TeardownRank(ImageView))
  {
    TeardownRanks();
    MemoryTeardownReleases(ctx);
    DestroyOneReleases(RenderPass, ctx.renderPass);
    DestroyEachReleases(ImageView, ctx.swapchainImageViews);
    ReleasesThenTwo(DestroySlots(ctx.slots) + DestroyOne(CommandPool, ctx.commandPool) + DestroyOne(Pipeline, ctx.graphicsPipeline)
      + DestroyOne(PipelineLayout, ctx.pipelineLayout) + DestroyOne(Buffer, ctx.vertexBuffer) + DestroyOne(DeviceMemory, ctx.vertexBufferMemory)
      + DestroyEach(Framebuffer, ctx.framebuffers),
      DestroyOne(RenderPass, ctx.renderPass), DestroyEach(ImageView, ctx.swapchainImageViews),
      SlotsOwned(ctx.slots) + One(CommandPool, ctx.commandPool) + One(Pipeline, ctx.graphicsPipeline)
      + One(PipelineLayout, ctx.pipelineLayout) + One(Buffer, ctx.vertexBuffer) + One(DeviceMemory, ctx.vertexBufferMemory)
      + Each(Framebuffer, ctx.framebuffers),
      One(RenderPass, ctx.renderPass), Each(ImageView, ctx.swapchainImageViews),
      TeardownRank(Framebuffer), TeardownRank(RenderPass), TeardownRank(ImageView));
  }

  /** The device-level teardown down to the framebuffers. */
  lemma MemoryTeardownReleases(ctx: Context)
    ensures Releases(DestroySlots(ctx.slots) + DestroyOne(CommandPool, ctx.commandPool) + DestroyOne(Pipeline, ctx.graphicsPipeline)
      + DestroyOne(PipelineLayout, ctx.pipelineLayout) + DestroyOne(Buffer, ctx.vertexBuffer) + DestroyOne(DeviceMemory, ctx.vertexBufferMemory)
      + DestroyEach(Framebuffer, ctx.framebuffers),
      SlotsOwned(ctx.slots) + One(CommandPool, ctx.commandPool) + One(Pipeline, ctx.graphicsPipeline)
      + One(PipelineLayout, ctx.pipelineLayout) + One(Buffer, ctx.vertexBuffer) + One(DeviceMemory, ctx.vertexBufferMemory)
      + Each(Framebuffer, ctx.framebuffers),
      0, TeardownRank(Framebuffer))
  {
    TeardownRanks();
    BufferTeardownReleases(ctx);
    DestroyOneReleases(DeviceMemory, ctx.vertexBufferMemory);
    DestroyEachReleases(Framebuffer, ctx.framebuffers);
    ReleasesThenTwo(DestroySlots(ctx.slots) + DestroyOne(CommandPool, ctx.commandPool) + DestroyOne(Pipeline, ctx.graphicsPipeline)
      + DestroyOne(PipelineLayout, ctx.pipelineLayout) + DestroyOne(Buffer, ctx.vertexBuffer),
      DestroyOne(DeviceMemory, ctx.vertexBufferMemory), DestroyEach(Framebuffer, ctx.framebuffers),
      SlotsOwned(ctx.slots) + One(CommandPool, ctx.commandPool) + One(Pipeline, ctx.graphicsPipeline)
      + One(PipelineLayout, ctx.pipelineLayout) + One(Buffer, ctx.vertexBuffer),
      One(DeviceMemory, ctx.vertexBufferMemory), Each(Framebuffer, ctx.framebuffers),
      TeardownRank(Buffer), TeardownRank(DeviceMemory), TeardownRank(Framebuffer));
  }

  /** The device-level teardown down to the vertex buffer. */
  lemma BufferTeardownReleases(ctx: Context)
    ensures Releases(DestroySlots(ctx.slots) + DestroyOne(CommandPool, ctx.commandPool) + DestroyOne(Pipeline, ctx.graphicsPipeline)
      + DestroyOne(PipelineLayout, ctx.pipelineLayout) + DestroyOne(Buffer, ctx.vertexBuffer),
      SlotsOwned(ctx.slots) + One(CommandPool, ctx.commandPool) + One(Pipeline, ctx.graphicsPipeline)
      + One(PipelineLayout, ctx.pipelineLayout) + One(Buffer, ctx.vertexBuffer),
      0, TeardownRank(Buffer))
  {
    TeardownRanks();
    SyncTeardownReleases(ctx);
    DestroyOneReleases(PipelineLayout, ctx.pipelineLayout);
    DestroyOneReleases(Buffer, ctx.vertexBuffer);
    ReleasesThenTwo(DestroySlots(ctx.slots) + DestroyOne(CommandPool, ctx.commandPool) + DestroyOne(Pipeline, ctx.graphicsPipeline),
      DestroyOne(PipelineLayout, ctx.pipelineLayout), DestroyOne(Buffer, ctx.vertexBuffer),
      SlotsOwned(ctx.slots) + One(CommandPool, ctx.commandPool) + One(Pipeline, ctx.graphicsPipeline),
      One(PipelineLayout, ctx.pipelineLayout), One(Buffer, ctx.vertexBuffer),
      TeardownRank(Pipeline), TeardownRank(PipelineLayout), TeardownRank(Buffer));
  }

  /** The device-level teardown down to the graphics pipeline: frame slots,
      command pool, pipeline. */
  lemma SyncTeardownReleases(ctx: Context)
    ensures Releases(DestroySlots(ctx.slots) + DestroyOne(CommandPool, ctx.commandPool) + DestroyOne(Pipeline, ctx.graphicsPipeline),
      SlotsOwned(ctx.slots) + One(CommandPool, ctx.commandPool) + One(Pipeline, ctx.graphicsPipeline),
      0, TeardownRank(Pipeline))
  {
    assert 0 <= TeardownRank(CommandPool) <= TeardownRank(Pipeline);
    DestroySlotsReleases(ctx.slots);
    DestroyOneReleases(CommandPool, ctx.commandPool);
    DestroyOneReleases(Pipeline, ctx.graphicsPipeline);
    ReleasesThenTwo(DestroySlots(ctx.slots),
      DestroyOne(CommandPool, ctx.commandPool), DestroyOne(Pipeline, ctx.graphicsPipeline),
      SlotsOwned(ctx.slots),
      One(CommandPool, ctx.commandPool), One(Pipeline, ctx.graphicsPipeline),
      0, TeardownRank(CommandPool), TeardownRank(Pipeline));
  }

  /** A call that neither creates nor destroys may precede a release run. */
  lemma NeutralFirst(x: Event, e: seq<Event>, o: multiset<Res>, lo: nat, hi: nat)
    requires !x.Created? && !x.Destroyed?
    requires Releases(e, o, lo, hi)
    ensures Releases([x] + e, o, lo, hi)
  {
    SingleEvent(x);
    LogAppend([x], e);
    assert ([x] + e)[1..] == e;
  }

  lemma DeviceTeardownReleases(ctx: Context)
    requires ctx.device != NULL
    ensures Releases(DeviceTeardown(ctx), DeviceOwned(ctx) + One(Device, ctx.device), 0, TeardownRank(Device))
  {
    DeviceObjectsTeardownReleases(ctx);
    NeutralFirst(DeviceWaitIdle, DeviceObjectsTeardown(ctx), DeviceOwned(ctx), 0, TeardownRank(Swapchain));
    DestroyOneReleases(Device, ctx.device);
    ReleasesConcat([DeviceWaitIdle] + DeviceObjectsTeardown(ctx), DestroyOne(Device, ctx.device), DeviceOwned(ctx),
                   One(Device, ctx.device), 0, TeardownRank(Swapchain), TeardownRank(Device), TeardownRank(Device));
  }

  lemma InstanceTeardownReleases(ctx: Context)
    ensures Releases(InstanceTeardown(ctx), InstanceOwned(ctx), TeardownRank(Surface), TeardownRank(NativeWindow))
  {
    var a := DestroyOne(Surface, ctx.surface);
    var b := DestroyOne(DebugMessenger, ctx.debugMessenger);
    var c := DestroyOne(Instance, ctx.instance);
    var d := DestroyOne(NativeWindow, ctx.nativeWindow);
    DestroyOneReleases(Surface, ctx.surface);
    DestroyOneReleases(DebugMessenger, ctx.debugMessenger);
    DestroyOneReleases(Instance, ctx.instance);
    DestroyOneReleases(NativeWindow, ctx.nativeWindow);
    ReleasesConcat(a, b, One(Surface, ctx.surface), One(DebugMessenger, ctx.debugMessenger),
                   TeardownRank(Surface), TeardownRank(Surface), TeardownRank(DebugMessenger), TeardownRank(DebugMessenger));
    ReleasesConcat(a + b, c, One(Surface, ctx.surface) + One(DebugMessenger, ctx.debugMessenger),
                   One(Instance, ctx.instance), TeardownRank(Surface), TeardownRank(DebugMessenger),
                   TeardownRank(Instance), TeardownRank(Instance));
    ReleasesConcat(a + b + c, d, One(Surface, ctx.surface) + One(DebugMessenger, ctx.debugMessenger)
                   + One(Instance, ctx.instance), One(NativeWindow, ctx.nativeWindow), TeardownRank(Surface),
                   TeardownRank(Instance), TeardownRank(NativeWindow), TeardownRank(NativeWindow));
  }

  /** The calls `cleanup` appends to the log. */
  function CleanupEvents(ctx: Context): seq<Event> {
    (if ctx.device == NULL then [] else DeviceTeardown(ctx)) + InstanceTeardown(ctx)
  }

  lemma CleanupLog(ctx: Context)
    ensures Cleanup(ctx).log == ctx.log + CleanupEvents(ctx)
  {
    if ctx.device == NULL {
      assert CleanupEvents(ctx) == InstanceTeardown(ctx);
    }
  }

  /** `cleanup` on an accounted context destroys exactly what the context
      holds, each object once, in teardown order, starting with a device-idle
      wait when there is a device; afterwards the context holds nothing and
      every object the log ever created has been destroyed. */
  lemma CleanupReleasesOwned(ctx: Context)
    requires Accounted(ctx)
    ensures Cleanup(ctx).log == ctx.log + CleanupEvents(ctx)
    ensures Releases(CleanupEvents(ctx), Owned(ctx), 0, TeardownRank(NativeWindow))
    ensures ctx.device != NULL ==> CleanupEvents(ctx)[0] == DeviceWaitIdle
    ensures Owned(Cleanup(ctx)) == multiset{}
    ensures CreatedIn(Cleanup(ctx).log) == DestroyedIn(Cleanup(ctx).log)
  {
    TeardownRanks();
    InstanceTeardownReleases(ctx);
    CleanupLog(ctx);
    if ctx.device == NULL {
      assert CleanupEvents(ctx) == [] + InstanceTeardown(ctx);
      assert Owned(ctx) == multiset{} + multiset{} + InstanceOwned(ctx);
      SortedWeaken(InstanceTeardown(ctx), TeardownRank(Surface), 0);
      ReleasesConcat([], InstanceTeardown(ctx), multiset{}, InstanceOwned(ctx), 0, 0, 0, TeardownRank(NativeWindow));
    } else {
      DeviceTeardownReleases(ctx);
      ReleasesConcat(DeviceTeardown(ctx), InstanceTeardown(ctx), DeviceOwned(ctx) + One(Device, ctx.device),
                     InstanceOwned(ctx), 0, TeardownRank(Device), TeardownRank(Surface), TeardownRank(NativeWindow));
    }
    LogAppend(ctx.log, CleanupEvents(ctx));
    CleanupEmptiesOwned(ctx);
  }

  /** After `cleanup` the context holds no object. */
  lemma CleanupEmptiesOwned(ctx: Context)
    requires Accounted(ctx)
    ensures Owned(Cleanup(ctx)) == multiset{}
  {
    var r := Cleanup(ctx);
    assert DeviceOwned(r) == multiset{};
  }

  /** Cleanup order, in Vulkan's terms: no object is destroyed after an
      object it was created from. */
  lemma CleanupChildrenFirst(ctx: Context)
    requires Accounted(ctx)
    ensures var e := CleanupEvents(ctx);
      forall i, j :: 0 <= i < j < |e| && e[i].Destroyed? && e[j].Destroyed? ==>
        !CreatedFrom(e[j].res.kind, e[i].res.kind)
  {
    CleanupReleasesOwned(ctx);
    SortedRespectsCreatedFrom(CleanupEvents(ctx), 0);
  }

  /** A second `cleanup` does nothing: no call is made and no member changes. */
  lemma CleanupIdempotent(ctx: Context)
    ensures Cleanup(Cleanup(ctx)) == Cleanup(ctx)
  {
    var r := Cleanup(ctx);
    assert InstanceTeardown(r) == [];
    assert r.log + [] == r.log;
  }

  // ---------------------------------------------------------------------------
  // Create steps
  // ---------------------------------------------------------------------------

  /** One create step: the context afterwards and the step's boolean answer. */
  datatype Step = Step(ctx: Context, ok: bool)

  /** The handle answered by the `n`-th create call of a loop (`NULL`, a
      failure, past the answers given, so that any answer list is acceptable). */
  function Answer(answers: seq<Handle>, n: nat): Handle {
    if n < |answers| then answers[n] else NULL
  }

  /** Every create call `from .. to-1` of a loop succeeds. */
  predicate AllAnswered(answers: seq<Handle>, from: nat, to: nat) {
    forall j :: from <= j < to ==> Answer(answers, j) != NULL
  }

  /** What slot `n` of a create loop holds once the loop is over: the answer
      of call `n` when every call up to and including it succeeded, and the
      null handle the vector was resized with otherwise (the call failed, or
      the loop stopped before it). */
  function Reached(answers: seq<Handle>, n: nat): Handle {
    if AllAnswered(answers, 0, n + 1) then Answer(answers, n) else NULL
  }

  /** The creation events of a single create call. */
  function CreatedOne(kind: Kind, h: Handle): seq<Event> {
    if h == NULL then [] else [Created(Res(kind, h))]
  }

  /** The creation events of a create loop over a handle vector, in call order. */
  function CreatedEach(kind: Kind, hs: seq<Handle>): seq<Event> {
    if |hs| == 0 then [] else CreatedOne(kind, hs[0]) + CreatedEach(kind, hs[1..])
  }

  lemma CreatedOneCounts(kind: Kind, h: Handle)
    ensures CreatedIn(CreatedOne(kind, h)) == One(kind, h)
    ensures DestroyedIn(CreatedOne(kind, h)) == multiset{}
  {
    assert CreatedIn([]) == multiset{} && DestroyedIn([]) == multiset{};
    if h != NULL {
      SingleEvent(Created(Res(kind, h)));
    }
  }

  lemma {:induction false} CreatedEachCounts(kind: Kind, hs: seq<Handle>)
    ensures CreatedIn(CreatedEach(kind, hs)) == Each(kind, hs)
    ensures DestroyedIn(CreatedEach(kind, hs)) == multiset{}
    decreases |hs|
  {
    if |hs| == 0 {
      assert CreatedIn([]) == multiset{} && DestroyedIn([]) == multiset{};
    } else {
      CreatedOneCounts(kind, hs[0]);
      CreatedEachCounts(kind, hs[1..]);
      LogAppend(CreatedOne(kind, hs[0]), CreatedEach(kind, hs[1..]));
    }
  }

  /** Every event of `events` creates an object of one of `kinds`. */
  predicate CreatesOnly(events: seq<Event>, kinds: set<Kind>) {
    forall i :: 0 <= i < |events| ==> events[i].Created? && events[i].res.kind in kinds
  }

  lemma CreatesOnlyConcat(a: seq<Event>, b: seq<Event>, kinds: set<Kind>)
    requires CreatesOnly(a, kinds) && CreatesOnly(b, kinds)
    ensures CreatesOnly(a + b, kinds)
  {
    forall i | |a| <= i < |a| + |b|
      ensures (a + b)[i] == b[i - |a|]
    {
    }
  }

  lemma {:induction false} CreatedEachOnlyCreates(kind: Kind, hs: seq<Handle>, kinds: set<Kind>)
    requires kind in kinds
    ensures CreatesOnly(CreatedEach(kind, hs), kinds)
    decreases |hs|
  {
    if |hs| > 0 {
      CreatedEachOnlyCreates(kind, hs[1..], kinds);
      CreatesOnlyConcat(CreatedOne(kind, hs[0]), CreatedEach(kind, hs[1..]), kinds);
    }
  }

  /** `after` is `before` followed only by creates of objects of `kinds`. */
  predicate GrowsByCreates(before: seq<Event>, after: seq<Event>, kinds: set<Kind>) {
    && |before| <= |after|
    && after[..|before|] == before
    && CreatesOnly(after[|before|..], kinds)
  }

  lemma GrowsByAppend(a: seq<Event>, t: seq<Event>, kinds: set<Kind>)
    requires CreatesOnly(t, kinds)
    ensures GrowsByCreates(a, a + t, kinds)
  {
    assert (a + t)[..|a|] == a;
    assert (a + t)[|a|..] == t;
  }

  lemma GrowsByCreatesTrans(a: seq<Event>, b: seq<Event>, c: seq<Event>, kinds: set<Kind>)
    requires GrowsByCreates(a, b, kinds) && GrowsByCreates(b, c, kinds)
    ensures GrowsByCreates(a, c, kinds)
  {
    assert c[..|a|] == b[..|b|][..|a|];
    assert c[|a|..] == b[|a|..] + c[|b|..];
    CreatesOnlyConcat(b[|a|..], c[|b|..], kinds);
  }

  /** A step that logs `made`, destroys again the `transient` objects it
      creates and takes over the rest keeps the books balanced. */
  lemma Acquired(ctx: Context, r: Context, made: seq<Event>, transient: multiset<Res>, gained: multiset<Res>)
    requires Accounted(ctx)
    requires r.log == ctx.log + made
    requires CreatedIn(made) == transient + gained && DestroyedIn(made) == transient
    requires Owned(r) == Owned(ctx) + gained
    requires r.device == NULL ==> DeviceOwned(r) == multiset{}
    ensures Accounted(r)
  {
    LogAppend(ctx.log, made);
  }

  /** Init progress. The steps of `nativeInit` are numbered 1 (instance),
      2 (surface), 3 (device pick), 4 (logical device), 5 (swapchain),
      6 (image views), 7 (render pass), 8 (pipeline), 9 (vertex buffer),
      10 (framebuffers), 11 (command pool), 12 (command buffers), 13 (sync
      objects). `Ready(ctx, k)`: the books balance, the context is not yet
      initialised, nothing step `k` or a later one creates is held, and from
      step 5 on the device exists. */
  predicate Ready(ctx: Context, stage: nat) {
    && Accounted(ctx)
    && !ctx.initialized
    && ctx.nativeWindow != NULL
    && ctx.currentFrame == 0
    && (stage <= 1 ==> ctx.instance == NULL && ctx.debugMessenger == NULL)
    && (stage <= 2 ==> ctx.surface == NULL)
    && (stage <= 4 ==> ctx.device == NULL)
    && (stage > 4 ==> ctx.device != NULL)
    && (stage <= 5 ==> ctx.swapchain == NULL)
    && (stage <= 6 ==> ctx.swapchainImageViews == [])
    && (stage <= 7 ==> ctx.renderPass == NULL)
    && (stage <= 8 ==> ctx.pipelineLayout == NULL && ctx.graphicsPipeline == NULL)
    && (stage <= 9 ==> ctx.vertexBuffer == NULL && ctx.vertexBufferMemory == NULL)
    && (stage <= 10 ==> ctx.framebuffers == [])
    && (stage <= 11 ==> ctx.commandPool == NULL)
    && (stage <= 12 ==> !ctx.commandBuffersAllocated)
    && (stage <= 13 ==> ctx.slots == [])
  }

  /** `createInstance`: `instance` answers `vkCreateInstance`. `validation`
      says whether the build enables validation and the layer is present;
      then `messenger` answers the debug-messenger create, whose failure is
      only a warning. */
  function CreateInstance(ctx: Context, validation: bool, instance: Handle, messenger: Handle): (r: Step)
    ensures r.ok <==> instance != NULL
    ensures r.ctx.instance == instance
    ensures r.ok && validation ==> r.ctx.debugMessenger == messenger
    ensures !(r.ok && validation) ==> r.ctx.debugMessenger == ctx.debugMessenger
    ensures ctx.log <= r.ctx.log
  {
    var c := ctx.(instance := instance, log := ctx.log + CreatedOne(Instance, instance));
    if instance == NULL then Step(c, false)
    else if validation then
      Step(c.(debugMessenger := messenger, log := c.log + CreatedOne(DebugMessenger, messenger)), true)
    else Step(c, true)
  }

  /** Storing a new instance in an empty member. */
  lemma OwnedAfterInstance(ctx: Context, r: Context)
    requires ctx.instance == NULL
    requires r == ctx.(instance := r.instance, log := r.log)
    ensures Owned(r) == Owned(ctx) + One(Instance, r.instance)
  {
  }

  /** Storing a new debug messenger in an empty member. */
  lemma OwnedAfterMessenger(ctx: Context, r: Context)
    requires ctx.debugMessenger == NULL
    requires r == ctx.(debugMessenger := r.debugMessenger, log := r.log)
    ensures Owned(r) == Owned(ctx) + One(DebugMessenger, r.debugMessenger)
  {
  }

  lemma CreateInstanceAccounted(ctx: Context, validation: bool, instance: Handle, messenger: Handle)
    requires Accounted(ctx) && ctx.instance == NULL && ctx.debugMessenger == NULL
    ensures Accounted(CreateInstance(ctx, validation, instance, messenger).ctx)
  {
    var r := CreateInstance(ctx, validation, instance, messenger);
    var c := ctx.(instance := instance, log := ctx.log + CreatedOne(Instance, instance));
    CreatedOneCounts(Instance, instance);
    OwnedAfterInstance(ctx, c);
    Acquired(ctx, c, CreatedOne(Instance, instance), multiset{}, One(Instance, instance));
    if instance != NULL && validation {
      CreatedOneCounts(DebugMessenger, messenger);
      OwnedAfterMessenger(c, r.ctx);
      Acquired(c, r.ctx, CreatedOne(DebugMessenger, messenger), multiset{}, One(DebugMessenger, messenger));
    }
  }

  lemma CreateInstanceKeepsReady(ctx: Context, validation: bool, instance: Handle, messenger: Handle)
    requires Ready(ctx, 1)
    ensures var r := CreateInstance(ctx, validation, instance, messenger);
      Accounted(r.ctx) && (r.ok ==> Ready(r.ctx, 2))
  {
    CreateInstanceAccounted(ctx, validation, instance, messenger);
  }

  /** `createSurface`: `surface` answers `vkCreateAndroidSurfaceKHR`. */
  function CreateSurface(ctx: Context, surface: Handle): (r: Step)
    ensures r.ok <==> surface != NULL
    ensures r.ctx.surface == surface
    ensures ctx.log <= r.ctx.log
  {
    Step(ctx.(surface := surface, log := ctx.log + CreatedOne(Surface, surface)), surface != NULL)
  }

  lemma CreateSurfaceAccounted(ctx: Context, surface: Handle)
    requires Accounted(ctx) && ctx.surface == NULL
    ensures Accounted(CreateSurface(ctx, surface).ctx)
  {
    CreatedOneCounts(Surface, surface);
    Acquired(ctx, CreateSurface(ctx, surface).ctx, CreatedOne(Surface, surface), multiset{}, One(Surface, surface));
  }

  lemma CreateSurfaceKeepsReady(ctx: Context, surface: Handle)
    requires Ready(ctx, 2)
    ensures var r := CreateSurface(ctx, surface);
      Accounted(r.ctx) && (r.ok ==> Ready(r.ctx, 3))
  {
    CreateSurfaceAccounted(ctx, surface);
  }

  /** `pickPhysicalDevice` as a step: it stores the chosen device and the
      queue families found for it, and creates nothing. (The families it
      writes while rejecting earlier devices are overwritten or discarded.) */
  function ChoosePhysicalDevice(ctx: Context, devices: seq<PhysicalDevice>): (r: Step)
    ensures r.ok <==> exists j :: 0 <= j < |devices| && Suitable(devices[j])
    ensures !r.ok ==> r.ctx == ctx
    ensures r.ok ==>
      && r.ctx.physicalDevice.Some? && r.ctx.physicalDevice.value < |devices|
      && Suitable(devices[r.ctx.physicalDevice.value])
      && FamiliesFound(devices[r.ctx.physicalDevice.value].queueFamilies,
                       QueueFamilies(r.ctx.graphicsQueueFamily, r.ctx.presentQueueFamily))
    ensures Owned(r.ctx) == Owned(ctx) && r.ctx.log == ctx.log
  {
    match PickPhysicalDevice(devices)
    case None => Step(ctx, false)
    case Some(p) =>
      Step(ctx.(physicalDevice := Some(p.device), graphicsQueueFamily := p.families.graphics,
                presentQueueFamily := p.families.present), true)
  }

  /** `createLogicalDevice`: `device` answers `vkCreateDevice`, which is asked
      for one queue per family of `UniqueQueueFamilies`. */
  function CreateLogicalDevice(ctx: Context, device: Handle): (r: Step)
    ensures r.ok <==> device != NULL
    ensures r.ctx.device == device
    ensures ctx.log <= r.ctx.log
  {
    Step(ctx.(device := device, log := ctx.log + CreatedOne(Device, device)), device != NULL)
  }

  lemma CreateLogicalDeviceAccounted(ctx: Context, device: Handle)
    requires Accounted(ctx) && ctx.device == NULL
    ensures Accounted(CreateLogicalDevice(ctx, device).ctx)
  {
    CreatedOneCounts(Device, device);
    Acquired(ctx, CreateLogicalDevice(ctx, device).ctx, CreatedOne(Device, device), multiset{}, One(Device, device));
  }

  lemma CreateLogicalDeviceKeepsReady(ctx: Context, device: Handle)
    requires Ready(ctx, 4)
    ensures var r := CreateLogicalDevice(ctx, device);
      Accounted(r.ctx) && (r.ok ==> Ready(r.ctx, 5))
  {
    CreateLogicalDeviceAccounted(ctx, device);
  }

  /** `createSwapchain`: fails before any call when the surface reports no
      format or no present mode; otherwise `swapchain` answers
      `vkCreateSwapchainKHR` for the create info of `MakeSwapchainCreateInfo`,
      and `images` is what `vkGetSwapchainImagesKHR` lists. Format and extent
      are stored only on success. */
  function CreateSwapchain(ctx: Context, support: SwapchainSupport, swapchain: Handle, images: seq<Handle>): (r: Step)
    ensures r.ok <==> |support.formats| > 0 && |support.presentModes| > 0 && swapchain != NULL
    ensures |support.formats| == 0 || |support.presentModes| == 0 ==> r.ctx == ctx
    ensures r.ok ==>
      && r.ctx.swapchain == swapchain
      && r.ctx.swapchainImages == images
      && r.ctx.swapchainFormat == ChooseSwapSurfaceFormat(support.formats).format
      && r.ctx.swapchainExtent == ChooseSwapExtent(support.capabilities, ToU32(ctx.width), ToU32(ctx.height))
    ensures !r.ok ==> r.ctx.swapchain == NULL || r.ctx.swapchain == ctx.swapchain
    ensures ctx.log <= r.ctx.log
  {
    if |support.formats| == 0 || |support.presentModes| == 0 then Step(ctx, false)
    else
      var info := MakeSwapchainCreateInfo(support, ToU32(ctx.width), ToU32(ctx.height),
                                          ctx.graphicsQueueFamily, ctx.presentQueueFamily);
      var c := ctx.(swapchain := swapchain, log := ctx.log + CreatedOne(Swapchain, swapchain));
      if swapchain == NULL then Step(c, false)
      else
        Step(c.(swapchainFormat := info.surfaceFormat.format, swapchainExtent := info.extent,
                swapchainImages := images), true)
  }

  /** Storing a new swapchain, with its format, extent and images, in an empty member. */
  lemma OwnedAfterSwapchain(ctx: Context, r: Context)
    requires ctx.swapchain == NULL
    requires r == ctx.(swapchain := r.swapchain, swapchainFormat := r.swapchainFormat,
                       swapchainExtent := r.swapchainExtent, swapchainImages := r.swapchainImages, log := r.log)
    ensures Owned(r) == Owned(ctx) + One(Swapchain, r.swapchain)
  {
  }

  /** `createSwapchain` on a context without a swapchain keeps the books. */
  lemma CreateSwapchainAccounted(ctx: Context, support: SwapchainSupport, swapchain: Handle, images: seq<Handle>)
    requires Accounted(ctx) && ctx.device != NULL && ctx.swapchain == NULL
    ensures var r := CreateSwapchain(ctx, support, swapchain, images);
      && Accounted(r.ctx)
      && r.ctx.log == ctx.log + (if |support.formats| == 0 || |support.presentModes| == 0 then []
                                 else CreatedOne(Swapchain, swapchain))
  {
    var r := CreateSwapchain(ctx, support, swapchain, images);
    if |support.formats| == 0 || |support.presentModes| == 0 {
      assert ctx.log + [] == ctx.log;
    } else {
      CreatedOneCounts(Swapchain, swapchain);
      OwnedAfterSwapchain(ctx, r.ctx);
      Acquired(ctx, r.ctx, CreatedOne(Swapchain, swapchain), multiset{}, One(Swapchain, swapchain));
    }
  }

  lemma CreateSwapchainKeepsReady(ctx: Context, support: SwapchainSupport, swapchain: Handle, images: seq<Handle>)
    requires Ready(ctx, 5)
    ensures var r := CreateSwapchain(ctx, support, swapchain, images);
      Accounted(r.ctx) && (r.ok ==> Ready(r.ctx, 6))
  {
    CreateSwapchainAccounted(ctx, support, swapchain, images);
  }

  /** The result of a create loop over a handle vector. */
  datatype Fill = Fill(handles: seq<Handle>, ok: bool)

  function Nulls(n: nat): (r: seq<Handle>)
    ensures |r| == n && forall j :: 0 <= j < n ==> r[j] == NULL
  {
    seq(n, _ => NULL)
  }

  /** The loop shared by `createImageViews` and `createFramebuffers`, from
      position `i`: the vector has been resized to `count` null handles and
      call `j` answers `Answer(answers, j)`; the loop returns at the first
      failure. */
  function FillHandles(answers: seq<Handle>, count: nat, i: nat): (r: Fill)
    requires i <= count && AllAnswered(answers, 0, i)
    decreases count - i
    ensures |r.handles| == count - i
    ensures r.ok <==> AllAnswered(answers, 0, count)
    ensures forall j :: 0 <= j < |r.handles| ==> r.handles[j] == Reached(answers, i + j)
  {
    if i == count then Fill([], true)
    else if Answer(answers, i) == NULL then
      assert !AllAnswered(answers, 0, count);
      Fill(Nulls(count - i), false)
    else
      var rest := FillHandles(answers, count, i + 1);
      var r := Fill([Answer(answers, i)] + rest.handles, rest.ok);
      assert forall j :: 1 <= j < |r.handles| ==> r.handles[j] == rest.handles[j - 1];
      r
  }

  /** `createImageViews`: one view per swapchain image, into a vector that is
      empty whenever the step runs. */
  function CreateImageViews(ctx: Context, answers: seq<Handle>): (r: Step)
    ensures r.ok <==> AllAnswered(answers, 0, |ctx.swapchainImages|)
    ensures |r.ctx.swapchainImageViews| == |ctx.swapchainImages|
    ensures r.ok ==> forall j :: 0 <= j < |ctx.swapchainImages| ==> r.ctx.swapchainImageViews[j] == Answer(answers, j)
    ensures ctx.log <= r.ctx.log
  {
    var f := FillHandles(answers, |ctx.swapchainImages|, 0);
    Step(ctx.(swapchainImageViews := f.handles, log := ctx.log + CreatedEach(ImageView, f.handles)), f.ok)
  }

  /** Storing new image views in an empty vector. */
  lemma OwnedAfterViews(ctx: Context, r: Context)
    requires ctx.swapchainImageViews == []
    requires r == ctx.(swapchainImageViews := r.swapchainImageViews, log := r.log)
    ensures Owned(r) == Owned(ctx) + Each(ImageView, r.swapchainImageViews)
  {
    var a := SlotsOwned(ctx.slots) + One(CommandPool, ctx.commandPool) + One(Pipeline, ctx.graphicsPipeline)
      + One(PipelineLayout, ctx.pipelineLayout) + One(Buffer, ctx.vertexBuffer)
      + One(DeviceMemory, ctx.vertexBufferMemory) + Each(Framebuffer, ctx.framebuffers)
      + One(RenderPass, ctx.renderPass);
    var f := Each(ImageView, r.swapchainImageViews);
    var z := One(Swapchain, ctx.swapchain);
    assert DeviceOwned(r) == a + f + z;
    assert DeviceOwned(ctx) == a + multiset{} + z;
    assert DeviceOwned(r) == DeviceOwned(ctx) + f;
    HeldLast(DeviceOwned(ctx), f, One(Device, ctx.device), InstanceOwned(ctx));
  }

  /** A multiset added in the middle of a sum may be added last. */
  lemma HeldLast(d: multiset<Res>, f: multiset<Res>, v: multiset<Res>, i: multiset<Res>)
    ensures d + f + v + i == d + v + i + f
  {
  }

  lemma CreateImageViewsAccounted(ctx: Context, answers: seq<Handle>)
    requires Accounted(ctx) && ctx.device != NULL && ctx.swapchainImageViews == []
    ensures var r := CreateImageViews(ctx, answers);
      && Accounted(r.ctx)
      && r.ctx.log == ctx.log + CreatedEach(ImageView, r.ctx.swapchainImageViews)
  {
    var r := CreateImageViews(ctx, answers);
    CreatedEachCounts(ImageView, r.ctx.swapchainImageViews);
    OwnedAfterViews(ctx, r.ctx);
    Acquired(ctx, r.ctx, CreatedEach(ImageView, r.ctx.swapchainImageViews), multiset{}, Each(ImageView, r.ctx.swapchainImageViews));
  }

  lemma CreateImageViewsKeepsReady(ctx: Context, answers: seq<Handle>)
    requires Ready(ctx, 6)
    ensures var r := CreateImageViews(ctx, answers);
      Accounted(r.ctx) && (r.ok ==> Ready(r.ctx, 7))
  {
    CreateImageViewsAccounted(ctx, answers);
  }

  /** `createRenderPass`. */
  function CreateRenderPass(ctx: Context, renderPass: Handle): (r: Step)
    ensures r.ok <==> renderPass != NULL
    ensures r.ctx.renderPass == renderPass
    ensures ctx.log <= r.ctx.log
  {
    Step(ctx.(renderPass := renderPass, log := ctx.log + CreatedOne(RenderPass, renderPass)), renderPass != NULL)
  }

  lemma CreateRenderPassAccounted(ctx: Context, renderPass: Handle)
    requires Accounted(ctx) && ctx.device != NULL && ctx.renderPass == NULL
    ensures Accounted(CreateRenderPass(ctx, renderPass).ctx)
  {
    CreatedOneCounts(RenderPass, renderPass);
    Acquired(ctx, CreateRenderPass(ctx, renderPass).ctx, CreatedOne(RenderPass, renderPass), multiset{}, One(RenderPass, renderPass));
  }

  lemma CreateRenderPassKeepsReady(ctx: Context, renderPass: Handle)
    requires Ready(ctx, 7)
    ensures var r := CreateRenderPass(ctx, renderPass);
      Accounted(r.ctx) && (r.ok ==> Ready(r.ctx, 8))
  {
    CreateRenderPassAccounted(ctx, renderPass);
  }

  /** The events of `createGraphicsPipeline` after both shader-module calls:
      when both modules exist, the layout call, the pipeline call when the
      layout was made, and the destruction of both modules; when one is
      missing, the destruction of the other. */
  function PipelineEvents(vert: Handle, frag: Handle, layout: Handle, pipeline: Handle): seq<Event> {
    if vert == NULL || frag == NULL then
      DestroyOne(ShaderModule, vert) + DestroyOne(ShaderModule, frag)
    else if layout == NULL then
      [Destroyed(Res(ShaderModule, vert)), Destroyed(Res(ShaderModule, frag))]
    else
      [Created(Res(PipelineLayout, layout))] + CreatedOne(Pipeline, pipeline)
        + [Destroyed(Res(ShaderModule, vert)), Destroyed(Res(ShaderModule, frag))]
  }

  /** `createGraphicsPipeline`: both shader modules are always attempted; a
      missing one destroys the other and fails; a failed layout destroys both
      modules and fails; otherwise the pipeline is attempted and both modules
      are destroyed whatever its answer, a failed pipeline leaving the layout
      held by the context. */
  function CreateGraphicsPipeline(ctx: Context, vert: Handle, frag: Handle, layout: Handle, pipeline: Handle): (r: Step)
    ensures r.ok <==> vert != NULL && frag != NULL && layout != NULL && pipeline != NULL
    ensures vert != NULL && frag != NULL ==> r.ctx.pipelineLayout == layout
    ensures vert != NULL && frag != NULL && layout != NULL ==> r.ctx.graphicsPipeline == pipeline
    ensures vert == NULL || frag == NULL ==> r.ctx.pipelineLayout == ctx.pipelineLayout
    ensures vert == NULL || frag == NULL || layout == NULL ==> r.ctx.graphicsPipeline == ctx.graphicsPipeline
    ensures vert != NULL && frag != NULL ==>
      && |r.ctx.log| >= 2
      && r.ctx.log[|r.ctx.log| - 2..] == [Destroyed(Res(ShaderModule, vert)), Destroyed(Res(ShaderModule, frag))]
    ensures ctx.log <= r.ctx.log
  {
    var e := CreatedOne(ShaderModule, vert) + CreatedOne(ShaderModule, frag) + PipelineEvents(vert, frag, layout, pipeline);
    if vert == NULL || frag == NULL then
      Step(ctx.(log := ctx.log + e), false)
    else if layout == NULL then
      Step(ctx.(pipelineLayout := NULL, log := ctx.log + e), false)
    else
      Step(ctx.(pipelineLayout := layout, graphicsPipeline := pipeline, log := ctx.log + e), pipeline != NULL)
  }

  /** Whatever the answers, `createGraphicsPipeline` destroys every shader
      module it creates, and what else it creates is exactly the layout and
      pipeline it keeps. */
  lemma PipelineEventsCounts(vert: Handle, frag: Handle, layout: Handle, pipeline: Handle)
    ensures var e := CreatedOne(ShaderModule, vert) + CreatedOne(ShaderModule, frag) + PipelineEvents(vert, frag, layout, pipeline);
      var sm := One(ShaderModule, vert) + One(ShaderModule, frag);
      && DestroyedIn(e) == sm
      && (vert == NULL || frag == NULL || layout == NULL ==> CreatedIn(e) == sm)
      && (vert != NULL && frag != NULL && layout != NULL ==>
            CreatedIn(e) == sm + (One(PipelineLayout, layout) + One(Pipeline, pipeline)))
  {
    var cv := CreatedOne(ShaderModule, vert);
    var cf := CreatedOne(ShaderModule, frag);
    CreatedOneCounts(ShaderModule, vert);
    CreatedOneCounts(ShaderModule, frag);
    LogAppend(cv, cf);
    var p := PipelineEvents(vert, frag, layout, pipeline);
    LogAppend(cv + cf, p);
    PipelineTailCounts(vert, frag, layout, pipeline);
  }

  /** The events after the two shader-module attempts. */
  lemma PipelineTailCounts(vert: Handle, frag: Handle, layout: Handle, pipeline: Handle)
    ensures var p := PipelineEvents(vert, frag, layout, pipeline);
      && DestroyedIn(p) == One(ShaderModule, vert) + One(ShaderModule, frag)
      && (vert == NULL || frag == NULL || layout == NULL ==> CreatedIn(p) == multiset{})
      && (vert != NULL && frag != NULL && layout != NULL ==>
            CreatedIn(p) == One(PipelineLayout, layout) + One(Pipeline, pipeline))
  {
    var dv := Destroyed(Res(ShaderModule, vert));
    var df := Destroyed(Res(ShaderModule, frag));
    if vert == NULL || frag == NULL {
      DestroyOneReleases(ShaderModule, vert);
      DestroyOneReleases(ShaderModule, frag);
      LogAppend(DestroyOne(ShaderModule, vert), DestroyOne(ShaderModule, frag));
    } else {
      SingleEvent(dv);
      SingleEvent(df);
      LogAppend([dv], [df]);
      assert [dv] + [df] == [dv, df];
      if layout != NULL {
        var cl := [Created(Res(PipelineLayout, layout))];
        SingleEvent(Created(Res(PipelineLayout, layout)));
        CreatedOneCounts(Pipeline, pipeline);
        LogAppend(cl, CreatedOne(Pipeline, pipeline));
        LogAppend(cl + CreatedOne(Pipeline, pipeline), [dv, df]);
      }
    }
  }

  /** Storing a new pipeline layout and pipeline in empty members. */
  lemma OwnedAfterPipeline(ctx: Context, r: Context)
    requires ctx.pipelineLayout == NULL && ctx.graphicsPipeline == NULL
    requires r == ctx.(pipelineLayout := r.pipelineLayout, graphicsPipeline := r.graphicsPipeline, log := r.log)
    ensures Owned(r) == Owned(ctx) + (One(PipelineLayout, r.pipelineLayout) + One(Pipeline, r.graphicsPipeline))
  {
  }

  lemma CreateGraphicsPipelineAccounted(ctx: Context, vert: Handle, frag: Handle, layout: Handle, pipeline: Handle)
    requires Accounted(ctx) && ctx.device != NULL && ctx.pipelineLayout == NULL && ctx.graphicsPipeline == NULL
    ensures Accounted(CreateGraphicsPipeline(ctx, vert, frag, layout, pipeline).ctx)
  {
    var r := CreateGraphicsPipeline(ctx, vert, frag, layout, pipeline);
    var e := CreatedOne(ShaderModule, vert) + CreatedOne(ShaderModule, frag) + PipelineEvents(vert, frag, layout, pipeline);
    var sm := One(ShaderModule, vert) + One(ShaderModule, frag);
    PipelineEventsCounts(vert, frag, layout, pipeline);
    if vert == NULL || frag == NULL || layout == NULL {
      assert r.ctx == ctx.(log := ctx.log + e);
      assert sm + multiset{} == sm;
      Acquired(ctx, r.ctx, e, sm, multiset{});
    } else {
      var kept := One(PipelineLayout, layout) + One(Pipeline, pipeline);
      OwnedAfterPipeline(ctx, r.ctx);
      Acquired(ctx, r.ctx, e, sm, kept);
    }
  }

  lemma CreateGraphicsPipelineKeepsReady(ctx: Context, vert: Handle, frag: Handle, layout: Handle, pipeline: Handle)
    requires Ready(ctx, 8)
    ensures var r := CreateGraphicsPipeline(ctx, vert, frag, layout, pipeline);
      Accounted(r.ctx) && (r.ok ==> Ready(r.ctx, 9))
  {
    CreateGraphicsPipelineAccounted(ctx, vert, frag, layout, pipeline);
  }

  const HOST_VISIBLE_COHERENT: bv32 := MEMORY_PROPERTY_HOST_VISIBLE | MEMORY_PROPERTY_HOST_COHERENT

  /** Some memory type accepts the vertex buffer and is host visible and coherent. */
  predicate HostMemoryAvailable(memoryTypeBits: bv32, memoryTypes: seq<bv32>)
    requires |memoryTypes| <= MAX_MEMORY_TYPES
  {
    exists j :: 0 <= j < |memoryTypes| && MemoryTypeFits(memoryTypeBits, HOST_VISIBLE_COHERENT, memoryTypes, j)
  }

  /** `createVertexBuffer`: create the buffer, find a host-visible coherent
      memory type (`UINT32_MAX` means none), allocate, bind, map. Each failure
      returns at once and leaves what was made held by the context. */
  function CreateVertexBuffer(ctx: Context, buffer: Handle, memoryTypeBits: bv32, memoryTypes: seq<bv32>,
                              memory: Handle, bindOk: bool, mapOk: bool): (r: Step)
    requires |memoryTypes| <= MAX_MEMORY_TYPES
    ensures r.ok <==> buffer != NULL && HostMemoryAvailable(memoryTypeBits, memoryTypes) && memory != NULL && bindOk && mapOk
    ensures r.ctx.vertexBuffer == buffer
    ensures r.ctx.vertexBufferMemory ==
      (if buffer != NULL && HostMemoryAvailable(memoryTypeBits, memoryTypes) then memory else ctx.vertexBufferMemory)
    ensures ctx.log <= r.ctx.log
  {
    var c := ctx.(vertexBuffer := buffer, log := ctx.log + CreatedOne(Buffer, buffer));
    if buffer == NULL then Step(c, false)
    else if FindMemoryType(memoryTypeBits, HOST_VISIBLE_COHERENT, memoryTypes) == UINT32_MAX then Step(c, false)
    else
      var c' := c.(vertexBufferMemory := memory, log := c.log + CreatedOne(DeviceMemory, memory));
      Step(c', memory != NULL && bindOk && mapOk)
  }

  /** Storing a new vertex buffer in an empty member. */
  lemma OwnedAfterBuffer(ctx: Context, r: Context)
    requires ctx.vertexBuffer == NULL
    requires r == ctx.(vertexBuffer := r.vertexBuffer, log := r.log)
    ensures Owned(r) == Owned(ctx) + One(Buffer, r.vertexBuffer)
  {
  }

  /** Storing new vertex-buffer memory in an empty member. */
  lemma OwnedAfterMemory(ctx: Context, r: Context)
    requires ctx.vertexBufferMemory == NULL
    requires r == ctx.(vertexBufferMemory := r.vertexBufferMemory, log := r.log)
    ensures Owned(r) == Owned(ctx) + One(DeviceMemory, r.vertexBufferMemory)
  {
  }

  lemma CreateVertexBufferAccounted(ctx: Context, buffer: Handle, memoryTypeBits: bv32, memoryTypes: seq<bv32>,
                                    memory: Handle, bindOk: bool, mapOk: bool)
    requires |memoryTypes| <= MAX_MEMORY_TYPES
    requires Accounted(ctx) && ctx.device != NULL && ctx.vertexBuffer == NULL && ctx.vertexBufferMemory == NULL
    ensures Accounted(CreateVertexBuffer(ctx, buffer, memoryTypeBits, memoryTypes, memory, bindOk, mapOk).ctx)
  {
    var r := CreateVertexBuffer(ctx, buffer, memoryTypeBits, memoryTypes, memory, bindOk, mapOk);
    var c := ctx.(vertexBuffer := buffer, log := ctx.log + CreatedOne(Buffer, buffer));
    CreatedOneCounts(Buffer, buffer);
    OwnedAfterBuffer(ctx, c);
    Acquired(ctx, c, CreatedOne(Buffer, buffer), multiset{}, One(Buffer, buffer));
    if buffer != NULL && FindMemoryType(memoryTypeBits, HOST_VISIBLE_COHERENT, memoryTypes) != UINT32_MAX {
      CreatedOneCounts(DeviceMemory, memory);
      OwnedAfterMemory(c, r.ctx);
      Acquired(c, r.ctx, CreatedOne(DeviceMemory, memory), multiset{}, One(DeviceMemory, memory));
    }
  }

  lemma CreateVertexBufferKeepsReady(ctx: Context, buffer: Handle, memoryTypeBits: bv32, memoryTypes: seq<bv32>,
                                     memory: Handle, bindOk: bool, mapOk: bool)
    requires |memoryTypes| <= MAX_MEMORY_TYPES
    requires Ready(ctx, 9)
    ensures var r := CreateVertexBuffer(ctx, buffer, memoryTypeBits, memoryTypes, memory, bindOk, mapOk);
      Accounted(r.ctx) && (r.ok ==> Ready(r.ctx, 10))
  {
    CreateVertexBufferAccounted(ctx, buffer, memoryTypeBits, memoryTypes, memory, bindOk, mapOk);
  }

  /** `createFramebuffers`: one framebuffer per image view, into a vector
      that is empty whenever the step runs. */
  function CreateFramebuffers(ctx: Context, answers: seq<Handle>): (r: Step)
    ensures r.ok <==> AllAnswered(answers, 0, |ctx.swapchainImageViews|)
    ensures |r.ctx.framebuffers| == |ctx.swapchainImageViews|
    ensures r.ok ==> forall j :: 0 <= j < |ctx.swapchainImageViews| ==> r.ctx.framebuffers[j] == Answer(answers, j)
    ensures ctx.log <= r.ctx.log
  {
    var f := FillHandles(answers, |ctx.swapchainImageViews|, 0);
    Step(ctx.(framebuffers := f.handles, log := ctx.log + CreatedEach(Framebuffer, f.handles)), f.ok)
  }

  /** Storing new framebuffers in an empty vector. */
  lemma OwnedAfterFramebuffers(ctx: Context, r: Context)
    requires ctx.framebuffers == []
    requires r == ctx.(framebuffers := r.framebuffers, log := r.log)
    ensures Owned(r) == Owned(ctx) + Each(Framebuffer, r.framebuffers)
  {
    var a := SlotsOwned(ctx.slots) + One(CommandPool, ctx.commandPool) + One(Pipeline, ctx.graphicsPipeline)
      + One(PipelineLayout, ctx.pipelineLayout) + One(Buffer, ctx.vertexBuffer)
      + One(DeviceMemory, ctx.vertexBufferMemory);
    var f := Each(Framebuffer, r.framebuffers);
    var x, y, z := One(RenderPass, ctx.renderPass), Each(ImageView, ctx.swapchainImageViews), One(Swapchain, ctx.swapchain);
    assert DeviceOwned(r) == a + f + x + y + z;
    assert DeviceOwned(ctx) == a + multiset{} + x + y + z;
    HeldLast(a, f, x, y);
    assert DeviceOwned(r) == DeviceOwned(ctx) + f;
    HeldLast(DeviceOwned(ctx), f, One(Device, ctx.device), InstanceOwned(ctx));
  }

  lemma CreateFramebuffersAccounted(ctx: Context, answers: seq<Handle>)
    requires Accounted(ctx) && ctx.device != NULL && ctx.framebuffers == []
    ensures var r := CreateFramebuffers(ctx, answers);
      && Accounted(r.ctx)
      && r.ctx.log == ctx.log + CreatedEach(Framebuffer, r.ctx.framebuffers)
  {
    var r := CreateFramebuffers(ctx, answers);
    CreatedEachCounts(Framebuffer, r.ctx.framebuffers);
    OwnedAfterFramebuffers(ctx, r.ctx);
    Acquired(ctx, r.ctx, CreatedEach(Framebuffer, r.ctx.framebuffers), multiset{}, Each(Framebuffer, r.ctx.framebuffers));
  }

  lemma CreateFramebuffersKeepsReady(ctx: Context, answers: seq<Handle>)
    requires Ready(ctx, 10)
    ensures var r := CreateFramebuffers(ctx, answers);
      Accounted(r.ctx) && (r.ok ==> Ready(r.ctx, 11))
  {
    CreateFramebuffersAccounted(ctx, answers);
  }

  /** `createCommandPool`. */
  function CreateCommandPool(ctx: Context, pool: Handle): (r: Step)
    ensures r.ok <==> pool != NULL
    ensures r.ctx.commandPool == pool
    ensures ctx.log <= r.ctx.log
  {
    Step(ctx.(commandPool := pool, log := ctx.log + CreatedOne(CommandPool, pool)), pool != NULL)
  }

  lemma CreateCommandPoolAccounted(ctx: Context, pool: Handle)
    requires Accounted(ctx) && ctx.device != NULL && ctx.commandPool == NULL
    ensures Accounted(CreateCommandPool(ctx, pool).ctx)
  {
    CreatedOneCounts(CommandPool, pool);
    Acquired(ctx, CreateCommandPool(ctx, pool).ctx, CreatedOne(CommandPool, pool), multiset{}, One(CommandPool, pool));
  }

  lemma CreateCommandPoolKeepsReady(ctx: Context, pool: Handle)
    requires Ready(ctx, 11)
    ensures var r := CreateCommandPool(ctx, pool);
      Accounted(r.ctx) && (r.ok ==> Ready(r.ctx, 12))
  {
    CreateCommandPoolAccounted(ctx, pool);
  }

  /** `createCommandBuffers`: the buffers come from the pool and go with it,
      so only whether the allocation succeeded is kept. */
  function CreateCommandBuffers(ctx: Context, succeeded: bool): (r: Step)
    ensures r.ok == succeeded == r.ctx.commandBuffersAllocated
    ensures r.ctx.log == ctx.log && Owned(r.ctx) == Owned(ctx)
  {
    Step(ctx.(commandBuffersAllocated := succeeded), succeeded)
  }

  /** The result of the synchronisation-object loop. */
  datatype SlotFill = SlotFill(slots: seq<FrameSlot>, ok: bool)

  const EMPTY_SLOT: FrameSlot := FrameSlot(NULL, NULL, NULL, Signalled, false)

  /** Slot `k` once `createSyncObjects` is over: calls `3k`, `3k+1`, `3k+2`
      of the loop create its two semaphores and its fence (created
      signalled). */
  function SlotReached(answers: seq<Handle>, k: nat): FrameSlot {
    FrameSlot(Reached(answers, 3 * k), Reached(answers, 3 * k + 1), Reached(answers, 3 * k + 2), Signalled, false)
  }

  /** The loop of `createSyncObjects` from slot `s`: per slot, two semaphores
      and a fence, the three calls short-circuited on the first failure,
      which ends the loop. */
  function FillSlots(answers: seq<Handle>, s: nat): (r: SlotFill)
    requires s <= MAX_FRAMES_IN_FLIGHT && AllAnswered(answers, 0, 3 * s)
    decreases MAX_FRAMES_IN_FLIGHT - s
    ensures |r.slots| == MAX_FRAMES_IN_FLIGHT - s
    ensures r.ok <==> AllAnswered(answers, 0, 3 * MAX_FRAMES_IN_FLIGHT)
    ensures forall k :: 0 <= k < |r.slots| ==> r.slots[k] == SlotReached(answers, s + k)
  {
    if s == MAX_FRAMES_IN_FLIGHT then SlotFill([], true)
    else
      var a := Answer(answers, 3 * s);
      var b := Answer(answers, 3 * s + 1);
      var c := Answer(answers, 3 * s + 2);
      if a == NULL || b == NULL || c == NULL then
        var idle := seq(MAX_FRAMES_IN_FLIGHT - s - 1, _ => EMPTY_SLOT);
        var first := FrameSlot(a, if a == NULL then NULL else b, if a == NULL || b == NULL then NULL else c, Signalled, false);
        FailedSlot(answers, s);
        var r := SlotFill([first] + idle, false);
        assert forall k :: 1 <= k < |r.slots| ==> r.slots[k] == EMPTY_SLOT;
        r
      else
        FullSlot(answers, s);
        var rest := FillSlots(answers, s + 1);
        var r := SlotFill([FrameSlot(a, b, c, Signalled, false)] + rest.slots, rest.ok);
        assert forall k :: 1 <= k < |r.slots| ==> r.slots[k] == rest.slots[k - 1];
        r
  }

  /** Once every earlier call succeeded, a call's slot holds its own answer. */
  lemma ReachedNext(answers: seq<Handle>, n: nat)
    requires AllAnswered(answers, 0, n)
    ensures Reached(answers, n) == Answer(answers, n)
    ensures Answer(answers, n) != NULL ==> AllAnswered(answers, 0, n + 1)
  {
  }

  /** A failed call leaves every later slot null. */
  lemma ReachedPastFailure(answers: seq<Handle>, n: nat, m: nat)
    requires n < m && Answer(answers, n) == NULL
    ensures Reached(answers, m) == NULL && !AllAnswered(answers, 0, m)
  {
  }

  /** A slot whose three calls succeed. */
  lemma FullSlot(answers: seq<Handle>, s: nat)
    requires AllAnswered(answers, 0, 3 * s)
    requires Answer(answers, 3 * s) != NULL && Answer(answers, 3 * s + 1) != NULL && Answer(answers, 3 * s + 2) != NULL
    ensures AllAnswered(answers, 0, 3 * (s + 1))
    ensures SlotReached(answers, s)
      == FrameSlot(Answer(answers, 3 * s), Answer(answers, 3 * s + 1), Answer(answers, 3 * s + 2), Signalled, false)
  {
    ReachedNext(answers, 3 * s);
    ReachedNext(answers, 3 * s + 1);
    ReachedNext(answers, 3 * s + 2);
  }

  /** A slot with a failing call: the calls after the failure are skipped,
      and every later slot stays empty. */
  lemma FailedSlot(answers: seq<Handle>, s: nat)
    requires s < MAX_FRAMES_IN_FLIGHT && AllAnswered(answers, 0, 3 * s)
    requires Answer(answers, 3 * s) == NULL || Answer(answers, 3 * s + 1) == NULL || Answer(answers, 3 * s + 2) == NULL
    ensures !AllAnswered(answers, 0, 3 * MAX_FRAMES_IN_FLIGHT)
    ensures var a, b := Answer(answers, 3 * s), Answer(answers, 3 * s + 1);
      SlotReached(answers, s)
      == FrameSlot(a, if a == NULL then NULL else b, if a == NULL || b == NULL then NULL else Answer(answers, 3 * s + 2), Signalled, false)
    ensures forall k :: s < k ==> SlotReached(answers, k) == EMPTY_SLOT
  {
    var f := if Answer(answers, 3 * s) == NULL then 3 * s
      else if Answer(answers, 3 * s + 1) == NULL then 3 * s + 1 else 3 * s + 2;
    ReachedNext(answers, 3 * s);
    if f > 3 * s {
      ReachedNext(answers, 3 * s + 1);
      if f > 3 * s + 1 {
        ReachedNext(answers, 3 * s + 2);
      } else {
        ReachedPastFailure(answers, f, 3 * s + 2);
      }
    } else {
      ReachedPastFailure(answers, f, 3 * s + 1);
      ReachedPastFailure(answers, f, 3 * s + 2);
    }
    ReachedPastFailure(answers, f, 3 * MAX_FRAMES_IN_FLIGHT);
    forall k | s < k
      ensures SlotReached(answers, k) == EMPTY_SLOT
    {
      ReachedPastFailure(answers, f, 3 * k);
      ReachedPastFailure(answers, f, 3 * k + 1);
      ReachedPastFailure(answers, f, 3 * k + 2);
    }
  }

  /** The creation events of the synchronisation loop, slot by slot. */
  function CreatedSlots(ss: seq<FrameSlot>): seq<Event> {
    if |ss| == 0 then []
    else
      CreatedOne(Semaphore, ss[0].imageAvailable) + CreatedOne(Semaphore, ss[0].renderFinished)
        + CreatedOne(Fence, ss[0].inFlight) + CreatedSlots(ss[1..])
  }

  lemma {:induction false} CreatedSlotsCounts(ss: seq<FrameSlot>)
    ensures CreatedIn(CreatedSlots(ss)) == SlotsOwned(ss)
    ensures DestroyedIn(CreatedSlots(ss)) == multiset{}
    decreases |ss|
  {
    if |ss| == 0 {
      assert CreatedIn([]) == multiset{} && DestroyedIn([]) == multiset{};
    } else {
      var a := CreatedOne(Semaphore, ss[0].imageAvailable);
      var b := CreatedOne(Semaphore, ss[0].renderFinished);
      var c := CreatedOne(Fence, ss[0].inFlight);
      CreatedOneCounts(Semaphore, ss[0].imageAvailable);
      CreatedOneCounts(Semaphore, ss[0].renderFinished);
      CreatedOneCounts(Fence, ss[0].inFlight);
      CreatedSlotsCounts(ss[1..]);
      LogAppend(a, b);
      LogAppend(a + b, c);
      LogAppend(a + b + c, CreatedSlots(ss[1..]));
    }
  }

  /** `createSyncObjects`, into vectors that are empty whenever it runs. */
  function CreateSyncObjects(ctx: Context, answers: seq<Handle>): (r: Step)
    ensures r.ok <==> AllAnswered(answers, 0, 3 * MAX_FRAMES_IN_FLIGHT)
    ensures |r.ctx.slots| == MAX_FRAMES_IN_FLIGHT
    ensures forall k :: 0 <= k < MAX_FRAMES_IN_FLIGHT ==> r.ctx.slots[k] == SlotReached(answers, k)
    ensures ctx.log <= r.ctx.log
  {
    var f := FillSlots(answers, 0);
    Step(ctx.(slots := f.slots, log := ctx.log + CreatedSlots(f.slots)), f.ok)
  }

  lemma CreateSyncObjectsAccounted(ctx: Context, answers: seq<Handle>)
    requires Accounted(ctx) && ctx.device != NULL && ctx.slots == []
    ensures Accounted(CreateSyncObjects(ctx, answers).ctx)
  {
    var r := CreateSyncObjects(ctx, answers);
    CreatedSlotsCounts(r.ctx.slots);
    OwnedAfterSyncObjects(ctx, r.ctx);
    Acquired(ctx, r.ctx, CreatedSlots(r.ctx.slots), multiset{}, SlotsOwned(r.ctx.slots));
  }

  lemma OwnedAfterSyncObjects(ctx: Context, r: Context)
    requires ctx.slots == []
    requires r == ctx.(slots := r.slots, log := r.log)
    ensures Owned(r) == Owned(ctx) + SlotsOwned(r.slots)
  {
    var a := One(CommandPool, ctx.commandPool) + One(Pipeline, ctx.graphicsPipeline)
      + One(PipelineLayout, ctx.pipelineLayout) + One(Buffer, ctx.vertexBuffer)
      + One(DeviceMemory, ctx.vertexBufferMemory) + Each(Framebuffer, ctx.framebuffers)
      + One(RenderPass, ctx.renderPass) + Each(ImageView, ctx.swapchainImageViews) + One(Swapchain, ctx.swapchain);
    var f := SlotsOwned(r.slots);
    assert DeviceOwned(r) == f + a by {
      SlotsFirst(f, One(CommandPool, ctx.commandPool), One(Pipeline, ctx.graphicsPipeline),
        One(PipelineLayout, ctx.pipelineLayout), One(Buffer, ctx.vertexBuffer),
        One(DeviceMemory, ctx.vertexBufferMemory), Each(Framebuffer, ctx.framebuffers),
        One(RenderPass, ctx.renderPass), Each(ImageView, ctx.swapchainImageViews), One(Swapchain, ctx.swapchain));
    }
    assert DeviceOwned(ctx) == a by {
      assert SlotsOwned(ctx.slots) == multiset{};
      SlotsFirst(multiset{}, One(CommandPool, ctx.commandPool), One(Pipeline, ctx.graphicsPipeline),
        One(PipelineLayout, ctx.pipelineLayout), One(Buffer, ctx.vertexBuffer),
        One(DeviceMemory, ctx.vertexBufferMemory), Each(Framebuffer, ctx.framebuffers),
        One(RenderPass, ctx.renderPass), Each(ImageView, ctx.swapchainImageViews), One(Swapchain, ctx.swapchain));
    }
    assert f + a == a + f;
    HeldLast(a, f, One(Device, ctx.device), InstanceOwned(ctx));
  }

  /** The slots' share, first in a sum of ten, split off from the rest. */
  lemma SlotsFirst(s: multiset<Res>, a: multiset<Res>, b: multiset<Res>, c: multiset<Res>, d: multiset<Res>,
                   e: multiset<Res>, f: multiset<Res>, g: multiset<Res>, h: multiset<Res>, i: multiset<Res>)
    ensures s + a + b + c + d + e + f + g + h + i == s + (a + b + c + d + e + f + g + h + i)
  {
  }

  /** After the last step every frame slot holds a fence, created signalled. */
  lemma SyncObjectsReady(answers: seq<Handle>, slots: seq<FrameSlot>)
    requires AllAnswered(answers, 0, 3 * MAX_FRAMES_IN_FLIGHT)
    requires |slots| == MAX_FRAMES_IN_FLIGHT
    requires forall k :: 0 <= k < MAX_FRAMES_IN_FLIGHT ==> slots[k] == SlotReached(answers, k)
    ensures forall k :: 0 <= k < MAX_FRAMES_IN_FLIGHT ==> slots[k].inFlight != NULL && slots[k].fence == Signalled
  {
    forall k | 0 <= k < MAX_FRAMES_IN_FLIGHT
      ensures slots[k].inFlight != NULL
    {
      assert AllAnswered(answers, 0, 3 * k + 3);
    }
  }

  lemma ChoosePhysicalDeviceKeepsReady(ctx: Context, devices: seq<PhysicalDevice>)
    requires Ready(ctx, 3)
    ensures var r := ChoosePhysicalDevice(ctx, devices);
      Accounted(r.ctx) && (r.ok ==> Ready(r.ctx, 4))
  {
    var r := ChoosePhysicalDevice(ctx, devices);
    assert r.ctx == ctx.(physicalDevice := r.ctx.physicalDevice, graphicsQueueFamily := r.ctx.graphicsQueueFamily,
                         presentQueueFamily := r.ctx.presentQueueFamily);
  }

  lemma CreateCommandBuffersKeepsReady(ctx: Context, succeeded: bool)
    requires Ready(ctx, 12)
    ensures var r := CreateCommandBuffers(ctx, succeeded);
      Accounted(r.ctx) && (r.ok ==> Ready(r.ctx, 13))
  {
    var r := CreateCommandBuffers(ctx, succeeded);
    assert r.ctx == ctx.(commandBuffersAllocated := succeeded);
  }

  lemma CreateSyncObjectsKeepsReady(ctx: Context, answers: seq<Handle>)
    requires Ready(ctx, 13)
    ensures var r := CreateSyncObjects(ctx, answers);
      Accounted(r.ctx) && (r.ok ==> Ready(r.ctx, 14))
  {
    CreateSyncObjectsAccounted(ctx, answers);
  }

  // ---------------------------------------------------------------------------
  // nativeInit and nativeDestroy
  // ---------------------------------------------------------------------------

  /** What the platform and the driver report during `nativeInit`. */
  datatype Platform = Platform(
    width: int,
    height: int,
    validation: bool,
    devices: seq<PhysicalDevice>,
    support: SwapchainSupport,
    images: seq<Handle>,
    memoryTypeBits: bv32,
    memoryTypes: seq<bv32>,
    bindOk: bool,
    mapOk: bool,
    commandBuffersOk: bool)

  /** The handle answered by each create call of `nativeInit`, in call order
      (`NULL` for a failed call). */
  datatype InitAnswers = InitAnswers(
    window: Handle,
    instance: Handle,
    debugMessenger: Handle,
    surface: Handle,
    device: Handle,
    swapchain: Handle,
    imageViews: seq<Handle>,
    renderPass: Handle,
    vertShader: Handle,
    fragShader: Handle,
    pipelineLayout: Handle,
    pipeline: Handle,
    vertexBuffer: Handle,
    vertexMemory: Handle,
    framebuffers: seq<Handle>,
    commandPool: Handle,
    syncObjects: seq<Handle>)

  /** Initialisation succeeds exactly when every required call succeeds. */
  predicate InitSucceeds(p: Platform, a: InitAnswers)
    requires |p.memoryTypes| <= MAX_MEMORY_TYPES
  {
    && a.window != NULL
    && DeviceSucceeds(p, a)
    && SwapchainSucceeds(p, a)
    && PipelineSucceeds(p, a, |p.images|)
    && FramesSucceeds(p, a)
  }

  /** Calls 1-4 succeed: an instance, a surface, a suitable physical device
      and a logical device. */
  predicate DeviceSucceeds(p: Platform, a: InitAnswers) {
    && a.instance != NULL
    && a.surface != NULL
    && (exists j :: 0 <= j < |p.devices| && Suitable(p.devices[j]))
    && a.device != NULL
  }

  /** Calls 5-7 succeed: a swapchain (the surface offers formats and present
      modes), a view for every image, and a render pass. */
  predicate SwapchainSucceeds(p: Platform, a: InitAnswers) {
    && |p.support.formats| > 0 && |p.support.presentModes| > 0 && a.swapchain != NULL
    && AllAnswered(a.imageViews, 0, |p.images|)
    && a.renderPass != NULL
  }

  /** Calls 8-10 succeed for `views` image views: both shader modules, the
      layout and pipeline, the vertex buffer with host-visible memory bound
      and mapped, and a framebuffer per view. */
  predicate PipelineSucceeds(p: Platform, a: InitAnswers, views: nat)
    requires |p.memoryTypes| <= MAX_MEMORY_TYPES
  {
    GraphicsSucceeds(p, a) && AllAnswered(a.framebuffers, 0, views)
  }

  /** Calls 8-9 succeed: both shader modules, the layout and pipeline, and
      the vertex buffer with host-visible memory bound and mapped. */
  predicate GraphicsSucceeds(p: Platform, a: InitAnswers)
    requires |p.memoryTypes| <= MAX_MEMORY_TYPES
  {
    && a.vertShader != NULL && a.fragShader != NULL && a.pipelineLayout != NULL && a.pipeline != NULL
    && a.vertexBuffer != NULL && HostMemoryAvailable(p.memoryTypeBits, p.memoryTypes) && a.vertexMemory != NULL
    && p.bindOk && p.mapOk
  }

  /** Calls 11-13 succeed: a command pool, its command buffers, and every
      semaphore and fence. */
  predicate FramesSucceeds(p: Platform, a: InitAnswers) {
    a.commandPool != NULL && p.commandBuffersOk && AllAnswered(a.syncObjects, 0, 3 * MAX_FRAMES_IN_FLIGHT)
  }

  /** The failure path of `nativeInit`: `cleanup`, then the context is
      deleted. Everything the log created has been destroyed. */
  method Abort(c: Context) returns (r: Context)
    requires Accounted(c)
    ensures !r.initialized && c.log <= r.log
    ensures Owned(r) == multiset{} && CreatedIn(r.log) == DestroyedIn(r.log)
  {
    CleanupReleasesOwned(c);
    r := Cleanup(c);
  }

  /** Calls 1-4 of `nativeInit`: instance (and debug messenger), surface,
      physical device, logical device; stops at the first failure. */
  method InitDevice(ctx: Context, p: Platform, a: InitAnswers) returns (s: Step)
    requires Ready(ctx, 1)
    ensures Accounted(s.ctx)
    ensures s.ok <==> DeviceSucceeds(p, a)
    ensures s.ok ==> Ready(s.ctx, 5)
  {
    s := CreateInstance(ctx, p.validation, a.instance, a.debugMessenger);
    CreateInstanceKeepsReady(ctx, p.validation, a.instance, a.debugMessenger);
    if !s.ok { return; }
    var c := s.ctx;
    s := CreateSurface(c, a.surface);
    CreateSurfaceKeepsReady(c, a.surface);
    if !s.ok { return; }
    c := s.ctx;
    s := ChoosePhysicalDevice(c, p.devices);
    ChoosePhysicalDeviceKeepsReady(c, p.devices);
    if !s.ok { return; }
    c := s.ctx;
    s := CreateLogicalDevice(c, a.device);
    CreateLogicalDeviceKeepsReady(c, a.device);
  }

  /** Calls 5-7 of `nativeInit`: swapchain, image views, render pass. */
  method InitSwapchain(ctx: Context, p: Platform, a: InitAnswers) returns (s: Step)
    requires Ready(ctx, 5)
    ensures Accounted(s.ctx)
    ensures s.ok <==> SwapchainSucceeds(p, a)
    ensures s.ok ==> Ready(s.ctx, 8) && |s.ctx.swapchainImageViews| == |p.images|
  {
    s := CreateSwapchain(ctx, p.support, a.swapchain, p.images);
    CreateSwapchainKeepsReady(ctx, p.support, a.swapchain, p.images);
    if !s.ok { return; }
    var c := s.ctx;
    s := CreateImageViews(c, a.imageViews);
    CreateImageViewsKeepsReady(c, a.imageViews);
    if !s.ok { return; }
    c := s.ctx;
    s := CreateRenderPass(c, a.renderPass);
    CreateRenderPassKeepsReady(c, a.renderPass);
  }

  /** Calls 8-10 of `nativeInit`: graphics pipeline, vertex buffer,
      framebuffers (one per image view). */
  method InitPipeline(ctx: Context, p: Platform, a: InitAnswers) returns (s: Step)
    requires Ready(ctx, 8) && |p.memoryTypes| <= MAX_MEMORY_TYPES
    ensures Accounted(s.ctx)
    ensures s.ok <==> PipelineSucceeds(p, a, |ctx.swapchainImageViews|)
    ensures s.ok ==> Ready(s.ctx, 11)
  {
    s := InitGraphics(ctx, p, a);
    if !s.ok { return; }
    var c := s.ctx;
    s := CreateFramebuffers(c, a.framebuffers);
    CreateFramebuffersKeepsReady(c, a.framebuffers);
  }

  /** Calls 8-9 of `nativeInit`: graphics pipeline and vertex buffer. */
  method InitGraphics(ctx: Context, p: Platform, a: InitAnswers) returns (s: Step)
    requires Ready(ctx, 8) && |p.memoryTypes| <= MAX_MEMORY_TYPES
    ensures Accounted(s.ctx)
    ensures s.ok <==> GraphicsSucceeds(p, a)
    ensures s.ok ==> Ready(s.ctx, 10) && s.ctx.swapchainImageViews == ctx.swapchainImageViews
  {
    s := CreateGraphicsPipeline(ctx, a.vertShader, a.fragShader, a.pipelineLayout, a.pipeline);
    CreateGraphicsPipelineKeepsReady(ctx, a.vertShader, a.fragShader, a.pipelineLayout, a.pipeline);
    if !s.ok { return; }
    var c := s.ctx;
    s := CreateVertexBuffer(c, a.vertexBuffer, p.memoryTypeBits, p.memoryTypes, a.vertexMemory, p.bindOk, p.mapOk);
    CreateVertexBufferKeepsReady(c, a.vertexBuffer, p.memoryTypeBits, p.memoryTypes, a.vertexMemory, p.bindOk, p.mapOk);
    if !s.ok { return; }
    assert s.ctx.swapchainImageViews == ctx.swapchainImageViews;
  }

  /** Calls 11-13 of `nativeInit`: command pool, command buffers, and the
      per-frame semaphores and fences. */
  method InitFrames(ctx: Context, p: Platform, a: InitAnswers) returns (s: Step)
    requires Ready(ctx, 11)
    ensures Accounted(s.ctx)
    ensures s.ok <==> FramesSucceeds(p, a)
    ensures s.ok ==> Ready(s.ctx, 14) && |s.ctx.slots| == MAX_FRAMES_IN_FLIGHT
    ensures s.ok ==> forall k :: 0 <= k < |s.ctx.slots| ==> s.ctx.slots[k].inFlight != NULL && s.ctx.slots[k].fence == Signalled
  {
    s := CreateCommandPool(ctx, a.commandPool);
    CreateCommandPoolKeepsReady(ctx, a.commandPool);
    if !s.ok { return; }
    var c := s.ctx;
    s := CreateCommandBuffers(c, p.commandBuffersOk);
    CreateCommandBuffersKeepsReady(c, p.commandBuffersOk);
    if !s.ok { return; }
    c := s.ctx;
    s := CreateSyncObjects(c, a.syncObjects);
    CreateSyncObjectsKeepsReady(c, a.syncObjects);
    if s.ok {
      SyncObjectsReady(a.syncObjects, s.ctx.slots);
    }
  }

  /** `nativeInit`. On success the returned context is initialised, live and
      at frame slot 0 with every fence signalled. On failure the context has
      been cleaned up and deleted: it holds nothing, and every object created
      along the way has been destroyed. */
  method NativeInit(p: Platform, a: InitAnswers) returns (ctx: Context, ok: bool)
    requires |p.memoryTypes| <= MAX_MEMORY_TYPES
    ensures ok == ctx.initialized
    ensures ok <==> InitSucceeds(p, a)
    ensures ok ==> Live(ctx) && ctx.currentFrame == 0
    ensures ok ==> forall k :: 0 <= k < |ctx.slots| ==> ctx.slots[k].inFlight != NULL && ctx.slots[k].fence == Signalled
    ensures !ok ==> Owned(ctx) == multiset{} && CreatedIn(ctx.log) == DestroyedIn(ctx.log)
  {
    ctx := FRESH_CONTEXT;
    if a.window == NULL {
      assert CreatedIn([]) == multiset{} && DestroyedIn([]) == multiset{};
      return ctx, false;
    }
    ctx := ctx.(nativeWindow := a.window, width := p.width, height := p.height,
                log := CreatedOne(NativeWindow, a.window));
    CreatedOneCounts(NativeWindow, a.window);
    assert Ready(ctx, 1);

    var s := InitDevice(ctx, p, a);
    if !s.ok { ctx := Abort(s.ctx); return ctx, false; }
    s := InitSwapchain(s.ctx, p, a);
    if !s.ok { ctx := Abort(s.ctx); return ctx, false; }
    s := InitPipeline(s.ctx, p, a);
    if !s.ok { ctx := Abort(s.ctx); return ctx, false; }
    s := InitFrames(s.ctx, p, a);
    if !s.ok { ctx := Abort(s.ctx); return ctx, false; }

    ctx := s.ctx.(initialized := true);
    ok := true;
  }

  /** `nativeDestroy`: a null context is ignored; otherwise `cleanup`, after
      which the context is deleted. The final state of the context is
      returned so that what was released can be stated. */
  function NativeDestroy(c: Option<Context>): (r: Option<Context>)
    ensures c.None? <==> r.None?
    ensures c.Some? && Accounted(c.value) ==>
      Owned(r.value) == multiset{} && CreatedIn(r.value.log) == DestroyedIn(r.value.log)
  {
    match c
    case None => None
    case Some(ctx) =>
      if Accounted(ctx) then CleanupReleasesOwned(ctx); Some(Cleanup(ctx))
      else Some(Cleanup(ctx))
  }

  // ---------------------------------------------------------------------------
  // recreateSwapchain
  // ---------------------------------------------------------------------------

  /** `vkDeviceWaitIdle` completes every pending submission: a fence with a
      submission pending is signalled, and any other keeps its state. */
  function DrainFences(ss: seq<FrameSlot>): (r: seq<FrameSlot>)
    ensures |r| == |ss|
    ensures forall k :: 0 <= k < |ss| ==>
      r[k] == (if ss[k].fence == InFlight then ss[k].(fence := Signalled) else ss[k])
  {
    if |ss| == 0 then []
    else
      [if ss[0].fence == InFlight then ss[0].(fence := Signalled) else ss[0]] + DrainFences(ss[1..])
  }

  lemma {:induction false} DrainKeepsHandles(ss: seq<FrameSlot>)
    ensures SlotsOwned(DrainFences(ss)) == SlotsOwned(ss)
    decreases |ss|
  {
    if |ss| > 0 {
      DrainKeepsHandles(ss[1..]);
      assert DrainFences(ss)[1..] == DrainFences(ss[1..]);
    }
  }

  /** What the driver answers during one swapchain rebuild. */
  datatype Rebuild = Rebuild(
    support: SwapchainSupport,
    swapchain: Handle,
    images: seq<Handle>,
    imageViews: seq<Handle>,
    framebuffers: seq<Handle>)

  /** The context after `vkDeviceWaitIdle`. */
  function Idle(ctx: Context): (r: Context)
    ensures r.slots == DrainFences(ctx.slots) && r.log == ctx.log + [DeviceWaitIdle]
  {
    ctx.(slots := DrainFences(ctx.slots), log := ctx.log + [DeviceWaitIdle])
  }

  /** `recreateSwapchain`: wait for the device to go idle, release the
      swapchain group, then rebuild swapchain, views and framebuffers,
      stopping at the first failure. */
  function RecreateSwapchain(ctx: Context, rb: Rebuild): (r: Step)
    ensures r.ctx.device == ctx.device && r.ctx.initialized == ctx.initialized
    ensures r.ctx.currentFrame == ctx.currentFrame && r.ctx.slots == DrainFences(ctx.slots)
    ensures r.ctx.width == ctx.width && r.ctx.height == ctx.height
  {
    var c := CleanupSwapchain(Idle(ctx));
    var s := CreateSwapchain(c, rb.support, rb.swapchain, rb.images);
    if !s.ok then s
    else
      var v := CreateImageViews(s.ctx, rb.imageViews);
      if !v.ok then v
      else CreateFramebuffers(v.ctx, rb.framebuffers)
  }

  /** A rebuild succeeds exactly when every create call of it does, and then
      holds the new swapchain with one view and one framebuffer per image.
      It stops at the first failure: a failed swapchain leaves no views and
      no framebuffers, and a failed view leaves no framebuffers. */
  lemma RecreateOutcome(ctx: Context, rb: Rebuild)
    ensures var r := RecreateSwapchain(ctx, rb);
      && (r.ok <==>
           && |rb.support.formats| > 0 && |rb.support.presentModes| > 0 && rb.swapchain != NULL
           && AllAnswered(rb.imageViews, 0, |rb.images|)
           && AllAnswered(rb.framebuffers, 0, |rb.images|))
      && (r.ok ==> r.ctx.swapchain == rb.swapchain && |r.ctx.swapchainImageViews| == |r.ctx.framebuffers| == |rb.images|)
    ensures var r := RecreateSwapchain(ctx, rb).ctx;
      && (r.swapchain != NULL <==> |rb.support.formats| > 0 && |rb.support.presentModes| > 0 && rb.swapchain != NULL)
      && (r.swapchain == NULL ==> r.swapchainImageViews == [] && r.framebuffers == [])
      && (r.swapchain != NULL ==>
            && r.swapchain == rb.swapchain && r.swapchainImages == rb.images
            && |r.swapchainImageViews| == |rb.images|
            && forall j :: 0 <= j < |rb.images| ==> r.swapchainImageViews[j] == Reached(rb.imageViews, j))
      && (!AllAnswered(rb.imageViews, 0, |rb.images|) ==> r.framebuffers == [])
      && (r.swapchain != NULL && AllAnswered(rb.imageViews, 0, |rb.images|) ==>
            && |r.framebuffers| == |rb.images|
            && forall j :: 0 <= j < |rb.images| ==> r.framebuffers[j] == Reached(rb.framebuffers, j))
  {
    var c := CleanupSwapchain(Idle(ctx));
    var s := CreateSwapchain(c, rb.support, rb.swapchain, rb.images);
    if s.ok {
      var v := CreateImageViews(s.ctx, rb.imageViews);
      var fv := FillHandles(rb.imageViews, |rb.images|, 0);
      assert v.ctx.swapchainImageViews == fv.handles;
      if v.ok {
        var ff := FillHandles(rb.framebuffers, |rb.images|, 0);
        assert CreateFramebuffers(v.ctx, rb.framebuffers).ctx.framebuffers == ff.handles;
      }
    }
  }

  /** The device-idle wait changes no ownership. */
  lemma IdleAccounted(ctx: Context)
    requires Accounted(ctx)
    ensures Accounted(Idle(ctx))
  {
    var r := Idle(ctx);
    DrainKeepsHandles(ctx.slots);
    assert DeviceOwned(r) == DeviceOwned(ctx);
    assert Owned(r) == Owned(ctx);
    SingleEvent(DeviceWaitIdle);
    var none: multiset<Res> := multiset{};
    assert none + none == none && Owned(ctx) + none == Owned(ctx);
    Acquired(ctx, r, [DeviceWaitIdle], none, none);
  }

  /** The objects `recreateSwapchain` destroys and creates again. */
  const SWAPCHAIN_GROUP: set<Kind> := {Swapchain, ImageView, Framebuffer}

  lemma SwapchainRebuilt(c: Context, rb: Rebuild)
    ensures GrowsByCreates(c.log, CreateSwapchain(c, rb.support, rb.swapchain, rb.images).ctx.log, SWAPCHAIN_GROUP)
  {
    var s := CreateSwapchain(c, rb.support, rb.swapchain, rb.images);
    if |rb.support.formats| == 0 || |rb.support.presentModes| == 0 {
      assert s.ctx.log == c.log + [];
      GrowsByAppend(c.log, [], SWAPCHAIN_GROUP);
    } else {
      assert s.ctx.log == c.log + CreatedOne(Swapchain, rb.swapchain);
      GrowsByAppend(c.log, CreatedOne(Swapchain, rb.swapchain), SWAPCHAIN_GROUP);
    }
  }

  lemma ImageViewsRebuilt(c: Context, answers: seq<Handle>)
    requires Accounted(c) && c.device != NULL && c.swapchainImageViews == []
    ensures var v := CreateImageViews(c, answers);
      Accounted(v.ctx) && GrowsByCreates(c.log, v.ctx.log, SWAPCHAIN_GROUP)
  {
    var v := CreateImageViews(c, answers);
    CreateImageViewsAccounted(c, answers);
    CreatedEachOnlyCreates(ImageView, v.ctx.swapchainImageViews, SWAPCHAIN_GROUP);
    GrowsByAppend(c.log, CreatedEach(ImageView, v.ctx.swapchainImageViews), SWAPCHAIN_GROUP);
  }

  lemma FramebuffersRebuilt(c: Context, answers: seq<Handle>)
    requires Accounted(c) && c.device != NULL && c.framebuffers == []
    ensures var f := CreateFramebuffers(c, answers);
      Accounted(f.ctx) && GrowsByCreates(c.log, f.ctx.log, SWAPCHAIN_GROUP)
  {
    var f := CreateFramebuffers(c, answers);
    CreateFramebuffersAccounted(c, answers);
    CreatedEachOnlyCreates(Framebuffer, f.ctx.framebuffers, SWAPCHAIN_GROUP);
    GrowsByAppend(c.log, CreatedEach(Framebuffer, f.ctx.framebuffers), SWAPCHAIN_GROUP);
  }

  /** A rebuild keeps the books balanced and the session live. */
  lemma RecreateAccounted(ctx: Context, rb: Rebuild)
    requires Accounted(ctx) && ctx.device != NULL
    ensures var r := RecreateSwapchain(ctx, rb);
      Accounted(r.ctx) && (Live(ctx) ==> Live(r.ctx))
  {
    var idle := Idle(ctx);
    IdleAccounted(ctx);
    var c := CleanupSwapchain(idle);
    CleanupSwapchainAccounted(idle);
    var s := CreateSwapchain(c, rb.support, rb.swapchain, rb.images);
    CreateSwapchainAccounted(c, rb.support, rb.swapchain, rb.images);
    if s.ok {
      CreateImageViewsAccounted(s.ctx, rb.imageViews);
      var v := CreateImageViews(s.ctx, rb.imageViews);
      if v.ok {
        CreateFramebuffersAccounted(v.ctx, rb.framebuffers);
      }
    }
  }

  /** The log of a rebuild is the device-idle wait, then the destroys of
      `cleanupSwapchain`, then only creates of swapchain-group objects: the
      swapchain, then the views, then the framebuffers it holds, so that
      nothing is created once a create has failed (see `RecreateOutcome`). */
  lemma RecreateLog(ctx: Context, rb: Rebuild)
    requires Accounted(ctx) && ctx.device != NULL
    ensures GrowsByCreates(ctx.log + [DeviceWaitIdle] + SwapchainTeardown(ctx), RecreateSwapchain(ctx, rb).ctx.log, SWAPCHAIN_GROUP)
    ensures var r := RecreateSwapchain(ctx, rb).ctx;
      var start := ctx.log + [DeviceWaitIdle] + SwapchainTeardown(ctx);
      && (r.swapchain == NULL ==> r.log == start)
      && (r.swapchain != NULL ==>
            r.log == start + [Created(Res(Swapchain, r.swapchain))]
              + CreatedEach(ImageView, r.swapchainImageViews) + CreatedEach(Framebuffer, r.framebuffers))
  {
    var idle := Idle(ctx);
    IdleAccounted(ctx);
    var c := CleanupSwapchain(idle);
    CleanupSwapchainAccounted(idle);
    assert SwapchainTeardown(idle) == SwapchainTeardown(ctx);
    var start := ctx.log + [DeviceWaitIdle] + SwapchainTeardown(ctx);
    assert c.log == start;
    var s := CreateSwapchain(c, rb.support, rb.swapchain, rb.images);
    CreateSwapchainAccounted(c, rb.support, rb.swapchain, rb.images);
    SwapchainRebuilt(c, rb);
    if s.ok {
      var v := CreateImageViews(s.ctx, rb.imageViews);
      ImageViewsRebuilt(s.ctx, rb.imageViews);
      GrowsByCreatesTrans(start, s.ctx.log, v.ctx.log, SWAPCHAIN_GROUP);
      if v.ok {
        FramebuffersRebuilt(v.ctx, rb.framebuffers);
        GrowsByCreatesTrans(start, v.ctx.log, CreateFramebuffers(v.ctx, rb.framebuffers).ctx.log, SWAPCHAIN_GROUP);
      }
    }
    RecreateLogShape(ctx, rb);
  }

  /** The creates of a rebuild after its swapchain: the views, then the
      framebuffers when every view was created. */
  lemma RebuildTailLog(s: Context, rb: Rebuild)
    requires s.framebuffers == []
    ensures var v := CreateImageViews(s, rb.imageViews);
      var r := if v.ok then CreateFramebuffers(v.ctx, rb.framebuffers).ctx else v.ctx;
      r.log == s.log + CreatedEach(ImageView, r.swapchainImageViews) + CreatedEach(Framebuffer, r.framebuffers)
  {
    var v := CreateImageViews(s, rb.imageViews);
    if !v.ok {
      assert CreatedEach(Framebuffer, v.ctx.framebuffers) == [];
    }
  }

  lemma RecreateLogShape(ctx: Context, rb: Rebuild)
    ensures var r := RecreateSwapchain(ctx, rb).ctx;
      var start := ctx.log + [DeviceWaitIdle] + SwapchainTeardown(ctx);
      && (r.swapchain == NULL ==> r.log == start)
      && (r.swapchain != NULL ==>
            r.log == start + [Created(Res(Swapchain, r.swapchain))]
              + CreatedEach(ImageView, r.swapchainImageViews) + CreatedEach(Framebuffer, r.framebuffers))
  {
    var c := CleanupSwapchain(Idle(ctx));
    var start := ctx.log + [DeviceWaitIdle] + SwapchainTeardown(ctx);
    assert SwapchainTeardown(Idle(ctx)) == SwapchainTeardown(ctx);
    assert c.log == start;
    var s := CreateSwapchain(c, rb.support, rb.swapchain, rb.images);
    if s.ok {
      assert s.ctx.log == start + [Created(Res(Swapchain, rb.swapchain))];
      RebuildTailLog(s.ctx, rb);
      var v := CreateImageViews(s.ctx, rb.imageViews);
      assert RecreateSwapchain(ctx, rb).ctx == if v.ok then CreateFramebuffers(v.ctx, rb.framebuffers).ctx else v.ctx;
    } else {
      assert s.ctx.log == start + [] || s.ctx.log == start + CreatedOne(Swapchain, rb.swapchain);
    }
  }
}

=== FILE: resources.dfy ===
/** The vocabulary of the renderer's object graph: the kinds of handle it
    owns, the event log of create/destroy calls (and the synchronisation
    calls the frame loop makes), and the order constraints between kinds. */
module Resources {
  import opened VkTypes

  datatype Kind =
    | NativeWindow | Instance | DebugMessenger | Surface | Device
    | Swapchain | ImageView | RenderPass | ShaderModule | PipelineLayout | Pipeline
    | Buffer | DeviceMemory | Framebuffer | CommandPool | Semaphore | Fence

  /** One owned object: its kind and its handle value. */
  datatype Res = Res(kind: Kind, handle: Handle)

  /** The calls the model records, in call order. */
  datatype Event =
    | Created(res: Res)
    | Destroyed(res: Res)
    | DeviceWaitIdle
    | FenceWait(slot: nat)
    | FenceReset(slot: nat)
    | Submitted(slot: nat)
    | Presented(slot: nat)

  // The counts and the order predicates below are each split into two
  // mutually recursive halves, so that a fact about a long log unfolds one
  // event at a time instead of dragging its whole body into every proof.

  /** Every object a log creates, with multiplicity. */
  function CreatedIn(log: seq<Event>): multiset<Res>
    decreases |log|, 1
  {
    if |log| == 0 then multiset{} else CreatedLast(log)
  }

  function CreatedLast(log: seq<Event>): multiset<Res>
    requires |log| > 0
    decreases |log|, 0
  {
    var e := log[|log| - 1];
    CreatedIn(log[..|log| - 1]) + (if e.Created? then multiset{e.res} else multiset{})
  }

  /** Every object a log destroys, with multiplicity. */
  function DestroyedIn(log: seq<Event>): multiset<Res>
    decreases |log|, 1
  {
    if |log| == 0 then multiset{} else DestroyedLast(log)
  }

  function DestroyedLast(log: seq<Event>): multiset<Res>
    requires |log| > 0
    decreases |log|, 0
  {
    var e := log[|log| - 1];
    DestroyedIn(log[..|log| - 1]) + (if e.Destroyed? then multiset{e.res} else multiset{})
  }

  /** Counting distributes over concatenation of logs. */
  lemma {:induction false} LogAppend(a: seq<Event>, b: seq<Event>)
    ensures CreatedIn(a + b) == CreatedIn(a) + CreatedIn(b)
    ensures DestroyedIn(a + b) == DestroyedIn(a) + DestroyedIn(b)
    decreases |b|
  {
    if |b| == 0 {
      assert a + b == a;
    } else {
      var b' := b[..|b| - 1];
      assert (a + b)[..|a + b| - 1] == a + b';
      LogAppend(a, b');
    }
  }

  lemma SingleEvent(e: Event)
    ensures CreatedIn([e]) == (if e.Created? then multiset{e.res} else multiset{})
    ensures DestroyedIn([e]) == (if e.Destroyed? then multiset{e.res} else multiset{})
  {
    assert [e][..0] == [];
    assert CreatedIn([]) == multiset{} && DestroyedIn([]) == multiset{};
  }

  // ---------------------------------------------------------------------------
  // Order constraints
  // ---------------------------------------------------------------------------

  /** `child` was created from (or bound to) `parent` in the renderer's create
      calls, so `parent` must outlive it. Shader modules are left out on
      purpose: Vulkan lets them go as soon as the pipeline exists, and the
      renderer destroys them right after pipeline creation. */
  predicate CreatedFrom(child: Kind, parent: Kind) {
    || (parent == Device && child in {Swapchain, ImageView, RenderPass, ShaderModule, PipelineLayout,
                                      Pipeline, Buffer, DeviceMemory, Framebuffer, CommandPool, Semaphore, Fence})
    || (child == Framebuffer && (parent == ImageView || parent == RenderPass))
    || (child == ImageView && parent == Swapchain)
    || (child == Swapchain && parent == Surface)
    || (child == Pipeline && (parent == PipelineLayout || parent == RenderPass))
    || (child == Buffer && parent == DeviceMemory)
    || (child == Device && parent == Instance)
    || (child == DebugMessenger && parent == Instance)
    || (child == Surface && (parent == Instance || parent == NativeWindow))
  }

  /** The place of each kind in the teardown of `cleanup` (lower goes first);
      a frame slot's semaphores and fence share a place. */
  function TeardownRank(k: Kind): nat {
    match k
    case Semaphore => 0
    case Fence => 0
    case ShaderModule => 0
    case CommandPool => 1
    case Pipeline => 2
    case PipelineLayout => 3
    case Buffer => 4
    case DeviceMemory => 5
    case Framebuffer => 6
    case RenderPass => 7
    case ImageView => 8
    case Swapchain => 9
    case Device => 10
    case Surface => 11
    case DebugMessenger => 12
    case Instance => 13
    case NativeWindow => 14
  }

  /** The ranks as plain facts, for proofs that compare several of them. */
  lemma TeardownRanks()
    ensures TeardownRank(CommandPool) == 1 && TeardownRank(Pipeline) == 2 && TeardownRank(PipelineLayout) == 3
    ensures TeardownRank(Buffer) == 4 && TeardownRank(DeviceMemory) == 5 && TeardownRank(Framebuffer) == 6
    ensures TeardownRank(RenderPass) == 7 && TeardownRank(ImageView) == 8 && TeardownRank(Swapchain) == 9
    ensures TeardownRank(Device) == 10 && TeardownRank(Surface) == 11 && TeardownRank(DebugMessenger) == 12
    ensures TeardownRank(Instance) == 13 && TeardownRank(NativeWindow) == 14
  {
  }

  /** The teardown order puts every child before everything it was created from. */
  lemma TeardownRankRespectsCreatedFrom(child: Kind, parent: Kind)
    requires CreatedFrom(child, parent)
    ensures TeardownRank(child) < TeardownRank(parent)
  {
  }

  /** The destroy events of `log` come in non-decreasing teardown rank, none
      of them below `lo`. */
  predicate SortedFrom(log: seq<Event>, lo: nat)
    decreases |log|, 1
  {
    |log| == 0 || SortedHead(log, lo)
  }

  predicate SortedHead(log: seq<Event>, lo: nat)
    requires |log| > 0
    decreases |log|, 0
  {
    if log[0].Destroyed? then
      lo <= TeardownRank(log[0].res.kind) && SortedFrom(log[1..], TeardownRank(log[0].res.kind))
    else SortedFrom(log[1..], lo)
  }

  /** No destroy event of `log` has a teardown rank above `hi`. */
  predicate RanksAtMost(log: seq<Event>, hi: nat)
    decreases |log|, 1
  {
    |log| == 0 || RanksHead(log, hi)
  }

  predicate RanksHead(log: seq<Event>, hi: nat)
    requires |log| > 0
    decreases |log|, 0
  {
    (log[0].Destroyed? ==> TeardownRank(log[0].res.kind) <= hi) && RanksAtMost(log[1..], hi)
  }

  lemma {:induction false} SortedWeaken(log: seq<Event>, lo: nat, lo': nat)
    requires lo' <= lo && SortedFrom(log, lo)
    ensures SortedFrom(log, lo')
  {
    if |log| > 0 && !log[0].Destroyed? {
      SortedWeaken(log[1..], lo, lo');
    }
  }

  lemma {:induction false} RanksAtMostWeaken(log: seq<Event>, hi: nat, hi': nat)
    requires hi <= hi' && RanksAtMost(log, hi)
    ensures RanksAtMost(log, hi')
  {
    if |log| > 0 {
      RanksAtMostWeaken(log[1..], hi, hi');
    }
  }

  lemma {:induction false} SortedConcat(a: seq<Event>, b: seq<Event>, lo: nat, mid: nat)
    requires lo <= mid
    requires SortedFrom(a, lo) && RanksAtMost(a, mid) && SortedFrom(b, mid)
    ensures SortedFrom(a + b, lo)
  {
    if |a| == 0 {
      assert a + b == b;
      SortedWeaken(b, mid, lo);
    } else {
      assert (a + b)[0] == a[0];
      assert (a + b)[1..] == a[1..] + b;
      var lo' := if a[0].Destroyed? then TeardownRank(a[0].res.kind) else lo;
      SortedConcat(a[1..], b, lo', mid);
    }
  }

  lemma {:induction false} RanksAtMostConcat(a: seq<Event>, b: seq<Event>, hi: nat)
    requires RanksAtMost(a, hi) && RanksAtMost(b, hi)
    ensures RanksAtMost(a + b, hi)
  {
    if |a| == 0 {
      assert a + b == b;
    } else {
      assert (a + b)[0] == a[0];
      assert (a + b)[1..] == a[1..] + b;
      RanksAtMostConcat(a[1..], b, hi);
    }
  }

  /** A sorted run, read pairwise: a later destroy never has a lower rank. */
  lemma {:induction false} SortedPairwise(log: seq<Event>, lo: nat)
    requires SortedFrom(log, lo)
    ensures forall j :: 0 <= j < |log| && log[j].Destroyed? ==> lo <= TeardownRank(log[j].res.kind)
    ensures forall i, j :: 0 <= i < j < |log| && log[i].Destroyed? && log[j].Destroyed? ==>
      TeardownRank(log[i].res.kind) <= TeardownRank(log[j].res.kind)
  {
    if |log| > 0 {
      var lo' := if log[0].Destroyed? then TeardownRank(log[0].res.kind) else lo;
      SortedPairwise(log[1..], lo');
      forall j | 0 < j < |log|
        ensures log[j] == log[1..][j - 1]
      {
      }
    }
  }

  /** A destroy run in non-decreasing teardown rank never destroys an object
      after an object it was created from. */
  lemma SortedRespectsCreatedFrom(log: seq<Event>, lo: nat)
    requires SortedFrom(log, lo)
    ensures forall i, j :: 0 <= i < j < |log| && log[i].Destroyed? && log[j].Destroyed? ==>
      !CreatedFrom(log[j].res.kind, log[i].res.kind)
  {
    SortedPairwise(log, lo);
    forall i, j | 0 <= i < j < |log| && log[i].Destroyed? && log[j].Destroyed?
      ensures !CreatedFrom(log[j].res.kind, log[i].res.kind)
    {
      if CreatedFrom(log[j].res.kind, log[i].res.kind) {
        TeardownRankRespectsCreatedFrom(log[j].res.kind, log[i].res.kind);
        assert false;
      }
    }
  }
}

=== FILE: shader_header.dfy ===
/** `spv_to_c_array`: the SPIR-V bytes of a shader rendered as a C array
    declaration, twelve bytes per line, and a parser for that text that
    gives the bytes back. */
module ShaderHeader {
  import opened VkTypes

  newtype byte = x: int | 0 <= x < 256

  const BYTES_PER_LINE: nat := 12

  // ---------------------------------------------------------------------------
  // Hexadecimal bytes
  // ---------------------------------------------------------------------------

  /** A lower-case hexadecimal digit. */
  function HexDigit(n: nat): (c: char)
    requires n < 16
  {
    if n < 10 then ('0' as int + n) as char else ('a' as int + n - 10) as char
  }

  predicate IsHexDigit(c: char) {
    ('0' <= c <= '9') || ('a' <= c <= 'f')
  }

  function HexValue(c: char): (n: nat)
    requires IsHexDigit(c)
    ensures n < 16
  {
    if '0' <= c <= '9' then c as int - '0' as int else c as int - 'a' as int + 10
  }

  lemma HexDigitRoundTrip(n: nat)
    requires n < 16
    ensures IsHexDigit(HexDigit(n)) && HexValue(HexDigit(n)) == n
  {
  }

  /** `f"0x{b:02x}"`: `0x` and exactly two lower-case hex digits. */
  function HexByte(b: byte): (s: string)
    ensures |s| == 4 && s[0] == '0' && s[1] == 'x' && IsHexDigit(s[2]) && IsHexDigit(s[3])
  {
    HexDigitRoundTrip(b as nat / 16);
    HexDigitRoundTrip(b as nat % 16);
    ['0', 'x', HexDigit(b as nat / 16), HexDigit(b as nat % 16)]
  }

  function ParseHexByte(s: string): Option<byte> {
    if |s| == 4 && s[0] == '0' && s[1] == 'x' && IsHexDigit(s[2]) && IsHexDigit(s[3])
    then Some((16 * HexValue(s[2]) + HexValue(s[3])) as byte)
    else None
  }

  lemma HexByteRoundTrip(b: byte)
    ensures ParseHexByte(HexByte(b)) == Some(b)
  {
    HexDigitRoundTrip(b as nat / 16);
    HexDigitRoundTrip(b as nat % 16);
  }

  // ---------------------------------------------------------------------------
  // Byte lines
  // ---------------------------------------------------------------------------

  /** `", ".join(...)` of the hex renderings of a non-empty chunk. */
  function JoinHex(chunk: seq<byte>): (s: string)
    requires |chunk| > 0
    ensures |s| == 6 * |chunk| - 2
    decreases |chunk|
  {
    if |chunk| == 1 then HexByte(chunk[0]) else HexByte(chunk[0]) + ", " + JoinHex(chunk[1..])
  }

  /** One byte line: two spaces of indent, the bytes, and a comma when
      `more` bytes follow. */
  function ByteLine(chunk: seq<byte>, more: bool): string
    requires |chunk| > 0
  {
    "  " + JoinHex(chunk) + (if more then "," else "")
  }

  /** The byte lines for `data`: a chunk of at most twelve bytes per line,
      indented by two spaces, with a trailing comma exactly when more bytes
      follow. */
  function ByteLines(data: seq<byte>): (ls: seq<string>)
    ensures |ls| == 0 <==> |data| == 0
    ensures |ls| > 0 ==> BYTES_PER_LINE * (|ls| - 1) < |data| <= BYTES_PER_LINE * |ls|
    decreases |data|
  {
    if |data| == 0 then []
    else
      var k := if |data| < BYTES_PER_LINE then |data| else BYTES_PER_LINE;
      [ByteLine(data[..k], BYTES_PER_LINE < |data|)] + ByteLines(data[k..])
  }

  /** Line `j` holds bytes `12j` up to `12j + 12` (fewer on the last line)
      and ends in a comma exactly when it is not the last line. */
  lemma {:induction false} ByteLinesShape(data: seq<byte>, j: nat)
    requires j < |ByteLines(data)|
    ensures var lo := BYTES_PER_LINE * j;
      var hi := if lo + BYTES_PER_LINE < |data| then lo + BYTES_PER_LINE else |data|;
      && lo < hi
      && ByteLines(data)[j] == ByteLine(data[lo..hi], j + 1 < |ByteLines(data)|)
    decreases |data|
  {
    var lo := BYTES_PER_LINE * j;
    var hi := if lo + BYTES_PER_LINE < |data| then lo + BYTES_PER_LINE else |data|;
    if j == 0 {
      ByteLinesHead(data);
    } else {
      var rest := data[BYTES_PER_LINE..];
      ByteLinesTail(data, j);
      ByteLinesShape(rest, j - 1);
      var lo' := BYTES_PER_LINE * (j - 1);
      var hi' := if lo' + BYTES_PER_LINE < |rest| then lo' + BYTES_PER_LINE else |rest|;
      SliceOfSuffix(data, BYTES_PER_LINE, lo', hi', lo, hi);
      assert data[lo..hi] == rest[lo'..hi'];
      assert (j + 1 < |ByteLines(data)|) == (j - 1 + 1 < |ByteLines(rest)|);
    }
  }

  /** The first line holds the first (up to) twelve bytes, with a comma
      exactly when more follow. */
  lemma ByteLinesHead(data: seq<byte>)
    requires 0 < |data|
    ensures var hi := if BYTES_PER_LINE < |data| then BYTES_PER_LINE else |data|;
      && ByteLines(data)[0] == ByteLine(data[..hi], BYTES_PER_LINE < |data|)
      && (1 < |ByteLines(data)| <==> BYTES_PER_LINE < |data|)
  {
    var k := if |data| < BYTES_PER_LINE then |data| else BYTES_PER_LINE;
    assert |ByteLines(data)| == 1 + |ByteLines(data[k..])|;
    assert |ByteLines(data[k..])| == 0 <==> |data| <= BYTES_PER_LINE;
  }

  /** Every line after the first is a line of the bytes past the first twelve. */
  lemma ByteLinesTail(data: seq<byte>, j: nat)
    requires 0 < j < |ByteLines(data)|
    ensures BYTES_PER_LINE < |data|
    ensures |ByteLines(data)| == 1 + |ByteLines(data[BYTES_PER_LINE..])|
    ensures ByteLines(data)[j] == ByteLines(data[BYTES_PER_LINE..])[j - 1]
  {
  }

  lemma SliceOfSuffix<T>(s: seq<T>, k: nat, lo': nat, hi': nat, lo: nat, hi: nat)
    requires lo == k + lo' && hi == k + hi' && lo' <= hi' && hi <= |s|
    ensures s[k..][lo'..hi'] == s[lo..hi]
  {
  }

  /** The tokens of a byte line after its indent: hex bytes separated by
      `", "`, optionally ending in a comma. */
  function ParseTokens(s: string): Option<seq<byte>>
    decreases |s|
  {
    if |s| < 4 then None
    else
      var b := ParseHexByte(s[..4]);
      var rest := s[4..];
      if b.None? then None
      else if rest == [] || rest == "," then Some([b.value])
      else if |rest| >= 2 && rest[..2] == ", " then
        var tail := ParseTokens(rest[2..]);
        if tail.None? then None else Some([b.value] + tail.value)
      else None
  }

  function ParseByteLine(line: string): Option<seq<byte>> {
    if |line| >= 2 && line[..2] == "  " then ParseTokens(line[2..]) else None
  }

  lemma {:induction false} TokensRoundTrip(chunk: seq<byte>, comma: string)
    requires |chunk| > 0 && (comma == "" || comma == ",")
    ensures ParseTokens(JoinHex(chunk) + comma) == Some(chunk)
    decreases |chunk|
  {
    var s := JoinHex(chunk) + comma;
    TokensHead(chunk, comma);
    if |chunk| == 1 {
      assert s[4..] == comma;
      assert [chunk[0]] == chunk;
    } else {
      var t := JoinHex(chunk[1..]) + comma;
      TokensRoundTrip(chunk[1..], comma);
      assert s[4..][2..] == t;
      assert ParseTokens(s[4..][2..]) == Some(chunk[1..]);
      assert [chunk[0]] + chunk[1..] == chunk;
    }
  }

  /** The first token of a joined chunk parses back to its first byte. */
  lemma TokensHead(chunk: seq<byte>, comma: string)
    requires |chunk| > 0
    ensures ParseHexByte((JoinHex(chunk) + comma)[..4]) == Some(chunk[0])
    ensures |chunk| == 1 ==> (JoinHex(chunk) + comma)[4..] == comma
    ensures |chunk| > 1 ==> TokensFollow((JoinHex(chunk) + comma)[4..], JoinHex(chunk[1..]) + comma)
  {
    var h := HexByte(chunk[0]);
    HexByteRoundTrip(chunk[0]);
    if |chunk| == 1 {
      assert JoinHex(chunk) == h;
      SplitAt(h, comma);
    } else {
      var j := JoinHex(chunk[1..]);
      assert JoinHex(chunk) == h + ", " + j;
      Regroup(h, ", ", j, comma);
      SplitAt(h, ", " + (j + comma));
      SplitAt(", ", j + comma);
    }
  }

  lemma Regroup<T>(a: seq<T>, b: seq<T>, c: seq<T>, d: seq<T>)
    ensures a + b + c + d == a + (b + (c + d))
  {
  }

  /** Cutting a concatenation where its first part ends. */
  lemma SplitAt<T>(a: seq<T>, b: seq<T>)
    ensures (a + b)[..|a|] == a && (a + b)[|a|..] == b
  {
  }

  /** `rest` is a separator `", "` followed by `t`. */
  predicate TokensFollow(rest: string, t: string) {
    |rest| >= 2 && rest[..2] == ", " && rest[2..] == t
  }

  /** Parse byte lines in order and concatenate their bytes. */
  function ParseByteLines(ls: seq<string>): Option<seq<byte>>
    decreases |ls|
  {
    if |ls| == 0 then Some([])
    else
      var head := ParseByteLine(ls[0]);
      var rest := ParseByteLines(ls[1..]);
      if head.None? || rest.None? then None else Some(head.value + rest.value)
  }

  lemma {:induction false} ByteLinesRoundTrip(data: seq<byte>)
    ensures ParseByteLines(ByteLines(data)) == Some(data)
    decreases |data|
  {
    if |data| > 0 {
      var k := if |data| < BYTES_PER_LINE then |data| else BYTES_PER_LINE;
      var comma := if BYTES_PER_LINE < |data| then "," else "";
      var line := ByteLine(data[..k], BYTES_PER_LINE < |data|);
      TokensRoundTrip(data[..k], comma);
      assert line[..2] == "  " && line[2..] == JoinHex(data[..k]) + comma;
      ByteLinesRoundTrip(data[k..]);
      assert ByteLines(data)[1..] == ByteLines(data[k..]);
      assert data[..k] + data[k..] == data;
    }
  }

  // ---------------------------------------------------------------------------
  // Decimal length
  // ---------------------------------------------------------------------------

  function DecimalDigit(n: nat): char
    requires n < 10
  {
    ('0' as int + n) as char
  }

  /** `str(n)`: decimal, no leading zeros. */
  function Decimal(n: nat): (s: string)
    ensures |s| > 0 && forall i :: 0 <= i < |s| ==> '0' <= s[i] <= '9'
  {
    if n < 10 then [DecimalDigit(n)] else Decimal(n / 10) + [DecimalDigit(n % 10)]
  }

  function ParseDecimal(s: string): Option<nat>
    decreases |s|
  {
    if |s| == 0 || !('0' <= s[|s| - 1] <= '9') then None
    else
      var d := s[|s| - 1] as int - '0' as int;
      if |s| == 1 then Some(d)
      else
        var high := ParseDecimal(s[..|s| - 1]);
        if high.None? then None else Some(10 * high.value + d)
  }

  lemma {:induction false} DecimalRoundTrip(n: nat)
    ensures ParseDecimal(Decimal(n)) == Some(n)
  {
    if n >= 10 {
      DecimalRoundTrip(n / 10);
      var s := Decimal(n);
      assert s[..|s| - 1] == Decimal(n / 10);
    }
  }

  // ---------------------------------------------------------------------------
  // Lines of text
  // ---------------------------------------------------------------------------

  /** `"\n".join(lines)`. */
  function JoinLines(lines: seq<string>): string
    requires |lines| > 0
    decreases |lines|
  {
    if |lines| == 1 then lines[0] else lines[0] + "\n" + JoinLines(lines[1..])
  }

  /** The lines of `s`, split at every newline. */
  function SplitLines(s: string): (ls: seq<string>)
    ensures |ls| > 0
    decreases |s|
  {
    if |s| == 0 then [""]
    else
      var rest := SplitLines(s[1..]);
      if s[0] == '\n' then [""] + rest else [[s[0]] + rest[0]] + rest[1..]
  }

  predicate NoNewline(s: string) {
    forall i :: 0 <= i < |s| ==> s[i] != '\n'
  }

  lemma {:induction false} SplitAfterLine(a: string, t: string)
    requires NoNewline(a)
    ensures SplitLines(a + t) == [a + SplitLines(t)[0]] + SplitLines(t)[1..]
    decreases |a|
  {
    if |a| > 0 {
      assert (a + t)[1..] == a[1..] + t;
      SplitAfterLine(a[1..], t);
      assert [a[0]] + (a[1..] + SplitLines(t)[0]) == a + SplitLines(t)[0];
    } else {
      assert a + t == t;
      var ls := SplitLines(t);
      assert a == [];
      assert a + ls[0] == ls[0];
      assert [ls[0]] + ls[1..] == ls;
    }
  }

  lemma {:induction false} SplitJoin(lines: seq<string>)
    requires |lines| > 0 && forall k :: 0 <= k < |lines| ==> NoNewline(lines[k])
    ensures SplitLines(JoinLines(lines)) == lines
    decreases |lines|
  {
    if |lines| == 1 {
      SplitSingle(lines[0]);
    } else {
      SplitJoin(lines[1..]);
      SplitCons(lines[0], JoinLines(lines[1..]));
      assert [lines[0]] + lines[1..] == lines;
    }
  }

  /** A line without a newline splits to itself. */
  lemma SplitSingle(a: string)
    requires NoNewline(a)
    ensures SplitLines(a) == [a]
  {
    SplitAfterLine(a, "");
    assert a + "" == a;
    assert SplitLines("") == [""];
  }

  /** A line without a newline, a newline, then the rest. */
  lemma SplitCons(a: string, t: string)
    requires NoNewline(a)
    ensures SplitLines(a + "\n" + t) == [a] + SplitLines(t)
  {
    assert a + "\n" + t == a + ("\n" + t);
    SplitAfterLine(a, "\n" + t);
    assert ("\n" + t)[1..] == t;
    assert SplitLines("\n" + t) == [""] + SplitLines(t);
    assert a + "" == a;
  }

  // ---------------------------------------------------------------------------
  // The declaration
  // ---------------------------------------------------------------------------

  const HEAD_PREFIX: string := "alignas(4) unsigned char "
  const HEAD_SUFFIX: string := "[] = {"
  const CLOSE: string := "};"

  function HeadLine(name: string): string {
    HEAD_PREFIX + name + HEAD_SUFFIX
  }

  function LenPrefix(name: string): string {
    "unsigned int " + name + "_len = "
  }

  function LenLine(name: string, n: nat): string {
    LenPrefix(name) + Decimal(n) + ";"
  }

  /** The lines `spv_to_c_array` joins. */
  function DeclarationLines(data: seq<byte>, name: string): (ls: seq<string>)
    ensures |ls| == |ByteLines(data)| + 3
    ensures ls[0] == HeadLine(name) && ls[1..|ls| - 2] == ByteLines(data)
    ensures ls[|ls| - 2] == CLOSE && ls[|ls| - 1] == LenLine(name, |data|)
  {
    [HeadLine(name)] + ByteLines(data) + [CLOSE, LenLine(name, |data|)]
  }

  /** `spv_to_c_array(path, name)` on the bytes the file holds. */
  function SpvToCArray(data: seq<byte>, name: string): string {
    JoinLines(DeclarationLines(data, name))
  }

  /** What a declaration says: the array name, its bytes and its `_len` value. */
  datatype Declaration = Declaration(name: string, bytes: seq<byte>, len: nat)

  function ParseHead(line: string): Option<string> {
    if |line| >= |HEAD_PREFIX| + |HEAD_SUFFIX|
       && line[..|HEAD_PREFIX|] == HEAD_PREFIX && line[|line| - |HEAD_SUFFIX|..] == HEAD_SUFFIX
    then Some(line[|HEAD_PREFIX|..|line| - |HEAD_SUFFIX|])
    else None
  }

  function ParseLen(line: string, name: string): Option<nat> {
    var p := LenPrefix(name);
    if |line| > |p| && line[..|p|] == p && line[|line| - 1] == ';'
    then ParseDecimal(line[|p|..|line| - 1])
    else None
  }

  /** Read a declaration back: header line, byte lines, `};`, length line. */
  function ParseDeclaration(text: string): Option<Declaration> {
    var ls := SplitLines(text);
    if |ls| < 3 || ls[|ls| - 2] != CLOSE then None
    else
      var name := ParseHead(ls[0]);
      var bytes := ParseByteLines(ls[1..|ls| - 2]);
      if name.None? || bytes.None? then None
      else
        var len := ParseLen(ls[|ls| - 1], name.value);
        if len.None? then None else Some(Declaration(name.value, bytes.value, len.value))
  }

  lemma JoinHexNoNewline(chunk: seq<byte>)
    requires |chunk| > 0
    ensures NoNewline(JoinHex(chunk))
    decreases |chunk|
  {
    if |chunk| > 1 {
      JoinHexNoNewline(chunk[1..]);
    }
  }

  lemma ByteLinesNoNewline(data: seq<byte>)
    ensures forall j :: 0 <= j < |ByteLines(data)| ==> NoNewline(ByteLines(data)[j])
  {
    forall j | 0 <= j < |ByteLines(data)|
      ensures NoNewline(ByteLines(data)[j])
    {
      ByteLinesShape(data, j);
      var lo := BYTES_PER_LINE * j;
      var hi := if lo + BYTES_PER_LINE < |data| then lo + BYTES_PER_LINE else |data|;
      JoinHexNoNewline(data[lo..hi]);
    }
  }

  lemma HeadRoundTrip(name: string)
    ensures ParseHead(HeadLine(name)) == Some(name)
  {
    var line := HeadLine(name);
    assert line[..|HEAD_PREFIX|] == HEAD_PREFIX;
    assert line[|line| - |HEAD_SUFFIX|..] == HEAD_SUFFIX;
    assert line[|HEAD_PREFIX|..|line| - |HEAD_SUFFIX|] == name;
  }

  lemma LenRoundTrip(name: string, n: nat)
    ensures ParseLen(LenLine(name, n), name) == Some(n)
  {
    var line := LenLine(name, n);
    var p := LenPrefix(name);
    assert line[..|p|] == p;
    assert line[|p|..|line| - 1] == Decimal(n);
    DecimalRoundTrip(n);
  }

  /** Reading the declaration back gives the array name, exactly the input
      bytes in order, and a `_len` value equal to their count. */
  lemma {:induction false} SpvToCArrayRoundTrip(data: seq<byte>, name: string)
    requires NoNewline(name)
    ensures ParseDeclaration(SpvToCArray(data, name)) == Some(Declaration(name, data, |data|))
  {
    var ls := DeclarationLines(data, name);
    DeclarationLinesNoNewline(data, name);
    SplitJoin(ls);
    assert SplitLines(SpvToCArray(data, name)) == ls;
    HeadRoundTrip(name);
    assert ParseHead(ls[0]) == Some(name);
    ByteLinesRoundTrip(data);
    assert ParseByteLines(ls[1..|ls| - 2]) == Some(data);
    LenRoundTrip(name, |data|);
    assert ParseLen(ls[|ls| - 1], name) == Some(|data|);
  }

  lemma DeclarationLinesNoNewline(data: seq<byte>, name: string)
    requires NoNewline(name)
    ensures forall k :: 0 <= k < |DeclarationLines(data, name)| ==> NoNewline(DeclarationLines(data, name)[k])
  {
    var ls := DeclarationLines(data, name);
    ByteLinesNoNewline(data);
    HeadLineNoNewline(name);
    LenLineNoNewline(name, |data|);
    assert NoNewline(CLOSE);
    forall k | 0 <= k < |ls|
      ensures NoNewline(ls[k])
    {
      if 0 < k < |ls| - 2 {
        assert ls[k] == ByteLines(data)[k - 1];
      }
    }
  }

  lemma NoNewlineConcat(a: string, b: string)
    requires NoNewline(a) && NoNewline(b)
    ensures NoNewline(a + b)
  {
    forall i | |a| <= i < |a + b|
      ensures (a + b)[i] != '\n'
    {
      assert (a + b)[i] == b[i - |a|];
    }
  }

  lemma HeadLineNoNewline(name: string)
    requires NoNewline(name)
    ensures NoNewline(HeadLine(name))
  {
    assert NoNewline(HEAD_PREFIX) && NoNewline(HEAD_SUFFIX);
    NoNewlineConcat(HEAD_PREFIX, name);
    NoNewlineConcat(HEAD_PREFIX + name, HEAD_SUFFIX);
  }

  lemma LenLineNoNewline(name: string, n: nat)
    requires NoNewline(name)
    ensures NoNewline(LenLine(name, n))
  {
    var pre, post := "unsigned int ", "_len = ";
    assert NoNewline(pre) && NoNewline(post) && NoNewline(";") && NoNewline(Decimal(n));
    NoNewlineConcat(pre, name);
    NoNewlineConcat(pre + name, post);
    NoNewlineConcat(LenPrefix(name), Decimal(n));
    NoNewlineConcat(LenPrefix(name) + Decimal(n), ";");
  }
}

=== FILE: surface_select.dfy ===
/** The swapchain configuration selectors of the renderer: ranked-preference
    choices over what the surface reports (formats, present modes, composite
    alpha), the extent clamp and the image-count clamp, following the
    surface-query rules of the Vulkan 1.1 specification, chapter "Window
    System Integration (WSI)". */
module SurfaceSelect {
  import opened VkTypes

  /** `VkFormat`, `VkColorSpaceKHR` and `VkPresentModeKHR` are open C enums. */
  type Format = int
  type ColorSpace = int
  type PresentMode = int

  const FORMAT_UNDEFINED: Format := 0
  const FORMAT_B8G8R8A8_UNORM: Format := 44
  const COLOR_SPACE_SRGB_NONLINEAR: ColorSpace := 0

  const PRESENT_MODE_IMMEDIATE: PresentMode := 0
  const PRESENT_MODE_MAILBOX: PresentMode := 1
  const PRESENT_MODE_FIFO: PresentMode := 2
  const PRESENT_MODE_FIFO_RELAXED: PresentMode := 3

  /** `VkCompositeAlphaFlagBitsKHR`. */
  const COMPOSITE_ALPHA_OPAQUE: bv32 := 0x1
  const COMPOSITE_ALPHA_PRE_MULTIPLIED: bv32 := 0x2
  const COMPOSITE_ALPHA_POST_MULTIPLIED: bv32 := 0x4
  const COMPOSITE_ALPHA_INHERIT: bv32 := 0x8

  datatype SurfaceFormat = SurfaceFormat(format: Format, colorSpace: ColorSpace)

  datatype Extent = Extent(width: u32, height: u32)

  /** `VkSurfaceCapabilitiesKHR`, restricted to the members the renderer reads. */
  datatype Capabilities = Capabilities(
    minImageCount: u32,
    maxImageCount: u32,
    currentExtent: Extent,
    minImageExtent: Extent,
    maxImageExtent: Extent,
    currentTransform: bv32,
    supportedCompositeAlpha: bv32)

  /** What `querySwapchainSupport` gathers about a surface. */
  datatype SwapchainSupport = SwapchainSupport(
    capabilities: Capabilities,
    formats: seq<SurfaceFormat>,
    presentModes: seq<PresentMode>)

  /** The one format the renderer looks for: 8-bit BGRA in the sRGB colour space. */
  const PREFERRED_FORMAT: SurfaceFormat := SurfaceFormat(FORMAT_B8G8R8A8_UNORM, COLOR_SPACE_SRGB_NONLINEAR)

  // ---------------------------------------------------------------------------
  // Surface format
  // ---------------------------------------------------------------------------

  /** The loop of `chooseSwapSurfaceFormat` from position `i` on: the first
      entry matching both format and colour space, if any. */
  function ScanFormats(formats: seq<SurfaceFormat>, i: nat): (r: Option<SurfaceFormat>)
    requires i <= |formats|
    decreases |formats| - i
    ensures r.Some? <==> PREFERRED_FORMAT in formats[i..]
    ensures r.Some? ==> r.value == PREFERRED_FORMAT
  {
    if i == |formats| then None
    else if formats[i].format == FORMAT_B8G8R8A8_UNORM && formats[i].colorSpace == COLOR_SPACE_SRGB_NONLINEAR then
      Some(formats[i])
    else
      assert formats[i..] == [formats[i]] + formats[i + 1..];
      ScanFormats(formats, i + 1)
  }

  /** `chooseSwapSurfaceFormat`: the preferred format when the surface lists
      it, else the first listed format. The caller has checked that the list
      is not empty (the function indexes `formats[0]`). */
  function ChooseSwapSurfaceFormat(formats: seq<SurfaceFormat>): (r: SurfaceFormat)
    requires |formats| > 0
    ensures r in formats
    ensures PREFERRED_FORMAT in formats ==> r == PREFERRED_FORMAT
    ensures PREFERRED_FORMAT !in formats ==> r == formats[0]
  {
    assert formats[0..] == formats;
    match ScanFormats(formats, 0)
    case Some(f) => f
    case None => formats[0]
  }

  // ---------------------------------------------------------------------------
  // Present mode
  // ---------------------------------------------------------------------------

  /** The loop of `chooseSwapPresentMode` from position `i` on. */
  function ScanPresentModes(modes: seq<PresentMode>, i: nat): (r: PresentMode)
    requires i <= |modes|
    decreases |modes| - i
    ensures r == PRESENT_MODE_MAILBOX <==> PRESENT_MODE_MAILBOX in modes[i..]
    ensures r == PRESENT_MODE_MAILBOX || r == PRESENT_MODE_FIFO
  {
    if i == |modes| then PRESENT_MODE_FIFO
    else if modes[i] == PRESENT_MODE_MAILBOX then modes[i]
    else
      assert modes[i..] == [modes[i]] + modes[i + 1..];
      ScanPresentModes(modes, i + 1)
  }

  /** `chooseSwapPresentMode`: MAILBOX exactly when the surface lists it,
      otherwise FIFO, whether or not FIFO is listed. */
  function ChooseSwapPresentMode(modes: seq<PresentMode>): (r: PresentMode)
    ensures r == PRESENT_MODE_MAILBOX <==> PRESENT_MODE_MAILBOX in modes
    ensures r != PRESENT_MODE_MAILBOX ==> r == PRESENT_MODE_FIFO
  {
    assert modes[0..] == modes;
    ScanPresentModes(modes, 0)
  }

  /** Section "Surface Presentation Mode Support" of the WSI chapter requires
      every surface to support FIFO, so on a conforming surface the chosen
      mode is always one the surface listed. */
  lemma ChosenPresentModeIsSupported(modes: seq<PresentMode>)
    requires PRESENT_MODE_FIFO in modes
    ensures ChooseSwapPresentMode(modes) in modes
  {
  }

  /** The selector does not check the list for FIFO: a surface that lists
      only IMMEDIATE still gets FIFO. */
  lemma FifoChosenWhenUnlisted()
    ensures ChooseSwapPresentMode([PRESENT_MODE_IMMEDIATE]) == PRESENT_MODE_FIFO
    ensures PRESENT_MODE_FIFO !in [PRESENT_MODE_IMMEDIATE]
  {
  }

  // ---------------------------------------------------------------------------
  // Extent
  // ---------------------------------------------------------------------------

  /** `r` is `x` pulled into `[lo, hi]`; when the bounds are crossed
      (`hi < lo`) the lower bound wins, as `max(lo, min(hi, x))` gives. */
  predicate ClampedTo(r: int, lo: int, hi: int, x: int) {
    && (lo <= hi ==> lo <= r <= hi)
    && (lo <= x <= hi ==> r == x)
    && (x < lo ==> r == lo)
    && (lo <= hi < x ==> r == hi)
    && (hi < lo ==> r == lo)
  }

  function Max(a: u32, b: u32): u32 { if a < b then b else a }

  function Min(a: u32, b: u32): u32 { if a < b then a else b }

  /** `std::max(lo, std::min(hi, x))`. */
  function Clamp(lo: u32, hi: u32, x: u32): (r: u32)
    ensures ClampedTo(r, lo, hi, x)
  {
    Max(lo, Min(hi, x))
  }

  /** `chooseSwapExtent`. Section "Surface Capabilities" of the WSI chapter:
      a current width of 0xFFFFFFFF means the swapchain decides the extent;
      otherwise the surface's current extent is used as is (only the width
      is compared). */
  function ChooseSwapExtent(caps: Capabilities, width: u32, height: u32): (r: Extent)
    ensures caps.currentExtent.width != UINT32_MAX ==> r == caps.currentExtent
    ensures caps.currentExtent.width == UINT32_MAX ==>
      && ClampedTo(r.width, caps.minImageExtent.width, caps.maxImageExtent.width, width)
      && ClampedTo(r.height, caps.minImageExtent.height, caps.maxImageExtent.height, height)
  {
    if caps.currentExtent.width != UINT32_MAX then caps.currentExtent
    else
      Extent(Clamp(caps.minImageExtent.width, caps.maxImageExtent.width, width),
             Clamp(caps.minImageExtent.height, caps.maxImageExtent.height, height))
  }

  /** When the swapchain decides the extent and the requested size lies within
      the reported bounds, the swapchain gets exactly the requested size. */
  lemma RequestedExtentKept(caps: Capabilities, width: u32, height: u32)
    requires caps.currentExtent.width == UINT32_MAX
    requires caps.minImageExtent.width <= width <= caps.maxImageExtent.width
    requires caps.minImageExtent.height <= height <= caps.maxImageExtent.height
    ensures ChooseSwapExtent(caps, width, height) == Extent(width, height)
  {
  }

  // ---------------------------------------------------------------------------
  // Image count
  // ---------------------------------------------------------------------------

  /** The image-count request of `createSwapchain`: one more than the minimum
      (a `uint32_t` sum), lowered to the maximum when the maximum is not 0
      ("no limit") and is exceeded. */
  function ChooseImageCount(caps: Capabilities): (r: u32)
    ensures caps.maxImageCount > 0 ==> r <= caps.maxImageCount
    ensures caps.minImageCount < UINT32_MAX && (caps.maxImageCount == 0 || caps.minImageCount < caps.maxImageCount)
      ==> r == caps.minImageCount + 1
    ensures 0 < caps.maxImageCount <= caps.minImageCount < UINT32_MAX ==> r == caps.maxImageCount
    ensures caps.minImageCount == UINT32_MAX ==> r == 0
  {
    var requested := AddU32(caps.minImageCount, 1);
    if caps.maxImageCount > 0 && requested > caps.maxImageCount then caps.maxImageCount else requested
  }

  /** On capabilities that obey the WSI chapter (at least one image; a
      non-zero maximum is at least the minimum) and whose minimum is below
      `UINT32_MAX`, the request is never below the minimum. */
  lemma ImageCountAtLeastMinimum(caps: Capabilities)
    requires 1 <= caps.minImageCount < UINT32_MAX
    requires caps.maxImageCount == 0 || caps.minImageCount <= caps.maxImageCount
    ensures caps.minImageCount <= ChooseImageCount(caps)
  {
  }

  /** The `+ 1` is a `uint32_t` sum: a minimum of `UINT32_MAX` with no
      maximum requests zero images. */
  lemma ImageCountWrapsAtMaximum()
    ensures ChooseImageCount(Capabilities(UINT32_MAX, 0, Extent(0, 0), Extent(0, 0), Extent(0, 0), 0, 0)) == 0
  {
  }

  // ---------------------------------------------------------------------------
  // Composite alpha
  // ---------------------------------------------------------------------------

  /** The preference order of the composite-alpha chain. */
  const ALPHA_PREFERENCE: seq<bv32> :=
    [COMPOSITE_ALPHA_INHERIT, COMPOSITE_ALPHA_OPAQUE, COMPOSITE_ALPHA_POST_MULTIPLIED, COMPOSITE_ALPHA_PRE_MULTIPLIED]

  predicate Supports(flags: bv32, bit: bv32) {
    flags & bit != 0
  }

  /** The position of the first mode at or after `i` in the preference
      order that `supported` offers, or the length of the order when none is. */
  function FirstSupportedFrom(supported: bv32, i: nat): (k: nat)
    requires i <= |ALPHA_PREFERENCE|
    decreases |ALPHA_PREFERENCE| - i
    ensures i <= k <= |ALPHA_PREFERENCE|
    ensures k < |ALPHA_PREFERENCE| ==> Supports(supported, ALPHA_PREFERENCE[k])
    ensures forall j :: i <= j < k ==> !Supports(supported, ALPHA_PREFERENCE[j])
  {
    if i == |ALPHA_PREFERENCE| || Supports(supported, ALPHA_PREFERENCE[i]) then i
    else FirstSupportedFrom(supported, i + 1)
  }

  /** The composite-alpha chain of `createSwapchain`: the first supported mode
      in preference order, OPAQUE when none is supported. */
  function ChooseCompositeAlpha(supported: bv32): (r: bv32)
    ensures var k := FirstSupportedFrom(supported, 0);
      && (k < |ALPHA_PREFERENCE| ==> r == ALPHA_PREFERENCE[k])
      && (k == |ALPHA_PREFERENCE| ==> r == COMPOSITE_ALPHA_OPAQUE)
  {
    if Supports(supported, COMPOSITE_ALPHA_INHERIT) then COMPOSITE_ALPHA_INHERIT
    else if Supports(supported, COMPOSITE_ALPHA_OPAQUE) then COMPOSITE_ALPHA_OPAQUE
    else if Supports(supported, COMPOSITE_ALPHA_POST_MULTIPLIED) then COMPOSITE_ALPHA_POST_MULTIPLIED
    else if Supports(supported, COMPOSITE_ALPHA_PRE_MULTIPLIED) then COMPOSITE_ALPHA_PRE_MULTIPLIED
    else COMPOSITE_ALPHA_OPAQUE
  }

  /** The chosen mode is one of the four the chain knows, and it is supported
      whenever any of them is. */
  lemma CompositeAlphaSupportedWhenAny(supported: bv32)
    ensures ChooseCompositeAlpha(supported) in ALPHA_PREFERENCE
    ensures (exists i :: 0 <= i < |ALPHA_PREFERENCE| && Supports(supported, ALPHA_PREFERENCE[i]))
      ==> Supports(supported, ChooseCompositeAlpha(supported))
  {
    var k := FirstSupportedFrom(supported, 0);
    if k == |ALPHA_PREFERENCE| {
      assert ALPHA_PREFERENCE[1] == COMPOSITE_ALPHA_OPAQUE;
    }
  }

  // ---------------------------------------------------------------------------
  // Queue families and sharing
  // ---------------------------------------------------------------------------

  /** `imageSharingMode` with its queue-family list. */
  datatype SharingMode = Exclusive | Concurrent(queueFamilyIndices: seq<nat>)

  /** The sharing decision of `createSwapchain`. */
  function ImageSharing(graphicsFamily: nat, presentFamily: nat): (r: SharingMode)
    ensures r.Concurrent? <==> graphicsFamily != presentFamily
    ensures r.Concurrent? ==> r.queueFamilyIndices == [graphicsFamily, presentFamily]
  {
    if graphicsFamily != presentFamily then Concurrent([graphicsFamily, presentFamily]) else Exclusive
  }

  /** The families `createLogicalDevice` requests one queue from: graphics
      first, present added when it differs. */
  function UniqueQueueFamilies(graphicsFamily: nat, presentFamily: nat): (r: seq<nat>)
    ensures 1 <= |r| && r[0] == graphicsFamily
    ensures forall f :: f in r <==> f == graphicsFamily || f == presentFamily
    ensures forall i, j :: 0 <= i < j < |r| ==> r[i] != r[j]
  {
    if presentFamily != graphicsFamily then [graphicsFamily, presentFamily] else [graphicsFamily]
  }

  /** A device created with two queue families is exactly one whose
      swapchain images must be shared concurrently. */
  lemma SharingMatchesQueueCreation(graphicsFamily: nat, presentFamily: nat)
    ensures ImageSharing(graphicsFamily, presentFamily).Concurrent?
      <==> |UniqueQueueFamilies(graphicsFamily, presentFamily)| == 2
  {
  }

  // ---------------------------------------------------------------------------
  // Swapchain create info
  // ---------------------------------------------------------------------------

  /** The decisions `createSwapchain` writes into `VkSwapchainCreateInfoKHR`. */
  datatype SwapchainCreateInfo = SwapchainCreateInfo(
    minImageCount: u32,
    surfaceFormat: SurfaceFormat,
    extent: Extent,
    sharing: SharingMode,
    preTransform: bv32,
    compositeAlpha: bv32,
    presentMode: PresentMode,
    clipped: bool)

  /** The create info of `createSwapchain`, once the caller has checked that
      formats and present modes are both non-empty. */
  function MakeSwapchainCreateInfo(support: SwapchainSupport, width: u32, height: u32,
                                   graphicsFamily: nat, presentFamily: nat): (r: SwapchainCreateInfo)
    requires |support.formats| > 0
    ensures r.surfaceFormat == ChooseSwapSurfaceFormat(support.formats) && r.surfaceFormat in support.formats
    ensures r.presentMode == ChooseSwapPresentMode(support.presentModes)
    ensures r.extent == ChooseSwapExtent(support.capabilities, width, height)
    ensures r.minImageCount == ChooseImageCount(support.capabilities)
    ensures r.compositeAlpha == ChooseCompositeAlpha(support.capabilities.supportedCompositeAlpha)
    ensures r.sharing == ImageSharing(graphicsFamily, presentFamily)
    ensures r.presentMode == PRESENT_MODE_MAILBOX || r.presentMode == PRESENT_MODE_FIFO
    ensures support.capabilities.maxImageCount > 0 ==> r.minImageCount <= support.capabilities.maxImageCount
    ensures r.sharing.Concurrent? <==> graphicsFamily != presentFamily
    ensures r.compositeAlpha in ALPHA_PREFERENCE
    ensures r.preTransform == support.capabilities.currentTransform && r.clipped
  {
    CompositeAlphaSupportedWhenAny(support.capabilities.supportedCompositeAlpha);
    SwapchainCreateInfo(
      ChooseImageCount(support.capabilities),
      ChooseSwapSurfaceFormat(support.formats),
      ChooseSwapExtent(support.capabilities, width, height),
      ImageSharing(graphicsFamily, presentFamily),
      support.capabilities.currentTransform,
      ChooseCompositeAlpha(support.capabilities.supportedCompositeAlpha),
      ChooseSwapPresentMode(support.presentModes),
      true)
  }
}

=== FILE: vk_types.dfy ===
/** Scalar types shared by the Vulkan renderer model: fixed-width integers,
    opaque handles and the result codes the control flow branches on. */
module VkTypes {

  /** The largest `uint32_t`, used by the renderer as a "not found" sentinel
      and by the surface query as "the swapchain decides the extent". */
  const UINT32_MAX: int := 0xFFFF_FFFF

  /** A `uint32_t` value. */
  type u32 = x: int | 0 <= x <= UINT32_MAX

  /** An opaque Vulkan or platform handle. `NULL` plays `VK_NULL_HANDLE`
      (and `nullptr` for the native window). */
  type Handle = nat

  const NULL: Handle := 0

  datatype Option<+T> = None | Some(value: T)

  /** The `VkResult` codes that the frame loop distinguishes: `VK_SUCCESS`,
      `VK_SUBOPTIMAL_KHR`, `VK_ERROR_OUT_OF_DATE_KHR` and
      `VK_ERROR_DEVICE_LOST`; every other code (errors and non-error codes
      alike) is `OtherResult`. */
  datatype VkResult = Success | Suboptimal | OutOfDate | DeviceLost | OtherResult

  /** C++ conversion of an `int` to `uint32_t`: reduction modulo 2^32. */
  function ToU32(x: int): (r: u32)
    ensures 0 <= x <= UINT32_MAX ==> r == x
    ensures x < 0 && x >= -0x1_0000_0000 ==> r == x + 0x1_0000_0000
  {
    x % 0x1_0000_0000
  }

  /** The `uint32_t` sum `a + b`, which wraps around past `UINT32_MAX`. */
  function AddU32(a: u32, b: u32): (r: u32)
    ensures a + b <= UINT32_MAX ==> r == a + b
    ensures a + b > UINT32_MAX ==> r == a + b - 0x1_0000_0000
  {
    (a + b) % 0x1_0000_0000
  }
}

=== FILE: vulkan_handle.dfy ===
/** The move-only ownership wrapper `VulkanHandle<HandleT, Deleter>` and its
    null-guarded deleters. A wrapper is a value; what a C++ program would do
    to it in place (move, reset, release, destruct) is a function returning
    the new values and the Vulkan calls the deleter makes. */
module UniqueHandle {
  import opened VkTypes

  /** The object type a deleter destroys, one per deleter struct. */
  datatype Target =
    | NativeWindow | Instance | Device
    | Surface | DebugMessenger
    | Swapchain | ImageView | RenderPass | Framebuffer | CommandPool | PipelineLayout | Pipeline
    | Buffer | DeviceMemory | DescriptorPool | DescriptorSetLayout | Semaphore | Fence

  /** Every deleter except those of the window, the instance and the device
      holds the parent instance or device the destroy call needs. */
  predicate NeedsParent(t: Target) {
    !(t == NativeWindow || t == Instance || t == Device)
  }

  /** A deleter: its target type and, where one is needed, the parent handle
      (`VK_NULL_HANDLE` by default). */
  datatype Deleter = Deleter(target: Target, parent: Handle)

  /** The calls a deleter makes. */
  datatype Call =
    | Destroy(target: Target, parent: Handle, handle: Handle)
    | WaitIdle(device: Handle)

  /** The handles destroyed by `calls`, in call order. */
  function Destroyed(calls: seq<Call>): seq<Handle> {
    if |calls| == 0 then []
    else (if calls[0].Destroy? then [calls[0].handle] else []) + Destroyed(calls[1..])
  }

  lemma {:induction false} DestroyedAppend(a: seq<Call>, b: seq<Call>)
    ensures Destroyed(a + b) == Destroyed(a) + Destroyed(b)
    decreases |a|
  {
    if |a| == 0 {
      assert a + b == b;
    } else {
      var head := if a[0].Destroy? then [a[0].handle] else [];
      assert (a + b)[0] == a[0];
      assert (a + b)[1..] == a[1..] + b;
      assert Destroyed(a + b) == head + Destroyed(a[1..] + b);
      DestroyedAppend(a[1..], b);
      assert Destroyed(a) == head + Destroyed(a[1..]);
    }
  }

  /** Whether a deleter would act on a non-null handle. */
  predicate CanDestroy(d: Deleter) {
    NeedsParent(d.target) ==> d.parent != NULL
  }

  /** Invoking the deleter on `h`. Every deleter does nothing for a null
      handle, and those with a parent also for a null parent. The device
      deleter waits for the device to go idle before destroying it. */
  function Delete(d: Deleter, h: Handle): (r: seq<Call>)
    ensures Destroyed(r) == (if h != NULL && CanDestroy(d) then [h] else [])
    ensures forall k :: 0 <= k < |r| && r[k].Destroy? ==> r[k].target == d.target
    ensures forall k :: 0 <= k < |r| && r[k].WaitIdle? ==> d.target == Device && r[k].device == h && k + 1 < |r|
  {
    if h == NULL then []
    else if NeedsParent(d.target) && d.parent == NULL then []
    else if d.target == Device then
      assert [WaitIdle(h), Destroy(Device, NULL, h)][1..] == [Destroy(Device, NULL, h)];
      assert [Destroy(Device, NULL, h)][1..] == [];
      assert Destroyed([Destroy(Device, NULL, h)]) == [h];
      assert Destroyed([WaitIdle(h), Destroy(Device, NULL, h)]) == [h];
      [WaitIdle(h), Destroy(Device, NULL, h)]
    else if NeedsParent(d.target) then [Destroy(d.target, d.parent, h)]
    else [Destroy(d.target, NULL, h)]
  }

  /** A device is idle before it is destroyed. */
  lemma DeviceWaitsBeforeDestroy(d: Deleter, h: Handle)
    requires d.target == Device && h != NULL
    ensures Delete(d, h) == [WaitIdle(h), Destroy(Device, NULL, h)]
  {
  }

  /** `VulkanHandle`: the held handle and the deleter. */
  datatype VulkanHandle = VulkanHandle(handle: Handle, deleter: Deleter)

  /** The default constructor: null handle, default deleter. */
  function Empty(t: Target): (r: VulkanHandle)
    ensures !IsSet(r) && r.deleter == Deleter(t, NULL)
  {
    VulkanHandle(NULL, Deleter(t, NULL))
  }

  /** The explicit constructor from a handle: the deleter is the default one,
      so a type whose deleter needs a parent will never destroy the handle. */
  function Wrap(h: Handle, t: Target): (r: VulkanHandle)
    ensures Get(r) == h && r.deleter == Deleter(t, NULL)
  {
    VulkanHandle(h, Deleter(t, NULL))
  }

  /** The constructor from a handle and a deleter. */
  function WrapWith(h: Handle, d: Deleter): (r: VulkanHandle)
    ensures Get(r) == h && r.deleter == d
  {
    VulkanHandle(h, d)
  }

  /** `get()`. */
  function Get(x: VulkanHandle): Handle {
    x.handle
  }

  /** `operator bool`. */
  function IsSet(x: VulkanHandle): (b: bool)
    ensures b <==> Get(x) != NULL
  {
    x.handle != NULL
  }

  /** The destructor: the deleter is invoked exactly when a non-null handle
      is held, and destroys that handle when its parent is known. */
  function Drop(x: VulkanHandle): (r: seq<Call>)
    ensures !IsSet(x) ==> r == []
    ensures Destroyed(r) == (if IsSet(x) && CanDestroy(x.deleter) then [Get(x)] else [])
  {
    if x.handle != NULL then Delete(x.deleter, x.handle) else []
  }

  /** A wrapper that only a parentless default deleter backs leaks: it never
      destroys what it holds. */
  lemma DefaultDeleterNeverDestroys(h: Handle, t: Target)
    requires NeedsParent(t)
    ensures Destroyed(Drop(Wrap(h, t))) == []
  {
  }

  datatype Moved = Moved(dst: VulkanHandle, src: VulkanHandle)

  /** The move constructor: the new wrapper takes handle and deleter, the
      source keeps its deleter and holds null. */
  function MoveFrom(src: VulkanHandle): (r: Moved)
    ensures Get(r.dst) == Get(src) && r.dst.deleter == src.deleter
    ensures !IsSet(r.src)
  {
    Moved(src, src.(handle := NULL))
  }

  datatype Assigned = Assigned(dst: VulkanHandle, src: VulkanHandle, calls: seq<Call>)

  /** The move assignment `dst = std::move(src)`. `aliased` says whether
      both name the same object, in which case nothing happens; otherwise
      the handle `dst` held is released through its deleter first. */
  function MoveAssign(dst: VulkanHandle, src: VulkanHandle, aliased: bool): (r: Assigned)
    requires aliased ==> dst == src
    ensures aliased ==> r == Assigned(dst, src, [])
    ensures !aliased ==> r.calls == Drop(dst) && Get(r.dst) == Get(src) && r.dst.deleter == src.deleter && !IsSet(r.src)
  {
    if aliased then Assigned(dst, src, [])
    else
      var calls := if dst.handle != NULL then Delete(dst.deleter, dst.handle) else [];
      Assigned(VulkanHandle(src.handle, src.deleter), src.(handle := NULL), calls)
  }

  datatype Replaced = Replaced(x: VulkanHandle, calls: seq<Call>)

  /** `reset(h)`: the old handle goes through the deleter, then `h` is held
      (`reset()` is `reset(VK_NULL_HANDLE)`). */
  function Reset(x: VulkanHandle, h: Handle): (r: Replaced)
    ensures Get(r.x) == h && r.x.deleter == x.deleter
    ensures r.calls == Drop(x)
  {
    Replaced(x.(handle := h), if x.handle != NULL then Delete(x.deleter, x.handle) else [])
  }

  datatype Released = Released(x: VulkanHandle, handle: Handle)

  /** `release()`: the handle is handed to the caller and the wrapper holds
      null; nothing is destroyed. */
  function Release(x: VulkanHandle): (r: Released)
    ensures r.handle == Get(x) && !IsSet(r.x) && r.x.deleter == x.deleter
  {
    Released(x.(handle := NULL), x.handle)
  }

  /** A moved-from or released wrapper is inert: destroying it calls nothing,
      and the destroy the source owed moves with the handle. */
  lemma MovedFromIsInert(x: VulkanHandle, y: VulkanHandle)
    ensures Drop(MoveFrom(x).src) == [] && Drop(MoveFrom(x).dst) == Drop(x)
    ensures Drop(MoveAssign(y, x, false).src) == [] && Drop(MoveAssign(y, x, false).dst) == Drop(x)
    ensures Drop(Release(x).x) == []
  {
  }

  /** Resetting a wrapper to the handle it already holds destroys the handle
      and keeps it, so the destructor destroys it a second time; this is why
      `reset` needs a handle nobody owns. */
  lemma ResetToSelfDestroysTwice(x: VulkanHandle)
    requires IsSet(x) && CanDestroy(x.deleter)
    ensures var r := Reset(x, Get(x));
      Destroyed(r.calls + Drop(r.x)) == [Get(x), Get(x)]
  {
    var r := Reset(x, Get(x));
    DestroyedAppend(r.calls, Drop(r.x));
  }

  // ---------------------------------------------------------------------------
  // Programs over many wrappers
  // ---------------------------------------------------------------------------

  /** The wrapper objects of a program (`None` once destructed) and every
      call their deleters made. */
  datatype World = World(objects: seq<Option<VulkanHandle>>, log: seq<Call>)

  const NO_OBJECTS := World([], [])

  /** One operation on the wrappers, naming them by their index. */
  datatype Op =
    | Construct(h: Handle, d: Deleter)
    | MoveConstruct(src: nat)
    | MoveAssignOp(dst: nat, src: nat)
    | ResetOp(at: nat, h: Handle)
    | ReleaseOp(at: nat)
    | Destruct(at: nat)

  predicate Exists(w: World, i: nat) {
    i < |w.objects| && w.objects[i].Some?
  }

  /** The handle object `i` holds, null when it holds none or is gone. */
  function HandleAt(w: World, i: nat): Handle {
    if Exists(w, i) then w.objects[i].value.handle else NULL
  }

  /** Applying an operation. Naming an object that does not exist is a use
      after destruction in C++, not a program; the model leaves the world
      unchanged for it. */
  function Apply(w: World, op: Op): (r: World)
    ensures |r.objects| >= |w.objects|
  {
    match op
    case Construct(h, d) => w.(objects := w.objects + [Some(WrapWith(h, d))])
    case MoveConstruct(src) =>
      if !Exists(w, src) then w
      else
        var m := MoveFrom(w.objects[src].value);
        w.(objects := w.objects[src := Some(m.src)] + [Some(m.dst)])
    case MoveAssignOp(dst, src) =>
      if !Exists(w, dst) || !Exists(w, src) || dst == src then w
      else
        var a := MoveAssign(w.objects[dst].value, w.objects[src].value, false);
        World(w.objects[dst := Some(a.dst)][src := Some(a.src)], w.log + a.calls)
    case ResetOp(i, h) =>
      if !Exists(w, i) then w
      else
        var r := Reset(w.objects[i].value, h);
        World(w.objects[i := Some(r.x)], w.log + r.calls)
    case ReleaseOp(i) =>
      if !Exists(w, i) then w
      else w.(objects := w.objects[i := Some(Release(w.objects[i].value).x)])
    case Destruct(i) =>
      if !Exists(w, i) then w
      else World(w.objects[i := None], w.log + Drop(w.objects[i].value))
  }

  /** `h` may be handed to a wrapper: it is null, or no wrapper holds it and
      it has not been destroyed. */
  predicate Fresh(w: World, h: Handle) {
    h == NULL || ((forall i :: 0 <= i < |w.objects| ==> HandleAt(w, i) != h) && h !in Destroyed(w.log))
  }

  predicate FreshFor(w: World, op: Op) {
    match op
    case Construct(h, _) => Fresh(w, h)
    case ResetOp(_, h) => Fresh(w, h)
    case _ => true
  }

  predicate NoDuplicates(s: seq<Handle>) {
    forall i, j :: 0 <= i < j < |s| ==> s[i] != s[j]
  }

  /** No handle destroyed twice, no handle held twice, no destroyed handle
      still held. */
  predicate Sound(w: World) {
    && NoDuplicates(Destroyed(w.log))
    && (forall i, j :: 0 <= i < j < |w.objects| && HandleAt(w, i) != NULL ==> HandleAt(w, i) != HandleAt(w, j))
    && (forall i :: 0 <= i < |w.objects| && HandleAt(w, i) != NULL ==> HandleAt(w, i) !in Destroyed(w.log))
  }

  lemma UniqueAt(w: World, i: nat, j: nat)
    requires Sound(w) && i != j && i < |w.objects| && j < |w.objects| && HandleAt(w, i) != NULL
    ensures HandleAt(w, i) != HandleAt(w, j)
  {
    if j < i && HandleAt(w, j) != NULL {
      assert HandleAt(w, j) != HandleAt(w, i);
    }
  }

  /** The object-by-object picture of an operation: object `k` of `r` holds
      what object `from[k]` of `w` held (or null, for `from[k] < 0`), no two
      objects take their handle from the same place, and the log grows only
      by destroying a handle that place `gone` held. */
  lemma Relabelled(w: World, r: World, from: seq<int>, gone: int, added: seq<Handle>)
    requires Sound(w)
    requires |from| == |r.objects| && -1 <= gone < |w.objects|
    requires forall k :: 0 <= k < |from| ==> -1 <= from[k] < |w.objects| && (from[k] < 0 || from[k] != gone)
    requires forall k :: 0 <= k < |from| ==> HandleAt(r, k) == (if from[k] < 0 then NULL else HandleAt(w, from[k]))
    requires forall k, l :: 0 <= k < l < |from| && from[k] >= 0 ==> from[k] != from[l]
    requires Destroyed(r.log) == Destroyed(w.log) + added
    requires added == [] || (gone >= 0 && added == [HandleAt(w, gone)] && HandleAt(w, gone) != NULL)
    ensures Sound(r)
  {
    if added != [] {
      assert HandleAt(w, gone) !in Destroyed(w.log);
    }
    forall k, l | 0 <= k < l < |r.objects| && HandleAt(r, k) != NULL
      ensures HandleAt(r, k) != HandleAt(r, l)
    {
      if from[l] >= 0 {
        UniqueAt(w, from[k], from[l]);
      }
    }
    forall k | 0 <= k < |r.objects| && HandleAt(r, k) != NULL
      ensures HandleAt(r, k) !in Destroyed(r.log)
    {
      if added != [] {
        UniqueAt(w, from[k], gone);
      }
    }
  }

  lemma ConstructSound(w: World, h: Handle, d: Deleter)
    requires Sound(w) && Fresh(w, h)
    ensures Sound(Apply(w, Construct(h, d)))
  {
    var r := Apply(w, Construct(h, d));
    var n := |w.objects|;
    forall i | 0 <= i < n
      ensures HandleAt(r, i) == HandleAt(w, i)
    {
    }
    assert HandleAt(r, n) == h;
    forall i, j | 0 <= i < j < |r.objects| && HandleAt(r, i) != NULL
      ensures HandleAt(r, i) != HandleAt(r, j)
    {
      if j < n {
        UniqueAt(w, i, j);
      }
    }
  }

  lemma MoveConstructSound(w: World, src: nat)
    requires Sound(w)
    ensures Sound(Apply(w, MoveConstruct(src)))
  {
    if Exists(w, src) {
      var r := Apply(w, MoveConstruct(src));
      var n := |w.objects|;
      var from := seq(n + 1, k requires 0 <= k <= n => if k == n then src else if k == src then -1 else k);
      forall k | 0 <= k < n + 1
        ensures HandleAt(r, k) == (if from[k] < 0 then NULL else HandleAt(w, from[k]))
      {
      }
      Relabelled(w, r, from, -1, []);
    }
  }

  lemma MoveAssignSound(w: World, dst: nat, src: nat)
    requires Sound(w)
    ensures Sound(Apply(w, MoveAssignOp(dst, src)))
  {
    if Exists(w, dst) && Exists(w, src) && dst != src {
      var r := Apply(w, MoveAssignOp(dst, src));
      var n := |w.objects|;
      var from := seq(n, k requires 0 <= k < n => if k == dst then src else if k == src then -1 else k);
      MoveAssignRelabels(w, dst, src, from);
      forall k, l | 0 <= k < l < n && from[k] >= 0
        ensures from[k] != from[l]
      {
      }
      Relabelled(w, r, from, dst, Destroyed(Drop(w.objects[dst].value)));
    }
  }

  /** After a move-assignment the target holds what the source held, the
      source holds null, every other object is untouched, and the log grows
      by what the target's old handle's deleter destroys. */
  lemma MoveAssignRelabels(w: World, dst: nat, src: nat, from: seq<int>)
    requires Exists(w, dst) && Exists(w, src) && dst != src
    requires |from| == |w.objects|
    requires forall k :: 0 <= k < |from| ==> from[k] == (if k == dst then src else if k == src then -1 else k)
    ensures var r := Apply(w, MoveAssignOp(dst, src));
      && |r.objects| == |from|
      && (forall k :: 0 <= k < |from| ==> HandleAt(r, k) == (if from[k] < 0 then NULL else HandleAt(w, from[k])))
      && Destroyed(r.log) == Destroyed(w.log) + Destroyed(Drop(w.objects[dst].value))
  {
    var r := Apply(w, MoveAssignOp(dst, src));
    var x := w.objects[dst].value;
    var a := MoveAssign(x, w.objects[src].value, false);
    assert r.objects == w.objects[dst := Some(a.dst)][src := Some(a.src)];
    assert r.log == w.log + Drop(x);
    assert HandleAt(w, dst) == Get(x);
    DestroyedAppend(w.log, Drop(x));
    forall k | 0 <= k < |from|
      ensures HandleAt(r, k) == (if from[k] < 0 then NULL else HandleAt(w, from[k]))
    {
      if k == src {
        assert r.objects[k] == Some(a.src);
      } else if k == dst {
        assert r.objects[k] == Some(a.dst);
      } else {
        assert r.objects[k] == w.objects[k];
      }
    }
  }

  lemma ResetSound(w: World, i: nat, h: Handle)
    requires Sound(w) && Fresh(w, h)
    ensures Sound(Apply(w, ResetOp(i, h)))
  {
    if Exists(w, i) {
      if h == NULL {
        ResetToNullSound(w, i);
      } else {
        ResetToFreshSound(w, i, h);
      }
    }
  }

  lemma ResetShape(w: World, i: nat, h: Handle)
    requires Exists(w, i)
    ensures var x := w.objects[i].value;
      Apply(w, ResetOp(i, h)) == World(w.objects[i := Some(Reset(x, h).x)], w.log + Reset(x, h).calls)
  {
  }

  /** `reset()`: the wrapper ends up holding null. */
  lemma ResetToNullSound(w: World, i: nat)
    requires Sound(w) && Exists(w, i)
    ensures Sound(Apply(w, ResetOp(i, NULL)))
  {
    ResetShape(w, i, NULL);
    var x := w.objects[i].value;
    ClearedSound(w, i, World(w.objects[i := Some(Reset(x, NULL).x)], w.log + Reset(x, NULL).calls));
  }

  /** Object `i` gives up its handle through its deleter and every other
      object is untouched: the world stays sound. */
  lemma ClearedSound(w: World, i: nat, r: World)
    requires Sound(w) && Exists(w, i) && |r.objects| == |w.objects|
    requires HandleAt(r, i) == NULL
    requires forall k :: 0 <= k < |w.objects| && k != i ==> r.objects[k] == w.objects[k]
    requires r.log == w.log + Drop(w.objects[i].value)
    ensures Sound(r)
  {
    var x := w.objects[i].value;
    var n := |w.objects|;
    assert HandleAt(w, i) == Get(x);
    DestroyedAppend(w.log, Drop(x));
    var before := Destroyed(w.log);
    assert Destroyed(r.log) == before + Destroyed(Drop(x));
    forall k | 0 <= k < n && k != i
      ensures HandleAt(r, k) == HandleAt(w, k)
    {
      assert Exists(r, k) == Exists(w, k);
    }
    if Destroyed(Drop(x)) != [] {
      assert Get(x) !in before;
    }
    forall k, l | 0 <= k < l < n && HandleAt(r, k) != NULL
      ensures HandleAt(r, k) != HandleAt(r, l)
    {
      if l != i {
        UniqueAt(w, k, l);
      }
    }
    forall k | 0 <= k < n && HandleAt(r, k) != NULL
      ensures HandleAt(r, k) !in Destroyed(r.log)
    {
      UniqueAt(w, k, i);
    }
  }

  /** Replacing the handle of one object by a fresh one keeps every held
      handle held once. */
  lemma ReplacedUnique(w: World, r: World, i: nat, h: Handle)
    requires Sound(w) && Fresh(w, h) && |r.objects| == |w.objects| && i < |w.objects|
    requires HandleAt(r, i) == h
    requires forall k :: 0 <= k < |w.objects| && k != i ==> HandleAt(r, k) == HandleAt(w, k)
    ensures forall k, l :: 0 <= k < l < |r.objects| && HandleAt(r, k) != NULL ==> HandleAt(r, k) != HandleAt(r, l)
  {
    forall k, l | 0 <= k < l < |r.objects| && HandleAt(r, k) != NULL
      ensures HandleAt(r, k) != HandleAt(r, l)
    {
      if k != i && l != i {
        UniqueAt(w, k, l);
      }
    }
  }

  /** Reset to a non-null handle: that handle is held by nobody else and was
      never destroyed. */
  lemma ResetToFreshSound(w: World, i: nat, h: Handle)
    requires Sound(w) && Fresh(w, h) && Exists(w, i) && h != NULL
    ensures Sound(Apply(w, ResetOp(i, h)))
  {
    ResetShape(w, i, h);
    var x := w.objects[i].value;
    var r := World(w.objects[i := Some(Reset(x, h).x)], w.log + Reset(x, h).calls);
    var n := |w.objects|;
    assert HandleAt(w, i) == Get(x);
    DestroyedAppend(w.log, Drop(x));
    forall k | 0 <= k < n && k != i
      ensures HandleAt(r, k) == HandleAt(w, k)
    {
    }
    assert HandleAt(r, i) == h;
    ReplacedUnique(w, r, i, h);
    forall k | 0 <= k < n && HandleAt(r, k) != NULL
      ensures HandleAt(r, k) !in Destroyed(r.log)
    {
      if k != i && IsSet(x) && CanDestroy(x.deleter) {
        UniqueAt(w, k, i);
      }
    }
  }

  lemma ReleaseSound(w: World, i: nat)
    requires Sound(w)
    ensures Sound(Apply(w, ReleaseOp(i)))
  {
    if Exists(w, i) {
      var r := Apply(w, ReleaseOp(i));
      var n := |w.objects|;
      var from := seq(n, k requires 0 <= k < n => if k == i then -1 else k);
      forall k | 0 <= k < n
        ensures HandleAt(r, k) == (if from[k] < 0 then NULL else HandleAt(w, from[k]))
      {
      }
      Relabelled(w, r, from, -1, []);
    }
  }

  lemma DestructShape(w: World, i: nat)
    requires Exists(w, i)
    ensures Apply(w, Destruct(i)) == World(w.objects[i := None], w.log + Drop(w.objects[i].value))
  {
  }

  lemma DestructSound(w: World, i: nat)
    requires Sound(w)
    ensures Sound(Apply(w, Destruct(i)))
  {
    if Exists(w, i) {
      DestructShape(w, i);
      var x := w.objects[i].value;
      ClearedSound(w, i, World(w.objects[i := None], w.log + Drop(x)));
    }
  }

  /** One operation keeps the world sound, given a fresh handle where one is
      handed over. */
  lemma ApplySound(w: World, op: Op)
    requires Sound(w) && FreshFor(w, op)
    ensures Sound(Apply(w, op))
  {
    match op
    case Construct(h, d) => ConstructSound(w, h, d);
    case MoveConstruct(src) => MoveConstructSound(w, src);
    case MoveAssignOp(dst, src) => MoveAssignSound(w, dst, src);
    case ResetOp(i, h) => ResetSound(w, i, h);
    case ReleaseOp(i) => ReleaseSound(w, i);
    case Destruct(i) => DestructSound(w, i);
  }

  function Run(w: World, ops: seq<Op>): World
    decreases |ops|
  {
    if |ops| == 0 then w else Run(Apply(w, ops[0]), ops[1..])
  }

  /** Every handle a program hands over is fresh when it is handed over. */
  predicate Admissible(w: World, ops: seq<Op>)
    decreases |ops|
  {
    |ops| == 0 || (FreshFor(w, ops[0]) && Admissible(Apply(w, ops[0]), ops[1..]))
  }

  lemma {:induction false} RunSound(w: World, ops: seq<Op>)
    requires Sound(w) && Admissible(w, ops)
    ensures Sound(Run(w, ops))
    decreases |ops|
  {
    if |ops| > 0 {
      ApplySound(w, ops[0]);
      RunSound(Apply(w, ops[0]), ops[1..]);
    }
  }

  /** Over any program of constructs, moves, move assignments, resets to
      fresh handles, releases and destructions, no handle is destroyed twice. */
  lemma DestroyedAtMostOnce(ops: seq<Op>)
    requires Admissible(NO_OBJECTS, ops)
    ensures NoDuplicates(Destroyed(Run(NO_OBJECTS, ops).log))
  {
    RunSound(NO_OBJECTS, ops);
  }
}
